=== FILE: README.md ===
# miniircd and its bots, modelled in Dafny

This project models the logic of a small IRC system:

- **the mini IRC server** (`server/IRCServer.cpp`, `server/Channel.cpp`):
  - tokenising a protocol line into a command and its parameters, the
    subset of the message grammar of section 2.3.1 of RFC 1459 it
    understands;
  - cutting a received chunk on CRLF;
  - dispatching on the command word;
  - the NICK, USER, PING, JOIN, PART, PRIVMSG, QUIT and NOTICE handlers
    with their numeric replies;
  - registration;
  - the removal of a disconnecting client;
  - one pass over all clients, and one turn of the main loop.
- **two IRC bots**:
  - `bot/bot2.py`, the class-based bot: its connect and join lines and
    its `handle_data` / `handle_privmsg` / `handle_slap` router;
  - `bot/bot.py`, the function-based bot: its registration lines, its
    substring-based `listen_for_messages` router, the slap and
    private-reply helpers, and the command-line handling of `main`.

The server state is immutable:

- a sequence of clients in connection order;
- a map from channel name to a set of client identities.

Every handler is a pure function from the state and the index of the
acting client to the next state and the writes it made, in order (`Step`).
One write is a `Send`: a set of recipients and a text. A `Send` with no
recipients stands for no write at all (a broadcast to a channel nobody else
is on). A channel is just its member set.

The bots are pure functions from received text to the lines they send.
Python's uncaught exceptions (an `IndexError` on a short token list, a
`ValueError` from `int`) are modelled as a `crashed` flag on the outcome.
Each `random.choice` is given the index the generator would draw, and the
contracts state membership of the pick and that every entry can be drawn.

Modules:

| module | file | what it holds |
|---|---|---|
| `Base` | base.dfy | `Option` |
| `Text` | text.dfy | substring search, joins, code-point order and the sorted keys of a map |
| `IrcParse` | irc_parse.dfy | `parseCommand` and a formatter it inverts |
| `Channel` | channel.dfy | `addClient`, `removeClient`, `broadcast` |
| `IrcServer` | irc_server.dfy | client and server state, every handler, `processCommand` |
| `ServerReceive` | server_receive.dfy | CRLF split, the per-chunk loop, disconnect cleanup, the pass over all clients |
| `ServerInvariants` | server_invariants.dfy | the invariants every transition keeps |
| `ServerProperties` | server_properties.dfy | error cases, delivery and registration per handler |
| `PyText` | py_text.dfy | Python's `str.split()`, `split(c)`, `split(' ', 1)`, `join`, `int`, `str`, `random.choice` |
| `Bot2` | bot2.dfy | bot/bot2.py |
| `Bot` | bot.dfy | bot/bot.py |
| `Wire` | wire.dfy | the bots' lines as the server reads them, and the server's texts as the bots read them |

Behaviours that look odd are kept as written:

- **Cleanup sends PART to every channel.** A disconnecting client is
  removed from every channel, and every channel gets a PART notice for it,
  including channels it never joined (server/IRCServer.cpp:193-199).
- **Trailing text is dropped.** The text after the last CRLF of a chunk is
  dropped, not buffered for the next read. A bare LF does not end a line
  (server/IRCServer.cpp:176-187).
- **An empty PRIVMSG/NOTICE target.** C++ reads the terminating NUL of an
  empty target, so the target is not a channel and is looked up as a
  nickname. That lookup can match a client that has not chosen a nickname
  yet.
- **bot2's command table keys keep their `!`.** The word after the `!` is
  what gets looked up, so `!hello` sends nothing while `!!hello` is
  answered (bot/bot2.py:76-83).
- **bot2's unreachable `!slap` branch.** The branch at bot/bot2.py:86
  cannot be reached.
- **bot2's `users` stays empty.** It is never filled, so a slap always
  finds nobody.
- **`FUN_RESPONSES` has six entries.** Lines 17-19 of bot/bot2.py lack
  commas and concatenate into one entry.
- **bot2 ignores single-line server texts, but not bare LFs.** Everything
  the server sends starts with `:`, so bot2's router ignores a text with no
  LF of its own (`Wire.Bot2IgnoresServer`). The server cuts lines only at
  CRLF, so a client's message can hold a bare LF, and the relay carries it.
  bot2 cuts at LF: a `PING x` after that LF is answered with `PONG x`
  (`Wire.Bot2AnswersRelayedPing`), and a message ending in a bare LF leaves
  a lone `\r` piece on which bot2 raises `IndexError`
  (`Wire.Bot2CrashesOnBareLf`).
- **The `sendmessage` typo.** server/Channel.cpp:8 calls `sendmessage`,
  while server/Client.h declares `sendMessage`. `Channel.Broadcast` models
  the evident intent, one write of the message to each recipient.

## Model

| member | source | states |
|---|---|---|
| IrcParse.ParseParams | server/IRCServer.cpp:310-330 | every parameter but the last is a middle token: non-empty, no space, not starting with `:` |
| IrcParse.ParseCommand | server/IRCServer.cpp:276-331 | the command word never contains a space and all parameters but the last are middle tokens |
| IrcParse.TrailingVerbatim | server/IRCServer.cpp:311-318 | after any run of spaces, a token starting with `:` is the last parameter: colon stripped, the rest kept verbatim with its spaces |
| IrcParse.LeadingSpacesSkipped | server/IRCServer.cpp:311-314 | runs of spaces before a parameter are skipped |
| IrcParse.PrefixOnlyLine | server/IRCServer.cpp:286-294 | a `:prefix` with no space after it yields the empty command and no parameters |
| IrcParse.CommandWithoutSpace | server/IRCServer.cpp:301-307 | a command word with no space after it has zero parameters |
| IrcParse.ParamsRoundTrip | server/IRCServer.cpp:310-330 | parsing formatted middle and trailing parameters gives them back in order |
| IrcParse.LineRoundTrip | server/IRCServer.cpp:276-331 | parsing a formatted line gives back its command word and parameters |
| IrcParse.PrefixedLineRoundTrip | server/IRCServer.cpp:285-295 | a prefix in front of a formatted line is dropped and the rest parses as without it |
| Channel.AddClient | server/Channel.cpp:13-15 | the client is a member afterwards, no other membership changes, adding a member changes nothing |
| Channel.RemoveClient | server/Channel.cpp:17-19 | the client is not a member afterwards, no other membership changes, removing a non-member changes nothing |
| Channel.Recipients | server/Channel.cpp:5-11 | the recipients are exactly the members other than the sender; a null sender excludes nobody |
| Channel.Broadcast | server/Channel.cpp:5-11 | the message goes to exactly the members other than the sender, never to the sender itself |
| Channel.RemoveUndoesAdd | server/Channel.cpp:13-19 | removing a client just added to a set it was not in restores the set |
| Channel.AddIdempotent | server/Channel.cpp:13-15 | adding twice is adding once |
| IrcServer.Others | server/IRCServer.cpp:596-602 | `broadcastToAll` reaches exactly the other clients of the roster |
| IrcServer.FindByNick | server/IRCServer.cpp:613-620 | the result is the first client holding the nickname, and none is found only when nobody holds it |
| IrcServer.IsValidNickname | server/IRCServer.cpp:604-611 | valid iff 1 to 9 characters, a letter first, and only letters, digits, `-` and `_` |
| IrcServer.CheckRegistration | server/IRCServer.cpp:580-594 | registered becomes set once both names are known and is never cleared; 001 and the MOTD are written exactly on the false-to-true transition |
| IrcServer.HandleNick | server/IRCServer.cpp:333-366 | only the acting client can change, channels are untouched, a registered client stays registered |
| IrcServer.HandleUser | server/IRCServer.cpp:368-385 | only the acting client can change, channels are untouched, a registered client stays registered |
| IrcServer.HandlePing | server/IRCServer.cpp:387-395 | the state is unchanged and exactly one write goes back to the sender |
| IrcServer.HandleJoin | server/IRCServer.cpp:397-442 | the roster is unchanged |
| IrcServer.HandlePart | server/IRCServer.cpp:444-474 | the roster is unchanged |
| IrcServer.HandlePrivmsg | server/IRCServer.cpp:476-524 | the state is unchanged and exactly one `Send` is recorded: the delivery or the error; a delivery with no recipient left stands for no write |
| IrcServer.HandleNotice | server/IRCServer.cpp:540-578 | the state is unchanged and at most one `Send` is recorded |
| IrcServer.HandleQuit | server/IRCServer.cpp:526-538 | the only change is that the acting client is marked disconnecting, and exactly one notice goes to every other client of the roster |
| IrcServer.Dispatch | server/IRCServer.cpp:254-273 | other clients are unchanged, the acting client keeps its identity, registration is never undone |
| IrcServer.ProcessCommand | server/IRCServer.cpp:247-274 | other clients are unchanged, the acting client keeps its identity, registration is never undone |
| IrcServer.Accept | server/IRCServer.cpp:131-153 | a fresh unregistered client with no names is appended after the others and gets the AUTH notice |
| ServerReceive.CString | server/IRCServer.cpp:172-173 | the text is the chunk up to its first NUL |
| ServerReceive.FindCrlf | server/IRCServer.cpp:178 | the result is the first CRLF at or after the start, and none is found only when there is none |
| ServerReceive.SplitCrlf | server/IRCServer.cpp:176-187 | joining the pieces with CRLF and appending the tail gives back the chunk; no piece or tail holds a CRLF |
| ServerReceive.SplitJoinRoundTrip | server/IRCServer.cpp:176-187 | cutting CRLF-terminated lines plus a tail gives back exactly those lines and that tail |
| ServerReceive.TailNeverProcessed | server/IRCServer.cpp:176-187 | text after the last CRLF is neither processed nor kept |
| ServerReceive.StopsAfterDisconnect | server/IRCServer.cpp:181-186 | once a piece marks the client disconnecting, later pieces change nothing and write nothing |
| ServerReceive.RunStopsWhenEnded | server/IRCServer.cpp:178-187 | once a line leaves the state ended, further lines change nothing |
| ServerReceive.RunInOrder | server/IRCServer.cpp:178-187 | running `a + b` is running `a`, then `b` from where `a` left off, unless `a` ended |
| ServerReceive.ProcessInOrder | server/IRCServer.cpp:178-187 | pieces are processed in order: `a + b` is `a`, then `b` from the resulting state |
| ServerReceive.OneLine | server/IRCServer.cpp:179-181 | a single piece is one call of `processCommand` |
| ServerReceive.ProcessLines | server/IRCServer.cpp:178-187 | the loop keeps the roster's length, the other clients and the acting client's identity |
| ServerReceive.ReceiveChunk | server/IRCServer.cpp:172-187 | handling a chunk keeps the roster's length and the acting client's identity |
| ServerReceive.ReceiveLoop | server/IRCServer.cpp:176-187 | the find/substr/erase loop computes what `ReceiveChunk` describes |
| ServerReceive.PartNotices | server/IRCServer.cpp:193-199 | one PART notice per channel, in key order, addressed to its members other than the leaver |
| ServerReceive.LeaveAll | server/IRCServer.cpp:193-208 | the leaver is out of every channel, and exactly the channels it would leave empty are deleted |
| ServerReceive.Cleanup | server/IRCServer.cpp:191-213 | the client leaves the roster and every channel, emptied channels are deleted, and every channel in key order gets a PART notice |
| ServerReceive.CleanupPartsEveryChannel | server/IRCServer.cpp:193-199 | every channel, joined or not, gets the leaver's PART notice addressed to its other members |
| ServerReceive.RemoveAt | server/IRCServer.cpp:213 | the roster keeps the clients before and after the erased one, in order |
| ServerReceive.ServeClient | server/IRCServer.cpp:164-216 | serving one client either erases exactly that client or keeps every client in place, the served one with its identity and no longer disconnecting; end of stream always erases it |
| ServerReceive.ServeOne | server/IRCServer.cpp:160-216 | one loop iteration either erases exactly the client it visits or keeps every client in place, the visited one with its identity and not disconnecting |
| ServerReceive.ServePass | server/IRCServer.cpp:157-218 | a pass from index `k` adds no client, leaves the clients before `k` untouched, and leaves no client from `k` on disconnecting |
| ServerReceive.Round | server/IRCServer.cpp:31-42 | one turn of the main loop adds at most one client, and afterwards no client is disconnecting |
| ServerInvariants.EditKeepsValid | server/IRCServer.cpp:350-365 | replacing a client by one with the same identity, a free valid nickname and consistent registration keeps the invariant |
| ServerInvariants.NickKeepsValid | server/IRCServer.cpp:333-366 | NICK keeps nicknames unique and valid and registration exact |
| ServerInvariants.UserKeepsValid | server/IRCServer.cpp:368-385 | USER keeps the invariant |
| ServerInvariants.JoinKeepsValid | server/IRCServer.cpp:397-442 | JOIN keeps channels named with `#`, non-empty, and holding only current clients |
| ServerInvariants.PartKeepsValid | server/IRCServer.cpp:444-474 | PART never leaves an empty channel behind |
| ServerInvariants.QuitKeepsValid | server/IRCServer.cpp:526-538 | QUIT keeps the invariant |
| ServerInvariants.ProcessCommandKeepsValid | server/IRCServer.cpp:247-274 | unique identities, unique non-empty nicknames, valid nicknames, registration exactly when both names are set, and well-formed non-empty channels hold after any line |
| ServerInvariants.RunLinesKeepsValid | server/IRCServer.cpp:178-187 | the invariant holds after any sequence of pieces |
| ServerInvariants.ReceiveChunkKeepsValid | server/IRCServer.cpp:172-187 | the invariant holds after any received chunk |
| ServerInvariants.CleanupKeepsRoster | server/IRCServer.cpp:210-213 | erasing a client keeps identities and nicknames unique and registration exact |
| ServerInvariants.CleanupKeepsChannels | server/IRCServer.cpp:191-208 | after cleanup no channel is empty and no channel holds the removed client |
| ServerInvariants.CleanupKeepsValid | server/IRCServer.cpp:191-213 | cleanup keeps the whole invariant |
| ServerInvariants.ServeClientKeepsValid | server/IRCServer.cpp:160-216 | serving a client keeps the invariant and leaves no client marked disconnecting |
| ServerInvariants.ServeOneKeepsValid | server/IRCServer.cpp:160-216 | one loop iteration keeps the invariant and leaves no client marked disconnecting |
| ServerInvariants.ServePassKeepsValid | server/IRCServer.cpp:157-218 | a whole pass over the clients keeps the invariant and leaves no client marked disconnecting |
| ServerInvariants.AcceptKeepsValid | server/IRCServer.cpp:120-155 | accepting a connection with a fresh identity keeps the invariant |
| ServerInvariants.RoundKeepsValid | server/IRCServer.cpp:31-42 | a turn of the main loop keeps the invariant when the new connection's identity is fresh |
| ServerInvariants.EmptyIsValid | server/IRCServer.cpp:12 | the empty server satisfies the invariant |
| ServerProperties.ErrorReplyOf | server/IRCServer.cpp:335-336 | a numeric written to the acting client alone is an error reply with that code |
| ServerProperties.NickErrors | server/IRCServer.cpp:334-356 | no parameter answers 431, an invalid nickname 432, a nickname held by another client 433; none changes the state |
| ServerProperties.NickSuccess | server/IRCServer.cpp:358-365 | a successful NICK sets the nickname, keeps nicknames unique, and announces the change to the others iff the client was registered |
| ServerProperties.UserErrors | server/IRCServer.cpp:369-379 | fewer than four parameters answers 461, USER after registration answers 462; neither changes the state |
| ServerProperties.UserRecordsFields | server/IRCServer.cpp:381-383 | an accepted USER records user name, host name and real name from parameters 0, 1 and 3 and keeps the nickname |
| ServerProperties.CheckRegistrationWelcome | server/IRCServer.cpp:580-594 | 001 is written iff the client goes from unregistered to registered |
| ServerProperties.NickHasNoSpace | server/IRCServer.cpp:604-611 | under the invariant no nickname contains a space |
| ServerProperties.NickWelcome | server/IRCServer.cpp:333-366 | NICK writes 001 iff it registers the client |
| ServerProperties.UserWelcome | server/IRCServer.cpp:368-385 | USER writes 001 iff it registers the client |
| ServerProperties.PingReplies | server/IRCServer.cpp:387-395 | PING without an origin answers 409; otherwise the origin comes back to the sender alone in a PONG; the state never changes |
| ServerProperties.PingNoWelcome | server/IRCServer.cpp:387-395 | PING never writes 001 |
| ServerProperties.JoinNoWelcome | server/IRCServer.cpp:397-442 | JOIN never writes 001 |
| ServerProperties.PartNoWelcome | server/IRCServer.cpp:444-474 | PART never writes 001 |
| ServerProperties.PrivmsgNoWelcome | server/IRCServer.cpp:476-524 | PRIVMSG never writes 001 |
| ServerProperties.NoticeNoWelcome | server/IRCServer.cpp:540-578 | NOTICE never writes 001 |
| ServerProperties.QuitNoWelcome | server/IRCServer.cpp:526-538 | QUIT never writes 001 |
| ServerProperties.QuitNotifiesOthers | server/IRCServer.cpp:526-538 | QUIT sends one `QUIT :Quit` notice, with the reason when one is given, to every other client of the roster, channels or not, and never to the quitting client |
| ServerProperties.ProcessCommandWelcome | server/IRCServer.cpp:247-274 | 001 is written on exactly the line that registers the client, never otherwise |
| ServerProperties.DeliveredText | server/IRCServer.cpp:476-524 | a message is delivered iff it has two parameters, non-empty text and an existing target the sender may reach; the relayed text names sender, verb, target and message |
| ServerProperties.RouteErrors | server/IRCServer.cpp:476-506 | which check fails, in order: too few parameters, empty text, unknown target, not on the channel |
| ServerProperties.PrivmsgErrors | server/IRCServer.cpp:476-519 | PRIVMSG answers 461, 412, 401 or 442 in that order, only to the sender, and never changes the state |
| ServerProperties.ChannelMessageRecipients | server/IRCServer.cpp:493-509 | a deliverable channel message reaches exactly the members other than the sender |
| ServerProperties.PrivateMessageRecipient | server/IRCServer.cpp:511-522 | a deliverable private message goes to the first client holding the nickname, and only to it |
| ServerProperties.PrivateMessageToHolder | server/IRCServer.cpp:511-522 | with unique nicknames the private message goes to the holder of the nickname |
| ServerProperties.NoticeLikePrivmsg | server/IRCServer.cpp:540-578 | NOTICE delivers under exactly PRIVMSG's conditions to the same recipients, and otherwise writes nothing |
| ServerProperties.JoinErrors | server/IRCServer.cpp:398-409 | no parameter answers 461, a name not starting with `#` answers 476; neither changes the state |
| ServerProperties.JoinAgain | server/IRCServer.cpp:417-420 | joining a channel one is on changes nothing and writes nothing |
| ServerProperties.JoinSuccess | server/IRCServer.cpp:411-441 | the joiner is added (the channel created if needed), other channels are untouched, all members including the joiner get the JOIN, then the 332 no-topic reply, the 353 list of the channel's members and the 366 end-of-names reply go to the joiner alone |
| ServerProperties.NamesListed | server/IRCServer.cpp:432-436 | the 353 list names every member of the channel |
| ServerProperties.JoinNamesEveryMember | server/IRCServer.cpp:431-437 | the 353 reply of a successful JOIN names every roster client in the channel afterwards, the joiner included |
| ServerProperties.PartErrors | server/IRCServer.cpp:445-464 | no parameter answers 461, an unknown channel 403, a non-member 442; none changes the state |
| ServerProperties.PartSuccess | server/IRCServer.cpp:466-473 | the leaver is removed, the channel is deleted iff it was the last member, other channels are untouched, and the remaining members but not the leaver are told |
| ServerProperties.UnknownCommand | server/IRCServer.cpp:270-273 | a command word outside the eight known ones (case-sensitive) answers 421 and changes nothing |
| ServerProperties.EmptyLineIgnored | server/IRCServer.cpp:248 | an empty line changes nothing and writes nothing |
| Text.Find | server/IRCServer.cpp:178 | the first occurrence of a substring, or none exactly when it does not occur |
| Text.SortedKeys | server/IRCServer.cpp:193 | the keys of a map, each once, in strictly increasing code-point order, the order `std::map` visits them |
| PyText.Words | bot/bot2.py:68 | `str.split()` yields whitespace-free non-empty words |
| PyText.WordsOfJoin | bot/bot2.py:73 | splitting words joined by single spaces gives the words back |
| PyText.WordsIgnoreTrailingSpace | bot/bot2.py:68 | trailing whitespace such as the `\r` of a CRLF adds no word |
| PyText.SplitOn | bot/bot2.py:65 | `split(c)` yields at least one piece, exactly one iff `c` does not occur, and no piece holds `c` |
| PyText.JoinSplitOn | bot/bot.py:84 | joining the pieces of `split(c)` with `c` gives back the string |
| PyText.SplitOnJoin | bot/bot.py:84 | splitting pieces joined with `c` gives back the pieces when none holds `c` |
| PyText.SplitOnce | bot/bot2.py:82 | `split(' ', 1)` yields one or two pieces, the first without a space, which joined with a space give back the string |
| PyText.UpTo | bot/bot.py:52 | `s.split(c)[0]` is the longest prefix without `c` |
| PyText.Choose | bot/bot2.py:90 | `random.choice` returns an element of the list |
| PyText.ChooseReaches | bot/bot2.py:90 | every element of the list can be drawn |
| PyText.Without | bot/bot2.py:94 | the candidates are exactly the users other than the bot and the target |
| PyText.IntOfString | bot/bot.py:86 | `int` reads back the decimal text of any integer |
| PyText.PyIntOfDigits | bot/bot.py:86 | `int` of a digit string is its decimal value |
| PyText.PyIntOfNegative | bot/bot.py:86 | `int` of `-` and a digit string is the negated decimal value |
| PyText.AndThen | bot/bot2.py:66-73 | a crash ends the processing; otherwise the sends are concatenated |
| Bot2.NewBot | bot/bot2.py:24-30 | a new bot keeps its nickname and channel and starts with no users |
| Bot2.FirstOrNone | bot/bot2.py:87 | the first argument if there is one, otherwise none |
| Bot2.ConnectLines | bot/bot2.py:35-36 | `connect` sends two CRLF-terminated lines, NICK then USER |
| Bot2.JoinLine | bot/bot2.py:104 | `join_channel` sends one CRLF-terminated JOIN line; `Wire.Bot2JoinLineArrives` shows it names the bot's channel |
| Bot2.HandleSlap | bot/bot2.py:92-101 | every slap answer is a CRLF-terminated PRIVMSG to the target |
| Bot2.HandlePrivmsg | bot/bot2.py:75-90 | at most one line is sent, always a PRIVMSG to the target, and exactly one for a message not starting with `!` |
| Bot2.HandleLine | bot/bot2.py:67-73 | one piece sends at most one line, and a piece that raises sends nothing |
| Bot2.HandleLines | bot/bot2.py:66-73 | the loop sends at most one line per piece |
| Bot2.HandleData | bot/bot2.py:64-73 | at most one line per LF-separated piece, so data without an LF gets at most one line |
| Bot2.RemarkFromTable | bot/bot2.py:88-90 | a message not starting with `!` gets exactly one remark from `FUN_RESPONSES`, and every remark can be drawn |
| Bot2.CommandLookup | bot/bot2.py:81-87 | for a `!` message the word after the `!` is looked up: a hit sends exactly the table's text, a miss sends nothing |
| Bot2.HelloNeedsTwoBangs | bot/bot2.py:76-85 | `!hello` sends nothing and `!!hello` sends the greeting |
| Bot2.SlapVictim | bot/bot2.py:93-97 | a drawn victim is one of the users and neither the bot nor the target |
| Bot2.SlapWithoutVictim | bot/bot2.py:92-101 | with no candidate the bot says nobody can be slapped; a named user on the list is slapped by name |
| Bot2.FreshBotNeverSlaps | bot/bot2.py:30 | a bot as constructed never slaps anybody |
| Bot2.LineRouting | bot/bot2.py:67-73 | for every piece: only a first token of exactly `PING` or `PRIVMSG` sends anything; the piece raises `IndexError` exactly when it is blank but not empty, a `PING` without argument or a `PRIVMSG` without target; `PING x` answers `PONG x`; a `PRIVMSG` hands its third token and its remaining words joined by single spaces to `handle_privmsg`, so it is answered only to its third token |
| Bot2.BlankLineCrashes | bot/bot2.py:67-69 | a non-empty line of whitespace, such as a lone `\r`, raises `IndexError` |
| Bot2.PingGetsPong | bot/bot2.py:64-71 | a CRLF-terminated `PING x` is answered with exactly `PONG x` |
| Bot2.DataInOrder | bot/bot2.py:64-73 | the pieces between `\n` are handled in order, each with its own draw |
| Bot.Listen | bot/bot.py:26-34 | one received chunk gets at most one reply |
| Bot.RegistrationLines | bot/bot.py:18-20 | `connect_to_server` sends three CRLF-terminated lines: USER, NICK, JOIN |
| Bot.SendMessage | bot/bot.py:37-40 | at most one CRLF-terminated PRIVMSG is sent; the call raises exactly when it sends nothing, and never for a chunk starting with `PRIVMSG` |
| Bot.SlapTarget | bot/bot.py:43-54 | the victim is a roster entry or the explicitly named `:target`, and reading it fails only for a chunk of fewer than two tokens |
| Bot.HandleSlapCommand | bot/bot.py:43-54 | at most one line; the command raises exactly when it sends nothing, and never for a chunk of three or more tokens |
| Bot.RespondToPrivate | bot/bot.py:63-68 | at most one line; the reply raises exactly when the chunk has fewer than two tokens, and otherwise sends one line |
| Bot.ListenPriority | bot/bot.py:29-34 | greeting first, then slap, then a private reply when `PRIVMSG` and the nickname both occur, else nothing |
| Bot.SendMessageDestination | bot/bot.py:37-40 | the destination is the last token of a chunk starting with `PRIVMSG` (never failing), otherwise the third token or a crash |
| Bot.ImplicitSlapFromRoster | bot/bot.py:50-54 | without an explicit target the victim comes from the roster, is re-drawn only when it is the bot or the sender, and a crash happens only when the second token is missing |
| Bot.ExplicitSlapTarget | bot/bot.py:45-49 | an explicit `:target` is slapped as named unless it is the bot, which is replaced by a roster pick |
| Bot.RosterAlwaysHasTarget | bot/bot.py:57-60 | the roster is non-empty and each entry can be picked |
| Bot.PrivateReply | bot/bot.py:63-68 | the private reply is one of `random_responses`, sent to the second token up to its first `!` |
| Bot.ArgValue | bot/bot.py:84 | `arg.split('=')[1]` fails exactly when there is no `=` |
| Bot.ArgValueOf | bot/bot.py:84 | `--flag=value` yields the value |
| Bot.ApplyArg | bot/bot.py:82-90 | only an argument starting with one of the four flags can raise, and only when it has no `=` or is a `--port` |
| Bot.ApplyArgs | bot/bot.py:82-90 | the loop raises only if some argument is such a failing flag |
| Bot.ParseArgs | bot/bot.py:72-74 | fewer than four arguments after the script name print the usage |
| Bot.UnnamedSettingsKept | bot/bot.py:82-90 | a setting no argument names keeps its value through the loop |
| Bot.ArgKeepsUnnamed | bot/bot.py:83-90 | one argument changes only the setting its flag names |
| Bot.DefaultsAndHost | bot/bot.py:77-94 | without `--host` the script never connects; unnamed settings keep 6667, `DefaultBot` and `#default` |
| Bot.FlagWithoutValueCrashes | bot/bot.py:83-90 | a recognised flag without `=` raises `IndexError` |
| Bot.SetHost | bot/bot.py:83-84 | `--host=v` sets the host |
| Bot.SetPort | bot/bot.py:85-86 | `--port=v` sets the port to `int(v)` |
| Bot.SetName | bot/bot.py:87-88 | `--name=v` sets the nickname |
| Bot.SetChannel | bot/bot.py:89-90 | `--channel=v` sets the channel |
| Bot.AllFlagsGiven | bot/bot.py:71-96 | all four flags given in full are read back as given and the bot connects with them |
| Wire.NicknameIsMiddle | server/IRCServer.cpp:604-611 | a valid nickname is a middle parameter without CR or LF |
| Wire.NickLineParses | bot/bot2.py:35 | `NICK n` parses as NICK with the single parameter `n` |
| Wire.Bot2UserLineParses | bot/bot2.py:36 | `USER n 0 * :n` gives USER its four parameters |
| Wire.BotUserLineParses | bot/bot.py:18 | `USER n n n :n` gives USER its four parameters |
| Wire.JoinLineParses | bot/bot2.py:104 | `JOIN c` parses as JOIN with the single parameter `c` |
| Wire.TwoLines | bot/bot2.py:35-36 | two CRLF-terminated lines reach the server as those two pieces |
| Wire.ThreeLines | bot/bot.py:18-20 | three CRLF-terminated lines reach the server as those three pieces |
| Wire.NickLineStep | server/IRCServer.cpp:333-366 | a NICK with a free valid nickname sets it, registers iff the user name is known, and writes 001 and the MOTD iff it registers |
| Wire.UserStep | server/IRCServer.cpp:368-385 | USER with four parameters from an unregistered client records the names, registers iff the nickname is known, and writes 001 and the MOTD iff it registers |
| Wire.Bot2Registers | bot/bot2.py:32-36 | bot2's connect lines register a fresh connection under its nickname and user name, and the server answers with 001 and the MOTD only |
| Wire.BotUserThenNick | bot/bot.py:18-19 | bot.py's USER then NICK register the connection, with 001 and the MOTD as the only replies |
| Wire.BotChunkLines | bot/bot.py:18-20 | bot.py's three lines reach the server as three pieces |
| Wire.BotRegistersAndJoins | bot/bot.py:15-20 | bot.py's registration lines register the connection and put it in the channel |
| Wire.JoinLineStep | bot/bot2.py:103-104 | a `JOIN c` piece puts the client in channel `c` |
| Wire.Bot2JoinLineArrives | bot/bot2.py:103-104 | bot2's join line reaches the server as the single piece `JOIN <channel>`, which parses as JOIN with the bot's channel |
| Wire.PrefixedLineIgnored | bot/bot2.py:67-73 | a line starting with `:` is neither PING nor PRIVMSG to bot2 |
| Wire.Bot2IgnoresServer | bot/bot2.py:64-73 | a server text starting with `:` and holding no LF of its own, followed by CRLF, makes bot2 send nothing |
| Wire.Bot2AnswersRelayedPing | bot/bot2.py:64-71 | a relayed message holding an LF followed by `PING x` is answered by bot2 with `PONG x` |
| Wire.Bot2CrashesOnBareLf | bot/bot2.py:64-69 | a relayed text ending in a bare LF before the CRLF makes bot2 raise `IndexError` on the lone `\r` |
| Wire.ServerTextsArePrefixed | server/IRCServer.cpp:393 | every relayed or numeric server text starts with `:` and ends with CRLF |
| Wire.RelayHasGreeting | bot/bot.py:29 | a relayed channel message starting with `!hello` contains `:!hello` |
| Wire.RelayWords | bot/bot.py:39 | a relayed message splits into sender, `PRIVMSG`, channel and the message words |
| Wire.BotGreetsInChannel | bot/bot.py:29-40 | a relayed `!hello` channel message is answered with the greeting in that channel |

## Left out

- Sockets, `select`, `accept`, `inet_ntop`, `recv`, `send` and console
  output of the server (server/IRCServer.cpp:27-155) are not modelled.
  - A read becomes a parameter of `ServeClient`: the chunk, or none for end
    of stream.
  - A new connection becomes a parameter of `Round`.
  - Which clients `select` reports readable becomes a parameter of
    `ServePass`. `ServePass` does not force a client accepted in the same
    turn to be quiet.
- `BUFFER_SIZE` truncation of reads is not modelled: a chunk is any text.
- `isalpha`/`isalnum` are taken in the "C" locale (ASCII letters and digits).
- `disconnectClient(iterator)` (server/IRCServer.cpp:220-241) is never
  called and is not modelled; the live removal path is the cleanup at lines
  191-213.
- Client identities stand for `Client*` pointers. Pointer order therefore
  cannot be modelled, and the 353 list names members in roster order rather
  than in the `std::set<Client*>` order. `ServerProperties.NamesListed`
  states membership of the list only.
- `std::map<std::string, Channel*>` order is modelled as code-point order
  of the names (`Text.SortedKeys`). This is `std::string` order for
  characters below 128.
- The uniformity of `random.choice` is not modelled: a draw is an index
  given from outside.
- The bots' sockets, `listen` loops, `cleanup`, `sys.exit`, `logging`,
  `print` and bot2's `argparse` defaults (bot/bot2.py:32-62, 107-121;
  bot/bot.py:15-17, 22-28, 71-74, 92-96) are not modelled. Only the lines
  the bots send and the decisions they make are.
- `int` is modelled on ASCII digits with an optional sign, surrounding
  whitespace and single underscores between digits, as Python accepts
  them; only non-ASCII Unicode digits are not modelled.
- Text is a sequence of characters: UTF-8 decoding of received bytes and
  encoding of sent lines are not modelled.
- PyText.PyIntOfNegative: its ensures says the result is present and
  carries the negated value, rather than equating the result with the
  optional value directly; the two are equivalent.
- The unused `Thread` import of bot/bot.py is not modelled.

=== FILE: base.dfy ===
/** Small shared vocabulary: optional values. */
module Base {

  /** A value that may be absent, used where the source returns a null
      pointer, `npos`, or Python's `None`. */
  datatype Option<T> = None | Some(value: T)
}

=== FILE: bot.dfy ===
/** The function-based bot (bot/bot.py): its registration lines, the
    routing of each received chunk by substring tests, the slap and
    private-reply helpers, and the command-line handling of `main`.
    A Python exception ends the script and is modelled as a crashed
    `Outcome`; each `random.choice` is given the index it would draw. */
module Bot {
  import opened Base
  import opened Text
  import opened PyText

  const RandomResponses: seq<string> := [
    "I'm not sure what you mean by that...",
    "Did you know that elephants never forget?",
    "Let's not talk about that...",
    "Interesting fact: the human brain is only 2% of our body weight but consumes 20% of our energy!"
  ]

  /** `get_channel_users`: a fixed roster whatever the channel. */
  const ChannelUsers: seq<string> := ["user1", "user2", "user3"]

  /** The three lines `connect_to_server` sends, in order. */
  function RegistrationLines(nickname: string, channel: string): (lines: seq<string>)
    ensures |lines| == 3
    ensures StartsWith(lines[0], "USER ") && StartsWith(lines[1], "NICK ") && StartsWith(lines[2], "JOIN ")
    ensures forall i :: 0 <= i < |lines| ==> EndsInCrlf(lines[i])
  {
    var user := "USER " + nickname + " " + nickname + " " + nickname + " :" + nickname + "\r\n";
    var nick := "NICK " + nickname + "\r\n";
    var join := "JOIN " + channel + "\r\n";
    assert user[..5] == "USER " && nick[..5] == "NICK " && join[..5] == "JOIN ";
    [user, nick, join]
  }

  function Say(to: string, text: string): (line: string)
    ensures StartsWith(line, "PRIVMSG " + to + " :") && EndsInCrlf(line)
  {
    var line := "PRIVMSG " + to + " :" + text + "\r\n";
    assert line[..|"PRIVMSG " + to + " :"|] == "PRIVMSG " + to + " :";
    line
  }

  function Slapped(target: string): string
  {
    "@" + target + " just got slapped with a trout!"
  }

  /** `send_message`: the destination is the last token when the chunk
      starts with `PRIVMSG`, otherwise the third token. */
  function SendMessage(message: string, data: string): (r: Outcome)
    ensures |r.sent| <= 1
    ensures r.crashed <==> r.sent == []
    ensures forall i :: 0 <= i < |r.sent| ==> StartsWith(r.sent[i], "PRIVMSG ") && EndsInCrlf(r.sent[i])
    ensures StartsWith(data, "PRIVMSG") ==> !r.crashed
  {
    var tokens := Words(data);
    assert StartsWith(data, "PRIVMSG") ==> |tokens| > 0 by {
      if StartsWith(data, "PRIVMSG") { assert data[0] == 'P'; WordsOfNonSpaceStart(data); }
    }
    if StartsWith(data, "PRIVMSG") then
      if |tokens| == 0 then Outcome([], true)
      else Outcome([Say(tokens[|tokens| - 1], message)], false)
    else if |tokens| < 3 then Outcome([], true)
    else Outcome([Say(tokens[2], message)], false)
  }

  /** Whom `handle_slap_command` slaps, or `None` when reading `parts[1]`
      fails. An explicit `:target` third token is used unless it is the
      bot itself; otherwise a roster pick is re-drawn once if it is the bot
      or the sender (the second token up to `!`). */
  function SlapTarget(nickname: string, parts: seq<string>, r1: nat, r2: nat): (t: Option<string>)
    ensures t.None? ==> |parts| < 2
    ensures t.Some? ==> t.value in ChannelUsers || (|parts| > 2 && StartsWith(parts[2], ":") && t.value == parts[2][1..])
  {
    if |parts| > 2 && StartsWith(parts[2], ":") then
      var named := parts[2][1..];
      Some(if named == nickname then Choose(ChannelUsers, r1) else named)
    else
      var pick := Choose(ChannelUsers, r1);
      if pick == nickname then Some(Choose(ChannelUsers, r2))
      else if |parts| < 2 then None
      else if pick == UpTo(parts[1], '!') then Some(Choose(ChannelUsers, r2))
      else Some(pick)
  }

  function HandleSlapCommand(nickname: string, data: string, r1: nat, r2: nat): (r: Outcome)
    ensures |r.sent| <= 1
    ensures r.crashed <==> r.sent == []
    ensures |Words(data)| >= 3 ==> !r.crashed
  {
    match SlapTarget(nickname, Words(data), r1, r2)
    case None => Outcome([], true)
    case Some(target) => SendMessage(Slapped(target), data)
  }

  /** `respond_to_private_message`: a random reply to the sender named by
      the second token up to `!`. */
  function RespondToPrivate(data: string, roll: nat): (r: Outcome)
    ensures |r.sent| <= 1
    ensures r.crashed <==> |Words(data)| < 2
    ensures r.crashed <==> r.sent == []
  {
    var response := Choose(RandomResponses, roll);
    var parts := Words(data);
    if |parts| < 2 then Outcome([], true)
    else Outcome([Say(UpTo(parts[1], '!'), response)], false)
  }

  /** One pass of `listen_for_messages` over a received chunk: the first
      matching rule wins and the others are not looked at. */
  function Listen(nickname: string, data: string, r1: nat, r2: nat): (r: Outcome)
    ensures |r.sent| <= 1
  {
    if Contains(data, ":!hello") then SendMessage("Hello there!", data)
    else if Contains(data, ":!slap") then HandleSlapCommand(nickname, data, r1, r2)
    else if Contains(data, "PRIVMSG") && Contains(data, nickname) then RespondToPrivate(data, r1)
    else Outcome([], false)
  }

  // ---------------------------------------------------------------------
  // Properties

  /** The routing priority: greeting, then slap, then private reply, then
      silence. */
  lemma ListenPriority(nickname: string, data: string, r1: nat, r2: nat)
    ensures Contains(data, ":!hello") ==> Listen(nickname, data, r1, r2) == SendMessage("Hello there!", data)
    ensures !Contains(data, ":!hello") && Contains(data, ":!slap") ==>
      Listen(nickname, data, r1, r2) == HandleSlapCommand(nickname, data, r1, r2)
    ensures !Contains(data, ":!hello") && !Contains(data, ":!slap") ==>
      (Listen(nickname, data, r1, r2).sent != [] <==>
        Contains(data, "PRIVMSG") && Contains(data, nickname) && |Words(data)| >= 2)
  {
  }

  /** Where `send_message` writes: the last token of a chunk starting with
      `PRIVMSG`, which cannot fail, or else the third token. */
  lemma SendMessageDestination(message: string, data: string)
    ensures StartsWith(data, "PRIVMSG") ==>
      var t := Words(data); |t| > 0 && SendMessage(message, data) == Outcome([Say(t[|t| - 1], message)], false)
    ensures !StartsWith(data, "PRIVMSG") ==>
      var t := Words(data);
      SendMessage(message, data) == if |t| < 3 then Outcome([], true) else Outcome([Say(t[2], message)], false)
  {
    if StartsWith(data, "PRIVMSG") {
      WordsOfNonSpaceStart(data);
    }
  }

  /** A string that starts with a non-space character has a first word. */
  lemma WordsOfNonSpaceStart(s: string)
    requires |s| > 0 && !IsSpace(s[0])
    ensures |Words(s)| > 0
  {
  }

  /** Without an explicit target the victim always comes from the roster. */
  lemma ImplicitSlapFromRoster(nickname: string, parts: seq<string>, r1: nat, r2: nat)
    requires !(|parts| > 2 && StartsWith(parts[2], ":"))
    ensures var t := SlapTarget(nickname, parts, r1, r2);
      t.Some? ==> t.value in ChannelUsers
    ensures var pick := Choose(ChannelUsers, r1);
      SlapTarget(nickname, parts, r1, r2).None? <==> pick != nickname && |parts| < 2
    ensures var pick := Choose(ChannelUsers, r1);
      |parts| >= 2 && pick != nickname && pick != UpTo(parts[1], '!') ==>
        SlapTarget(nickname, parts, r1, r2) == Some(pick)
  {
  }

  /** An explicit `:target` is slapped as named unless it is the bot,
      which is replaced by a roster pick. */
  lemma ExplicitSlapTarget(nickname: string, parts: seq<string>, r1: nat, r2: nat)
    requires |parts| > 2 && StartsWith(parts[2], ":")
    ensures var named := parts[2][1..]; var t := SlapTarget(nickname, parts, r1, r2);
      && t.Some?
      && (named != nickname ==> t.value == named)
      && (named == nickname ==> t.value in ChannelUsers)
  {
  }

  /** The roster has no "nobody" case: every pick is a real entry and
      each entry can be picked. */
  lemma RosterAlwaysHasTarget(u: string)
    requires u in ChannelUsers
    ensures |ChannelUsers| > 0
    ensures exists roll: nat :: Choose(ChannelUsers, roll) == u
  {
    ChooseReaches(ChannelUsers, u);
  }

  /** The private reply is one of `random_responses`, addressed to the
      sender token cut at its first `!`. */
  lemma PrivateReply(data: string, roll: nat)
    requires |Words(data)| >= 2
    ensures var r := RespondToPrivate(data, roll); var sender := UpTo(Words(data)[1], '!');
      && !r.crashed
      && exists text :: text in RandomResponses && r.sent == [Say(sender, text)]
  {
    var text := Choose(RandomResponses, roll);
    assert RespondToPrivate(data, roll).sent == [Say(UpTo(Words(data)[1], '!'), text)];
  }

  // ---------------------------------------------------------------------
  // Command line

  /** How `main` ends: the usage message, an exception, the missing-host
      message, or a connection with these settings. */
  datatype Launch = Usage | Crashed | HostRequired | Connect(host: string, port: int, nickname: string, channel: string)

  datatype Settings = Settings(host: Option<string>, port: int, nickname: string, channel: string)

  const Defaults := Settings(None, 6667, "DefaultBot", "#default")

  /** `arg.split('=')[1]`, or `None` when there is no `=` to split at. */
  function ArgValue(arg: string): (v: Option<string>)
    ensures v.None? <==> '=' !in arg
  {
    var ps := SplitOn(arg, '=');
    if |ps| >= 2 then Some(ps[1])
    else
      JoinSplitOn(arg, '=');
      assert Join(['='], ps) == ps[0];
      None
  }

  /** Only an argument starting with one of the four flags can raise, and
      only when it has no `=` or is a `--port` whose value is no integer. */
  predicate FailingArg(arg: string)
  {
    && (StartsWith(arg, "--host") || StartsWith(arg, "--port") || StartsWith(arg, "--name") || StartsWith(arg, "--channel"))
    && ('=' !in arg || StartsWith(arg, "--port"))
  }

  /** One iteration of the argument loop; `None` is an exception. The
      tests are prefix tests, tried in this order. */
  function ApplyArg(s: Settings, arg: string): (r: Option<Settings>)
    ensures r.None? ==> FailingArg(arg)
  {
    if StartsWith(arg, "--host") then
      match ArgValue(arg)
      case None => None
      case Some(v) => Some(s.(host := Some(v)))
    else if StartsWith(arg, "--port") then
      match ArgValue(arg)
      case None => None
      case Some(v) =>
        match PyInt(v)
        case None => None
        case Some(n) => Some(s.(port := n))
    else if StartsWith(arg, "--name") then
      match ArgValue(arg)
      case None => None
      case Some(v) => Some(s.(nickname := v))
    else if StartsWith(arg, "--channel") then
      match ArgValue(arg)
      case None => None
      case Some(v) => Some(s.(channel := v))
    else Some(s)
  }

  function ApplyArgs(s: Settings, args: seq<string>): (r: Option<Settings>)
    ensures r.None? ==> exists i :: 0 <= i < |args| && FailingArg(args[i])
    decreases |args|
  {
    if |args| == 0 then Some(s)
    else match ApplyArg(s, args[0])
      case None => None
      case Some(s') => ApplyArgs(s', args[1..])
  }

  /** `main`: at least four arguments after the script name, then the
      loop, then the host check (an empty host counts as missing). */
  function ParseArgs(argv: seq<string>): (r: Launch)
    ensures |argv| < 5 ==> r == Usage
  {
    if |argv| < 5 then Usage
    else match ApplyArgs(Defaults, argv[1..])
      case None => Crashed
      case Some(s) =>
        if s.host.None? || s.host.value == "" then HostRequired
        else Connect(s.host.value, s.port, s.nickname, s.channel)
  }

  /** An argument whose flag is not `f` leaves the setting `f` alone. */
  predicate NoFlag(args: seq<string>, flag: string)
  {
    forall i :: 0 <= i < |args| ==> !StartsWith(args[i], flag)
  }

  /** Settings no argument names keep their values through the loop. */
  lemma {:induction false} UnnamedSettingsKept(s: Settings, args: seq<string>)
    ensures var r := ApplyArgs(s, args);
      && (r.Some? && NoFlag(args, "--host") ==> r.value.host == s.host)
      && (r.Some? && NoFlag(args, "--port") ==> r.value.port == s.port)
      && (r.Some? && NoFlag(args, "--name") ==> r.value.nickname == s.nickname)
      && (r.Some? && NoFlag(args, "--channel") ==> r.value.channel == s.channel)
    decreases |args|
  {
    if |args| > 0 {
      match ApplyArg(s, args[0])
      case None =>
      case Some(s') =>
        assert ApplyArgs(s, args) == ApplyArgs(s', args[1..]);
        UnnamedSettingsKept(s', args[1..]);
        ArgKeepsUnnamed(s, args[0]);
        NoFlagTail(args, "--host");
        NoFlagTail(args, "--port");
        NoFlagTail(args, "--name");
        NoFlagTail(args, "--channel");
    }
  }

  /** One argument changes only the setting its flag names. */
  lemma ArgKeepsUnnamed(s: Settings, arg: string)
    ensures var r := ApplyArg(s, arg);
      && (r.Some? && !StartsWith(arg, "--host") ==> r.value.host == s.host)
      && (r.Some? && !StartsWith(arg, "--port") ==> r.value.port == s.port)
      && (r.Some? && !StartsWith(arg, "--name") ==> r.value.nickname == s.nickname)
      && (r.Some? && !StartsWith(arg, "--channel") ==> r.value.channel == s.channel)
  {
  }

  lemma NoFlagTail(args: seq<string>, flag: string)
    requires |args| > 0
    ensures NoFlag(args, flag) ==> !StartsWith(args[0], flag) && NoFlag(args[1..], flag)
  {
    if NoFlag(args, flag) {
      forall i | 0 <= i < |args[1..]|
        ensures !StartsWith(args[1..][i], flag)
      {
        assert args[1..][i] == args[i + 1];
      }
    }
  }

  /** Without `--host` the script never connects; unnamed settings take
      the defaults 6667, `DefaultBot` and `#default`. */
  lemma DefaultsAndHost(argv: seq<string>)
    requires |argv| >= 5
    ensures NoFlag(argv[1..], "--host") ==> !ParseArgs(argv).Connect?
    ensures var r := ParseArgs(argv);
      && (r.Connect? && NoFlag(argv[1..], "--port") ==> r.port == 6667)
      && (r.Connect? && NoFlag(argv[1..], "--name") ==> r.nickname == "DefaultBot")
      && (r.Connect? && NoFlag(argv[1..], "--channel") ==> r.channel == "#default")
  {
    UnnamedSettingsKept(Defaults, argv[1..]);
  }

  /** `--flag=value` yields the value when neither part holds another `=`. */
  lemma ArgValueOf(flag: string, v: string)
    requires '=' !in flag && '=' !in v
    ensures ArgValue(flag + "=" + v) == Some(v)
  {
    assert flag + "=" + v == Join(['='], [flag, v]);
    SplitOnJoin([flag, v], '=');
  }

  /** A recognised flag without `=` raises `IndexError`. */
  lemma FlagWithoutValueCrashes(argv: seq<string>)
    requires |argv| >= 5 && '=' !in argv[1]
    requires StartsWith(argv[1], "--host") || StartsWith(argv[1], "--port")
          || StartsWith(argv[1], "--name") || StartsWith(argv[1], "--channel")
    ensures ParseArgs(argv) == Crashed
  {
    assert ApplyArg(Defaults, argv[1]) == None;
    assert argv[1..][0] == argv[1];
  }

  lemma IntStringHasNoEquals(n: int)
    ensures '=' !in IntString(n)
  {
    var m: nat := if n < 0 then -n else n;
    var d := NatString(m);
    assert forall i :: 0 <= i < |d| ==> d[i] != '=';
  }

  lemma SetHost(s: Settings, v: string)
    requires '=' !in v
    ensures ApplyArg(s, "--host=" + v) == Some(s.(host := Some(v)))
  {
    var a := "--host" + "=" + v;
    assert a == "--host=" + v;
    PrefixStarts("--host", "=" + v);
    assert a == "--host" + ("=" + v);
    ArgValueOf("--host", v);
  }

  lemma SetPort(s: Settings, v: string, n: int)
    requires '=' !in v && PyInt(v) == Some(n)
    ensures ApplyArg(s, "--port=" + v) == Some(s.(port := n))
  {
    var a := "--port" + "=" + v;
    assert a == "--port=" + v;
    DiffersAt(a, "--host", 2);
    PrefixStarts("--port", "=" + v);
    assert a == "--port" + ("=" + v);
    ArgValueOf("--port", v);
  }

  lemma SetName(s: Settings, v: string)
    requires '=' !in v
    ensures ApplyArg(s, "--name=" + v) == Some(s.(nickname := v))
  {
    var a := "--name" + "=" + v;
    assert a == "--name=" + v;
    DiffersAt(a, "--host", 2);
    DiffersAt(a, "--port", 2);
    PrefixStarts("--name", "=" + v);
    assert a == "--name" + ("=" + v);
    ArgValueOf("--name", v);
  }

  lemma SetChannel(s: Settings, v: string)
    requires '=' !in v
    ensures ApplyArg(s, "--channel=" + v) == Some(s.(channel := v))
  {
    var a := "--channel" + "=" + v;
    assert a == "--channel=" + v;
    DiffersAt(a, "--host", 2);
    DiffersAt(a, "--port", 2);
    DiffersAt(a, "--name", 2);
    PrefixStarts("--channel", "=" + v);
    assert a == "--channel" + ("=" + v);
    ArgValueOf("--channel", v);
  }

  /** All four flags spelled out in full are read back as given, the port
      through `int`. */
  lemma AllFlagsGiven(host: string, port: int, nickname: string, channel: string)
    requires host != "" && '=' !in host && '=' !in nickname && '=' !in channel
    ensures ParseArgs(["bot.py", "--host=" + host, "--port=" + IntString(port), "--name=" + nickname, "--channel=" + channel])
      == Connect(host, port, nickname, channel)
  {
    var argv := ["bot.py", "--host=" + host, "--port=" + IntString(port), "--name=" + nickname, "--channel=" + channel];
    var args := argv[1..];
    var s1 := Defaults.(host := Some(host));
    var s2 := s1.(port := port);
    var s3 := s2.(nickname := nickname);
    var s4 := s3.(channel := channel);
    SetHost(Defaults, host);
    IntStringHasNoEquals(port);
    IntOfString(port);
    SetPort(s1, IntString(port), port);
    SetName(s2, nickname);
    SetChannel(s3, channel);
    assert ApplyArgs(s4, args[4..]) == Some(s4);
    assert ApplyArgs(s3, args[3..]) == Some(s4);
    assert ApplyArgs(s2, args[2..]) == Some(s4);
    assert ApplyArgs(s1, args[1..]) == Some(s4);
    assert ApplyArgs(Defaults, args) == Some(s4);
  }
}

=== FILE: bot2.dfy ===
/** The class-based bot (bot/bot2.py): its connect and join lines and the
    routing of received data to a PONG, a command answer or a random
    remark. A Python exception that escapes `handle_data` ends the bot;
    it is modelled as a `crashed` outcome that keeps what was sent before.
    Each call of `random.choice` is given the index the generator would
    have drawn. */
module Bot2 {
  import opened Base
  import opened Text
  import opened PyText

  /** `FUN_RESPONSES`. Lines 17-19 of the list have no commas between
      them, so Python concatenates them into one element: six entries. */
  const FunResponses: seq<string> := [
    "你好，我是bot！",
    "你知道吗？今天天气不错。",
    "42是宇宙的终极答案。",
    "为什么我们在这里？这是一个好问题。",
    "Leo Messi",
    "生活就像一盒巧克力，你永远不知道下一块是什么。" + "What can I say?" + "噔→噔↑噔↘噔→，噔噔噔噔噔噔噔→噔↑噔↘噔→"
  ]

  /** The `commands` table of `handle_privmsg`; its keys keep the `!`. */
  const Commands: map<string, string> := map[
    "!hello" := "你好！欢迎来到频道。",
    "!help" := "我的功能包括：!hello, !slap, 和 !slap。",
    "!slap" := "打耳光"
  ]

  /** An `IRCBot`. `users` is only ever the empty list it starts as. */
  datatype Bot = Bot(host: string, port: int, nickname: string, channel: string, users: seq<string>)

  function NewBot(host: string, port: int, nickname: string, channel: string): (b: Bot)
    ensures b.nickname == nickname && b.channel == channel
    ensures b.users == []
  {
    Bot(host, port, nickname, channel, [])
  }

  /** `PRIVMSG <target> :<text>` as sent by the bot. */
  function Say(target: string, text: string): (line: string)
    ensures SaysTo(line, target)
  {
    var line := "PRIVMSG " + target + " :" + text + "\r\n";
    assert line[..|"PRIVMSG " + target + " :"|] == "PRIVMSG " + target + " :";
    line
  }

  /** A CRLF-terminated line that starts with `PRIVMSG <target> :`. */
  predicate SaysTo(line: string, target: string)
  {
    StartsWith(line, "PRIVMSG " + target + " :") && EndsInCrlf(line)
  }

  /** The two lines `connect` sends after the socket is up: NICK, then
      USER, each terminated by CRLF. */
  function ConnectLines(b: Bot): (lines: seq<string>)
    ensures |lines| == 2
    ensures StartsWith(lines[0], "NICK ") && StartsWith(lines[1], "USER ")
    ensures forall i :: 0 <= i < |lines| ==> EndsInCrlf(lines[i])
  {
    var nick := "NICK " + b.nickname + "\r\n";
    var user := "USER " + b.nickname + " 0 * :" + b.nickname + "\r\n";
    assert nick[..5] == "NICK " && user[..5] == "USER ";
    [nick, user]
  }

  /** The line `join_channel` sends: a CRLF-terminated JOIN. */
  function JoinLine(b: Bot): (line: string)
    ensures StartsWith(line, "JOIN ") && EndsInCrlf(line)
  {
    var line := "JOIN " + b.channel + "\r\n";
    assert line[..5] == "JOIN ";
    line
  }

  /** `args[0] if args else None`. */
  function FirstOrNone(args: seq<string>): (r: Option<string>)
    ensures r.Some? <==> |args| > 0
    ensures r.Some? ==> r.value == args[0]
  {
    if |args| > 0 then Some(args[0]) else None
  }

  /** `handle_slap`: a named user present in `users` is slapped by name;
      otherwise a victim is drawn from the users other than the bot and the
      target, and with none left the bot says so. */
  function HandleSlap(b: Bot, target: string, user: Option<string>, roll: nat): (line: string)
    ensures SaysTo(line, target)
  {
    if user.None? || user.value == "" || user.value !in b.users then
      var candidates := Without(b.users, b.nickname, target);
      if |candidates| > 0 then Say(target, b.nickname + " 打了 " + Choose(candidates, roll) + "！")
      else Say(target, b.nickname + " 看了看周围，没有人可以打。")
    else Say(target, b.nickname + " 打了 " + user.value + " 一巴掌！")
  }

  /** `handle_privmsg`. A message starting with `!` is looked up by the word
      after the `!`; a message that does not is answered with a random
      remark. The `!slap` branch after the table lookup is kept as written:
      the table already holds `"!slap"`. */
  function HandlePrivmsg(b: Bot, target: string, message: string, roll: nat): (sent: seq<string>)
    ensures |sent| <= 1
    ensures forall i :: 0 <= i < |sent| ==> SaysTo(sent[i], target)
    ensures !(|message| > 0 && message[0] == '!') ==> |sent| == 1
  {
    if |message| > 0 && message[0] == '!' then
      var parts := SplitOnce(message[1..]);
      var command := parts[0];
      if command in Commands then [Say(target, Commands[command])]
      else if command == "!slap" then [HandleSlap(b, target, FirstOrNone(parts[1..]), roll)]
      else []
    else [Say(target, Choose(FunResponses, roll))]
  }

  /** One iteration of the loop in `handle_data`. Indexing past the end of
      the token list raises `IndexError`, which nothing catches. */
  function HandleLine(b: Bot, line: string, roll: nat): (r: Outcome)
    ensures |r.sent| <= 1
    ensures r.crashed ==> r.sent == []
  {
    if line == "" then Outcome([], false)
    else
      var tokens := Words(line);
      if |tokens| == 0 then Outcome([], true)
      else if tokens[0] == "PING" then
        if |tokens| < 2 then Outcome([], true)
        else Outcome(["PONG " + tokens[1] + "\r\n"], false)
      else if tokens[0] == "PRIVMSG" then
        if |tokens| < 3 then Outcome([], true)
        else Outcome(HandlePrivmsg(b, tokens[2], Join(" ", tokens[3..]), roll), false)
      else Outcome([], false)
  }

  /** The lines of one `handle_data` call from position `i` on; line `i`
      uses the draw `rolls(i)`. */
  function HandleLines(b: Bot, lines: seq<string>, rolls: nat -> nat, i: nat): (r: Outcome)
    ensures |r.sent| <= |lines|
    decreases |lines|
  {
    if |lines| == 0 then Outcome([], false)
    else AndThen(HandleLine(b, lines[0], rolls(i)), HandleLines(b, lines[1..], rolls, i + 1))
  }

  /** `handle_data`: cut at `\n` and handle each piece in order. */
  function HandleData(b: Bot, data: string, rolls: nat -> nat): (r: Outcome)
    ensures |r.sent| <= |SplitOn(data, '\n')|
    ensures '\n' !in data ==> |r.sent| <= 1
  {
    HandleLines(b, SplitOn(data, '\n'), rolls, 0)
  }

  // ---------------------------------------------------------------------
  // Properties

  /** A message that does not start with `!` gets exactly one remark, one
      of `FUN_RESPONSES`, and every remark can be drawn. */
  lemma RemarkFromTable(b: Bot, target: string, message: string, roll: nat)
    requires !(|message| > 0 && message[0] == '!')
    ensures exists r :: r in FunResponses && HandlePrivmsg(b, target, message, roll) == [Say(target, r)]
    ensures forall r :: r in FunResponses ==>
      exists roll': nat :: HandlePrivmsg(b, target, message, roll') == [Say(target, r)]
  {
    var r0 := Choose(FunResponses, roll);
    assert HandlePrivmsg(b, target, message, roll) == [Say(target, r0)];
    forall r | r in FunResponses
      ensures exists roll': nat :: HandlePrivmsg(b, target, message, roll') == [Say(target, r)]
    {
      ChooseReaches(FunResponses, r);
      var roll': nat :| Choose(FunResponses, roll') == r;
      assert HandlePrivmsg(b, target, message, roll') == [Say(target, r)];
    }
  }

  /** For a `!` message, the word after the `!` up to the first space is
      looked up: a hit sends exactly the table's text, a miss sends
      nothing. The `!slap` branch of line 86 is never reached. */
  lemma CommandLookup(b: Bot, target: string, message: string, roll: nat)
    requires |message| > 0 && message[0] == '!'
    ensures var command := UpTo(message[1..], ' ');
      && (command in Commands ==> HandlePrivmsg(b, target, message, roll) == [Say(target, Commands[command])])
      && (command !in Commands ==> HandlePrivmsg(b, target, message, roll) == [])
  {
    var s := message[1..];
    var command := SplitOnce(s)[0];
    assert command == UpTo(s, ' ') by {
      SameFirstWord(s);
    }
    assert "!slap" in Commands;
  }

  /** The first piece of `split(' ', 1)` is the text before the first space. */
  lemma SameFirstWord(s: string)
    ensures SplitOnce(s)[0] == UpTo(s, ' ')
  {
    match FindChar(s, ' ')
    case None =>
      assert SplitOn(s, ' ') == [s];
    case Some(i) =>
      assert SplitOn(s, ' ')[0] == s[..i];
  }

  /** `"!hello"` alone misses the table (its word is `hello`); `"!!hello"`
      hits it. */
  lemma HelloNeedsTwoBangs(b: Bot, target: string, roll: nat)
    ensures HandlePrivmsg(b, target, "!hello", roll) == []
    ensures HandlePrivmsg(b, target, "!!hello", roll) == [Say(target, "你好！欢迎来到频道。")]
  {
    HelloMisses(b, target, roll);
    HelloHits(b, target, roll);
  }

  lemma HelloMisses(b: Bot, target: string, roll: nat)
    ensures HandlePrivmsg(b, target, "!hello", roll) == []
  {
    var m := "!hello";
    assert m[1..] == "hello";
    UpToWithout("hello", ' ');
    CommandLookup(b, target, m, roll);
  }

  lemma HelloHits(b: Bot, target: string, roll: nat)
    ensures HandlePrivmsg(b, target, "!!hello", roll) == [Say(target, "你好！欢迎来到频道。")]
  {
    var m := "!!hello";
    assert m[1..] == "!hello";
    UpToWithout("!hello", ' ');
    CommandLookup(b, target, m, roll);
  }

  /** A drawn victim is one of the bot's users and neither the bot itself
      nor the target. */
  lemma SlapVictim(b: Bot, target: string, user: Option<string>, roll: nat)
    requires user.None? || user.value == "" || user.value !in b.users
    requires exists u :: u in b.users && u != b.nickname && u != target
    ensures exists v ::
      && v in b.users && v != b.nickname && v != target
      && HandleSlap(b, target, user, roll) == Say(target, b.nickname + " 打了 " + v + "！")
  {
    var u :| u in b.users && u != b.nickname && u != target;
    var candidates := Without(b.users, b.nickname, target);
    assert u in candidates;
    var v := Choose(candidates, roll);
    assert v in b.users && v != b.nickname && v != target;
  }

  /** With nobody else to pick, the bot says so; a named user on the list
      is slapped by name. */
  lemma SlapWithoutVictim(b: Bot, target: string, user: Option<string>, roll: nat)
    ensures (user.None? || user.value == "" || user.value !in b.users)
      && (forall u :: u in b.users ==> u == b.nickname || u == target)
      ==> HandleSlap(b, target, user, roll) == Say(target, b.nickname + " 看了看周围，没有人可以打。")
    ensures user.Some? && user.value != "" && user.value in b.users
      ==> HandleSlap(b, target, user, roll) == Say(target, b.nickname + " 打了 " + user.value + " 一巴掌！")
  {
    var candidates := Without(b.users, b.nickname, target);
    if |candidates| > 0 {
      assert candidates[0] in b.users;
    }
  }

  /** Since `users` is never filled, a bot as constructed never slaps
      anybody. */
  lemma FreshBotNeverSlaps(host: string, port: int, nick: string, channel: string,
                           target: string, user: Option<string>, roll: nat)
    ensures HandleSlap(NewBot(host, port, nick, channel), target, user, roll)
      == Say(target, nick + " 看了看周围，没有人可以打。")
  {
    SlapWithoutVictim(NewBot(host, port, nick, channel), target, user, roll);
  }

  /** For every line: only a first token of exactly `PING` or `PRIVMSG`
      can send anything; the line raises `IndexError` exactly when it is
      blank but not empty, or is a `PING` without an argument, or a
      `PRIVMSG` without a target; `PING x` answers `PONG x`; a `PRIVMSG`
      hands its third token and the rest of its words, joined by single
      spaces, to `handle_privmsg`, so it is answered, if at all, to its
      third token. */
  lemma LineRouting(b: Bot, line: string, roll: nat)
    ensures var t := Words(line); var r := HandleLine(b, line, roll);
      r.sent != [] ==> |t| > 0 && (t[0] == "PING" || t[0] == "PRIVMSG")
    ensures var t := Words(line); var r := HandleLine(b, line, roll);
      r.crashed <==> line != "" && (|t| == 0 || (t[0] == "PING" && |t| < 2) || (t[0] == "PRIVMSG" && |t| < 3))
    ensures var t := Words(line); var r := HandleLine(b, line, roll);
      |t| >= 2 && t[0] == "PING" ==> r.sent == ["PONG " + t[1] + "\r\n"]
    ensures var t := Words(line); var r := HandleLine(b, line, roll);
      |t| >= 3 && t[0] == "PRIVMSG" ==> forall i :: 0 <= i < |r.sent| ==> SaysTo(r.sent[i], t[2])
    ensures var t := Words(line); var r := HandleLine(b, line, roll);
      |t| >= 3 && t[0] == "PRIVMSG" ==> r == Outcome(HandlePrivmsg(b, t[2], Join(" ", t[3..]), roll), false)
  {
    if line == "" {
      assert Words(line) == [];
    }
  }

  /** A line of whitespace, such as a lone `\r`, ends the bot. */
  lemma BlankLineCrashes(b: Bot, line: string, roll: nat)
    requires line != "" && forall i :: 0 <= i < |line| ==> IsSpace(line[i])
    ensures HandleLine(b, line, roll) == Outcome([], true)
  {
    WordsIgnoreTrailingSpace("", line);
    assert "" + line == line;
  }

  lemma PingLineWords(x: string)
    requires IsWord(x)
    ensures Words("PING " + x + "\r") == ["PING", x]
  {
    assert IsWord("PING");
    WordsOfJoin(["PING", x]);
    assert Join(" ", ["PING", x]) == "PING " + x;
    WordsIgnoreTrailingSpace("PING " + x, "\r");
  }

  lemma PingDataLines(x: string)
    requires IsWord(x)
    ensures SplitOn("PING " + x + "\r\n", '\n') == ["PING " + x + "\r", ""]
  {
    var line := "PING " + x + "\r";
    assert "PING " + x + "\r\n" == Join(['\n'], [line, ""]);
    forall i | 0 <= i < |line|
      ensures line[i] != '\n'
    {
      if 5 <= i < 5 + |x| {
        assert line[i] == x[i - 5];
      }
    }
    SplitOnJoin([line, ""], '\n');
  }

  /** The server's `PING x` with its CRLF: the `\r` is whitespace, the
      empty piece after the `\n` is skipped, and the bot answers `PONG x`. */
  lemma PingGetsPong(b: Bot, x: string, rolls: nat -> nat)
    requires IsWord(x)
    ensures HandleData(b, "PING " + x + "\r\n", rolls) == Outcome(["PONG " + x + "\r\n"], false)
  {
    var line := "PING " + x + "\r";
    PingDataLines(x);
    PingLineWords(x);
    var first := HandleLine(b, line, rolls(0));
    assert first == Outcome(["PONG " + x + "\r\n"], false);
    var lines := [line, ""];
    assert lines[1..] == [""];
    assert HandleLines(b, [""], rolls, 1) == Outcome([], false);
  }

  /** Pieces are handled in order, each with its own draw, and a crash
      ends the call. */
  lemma DataInOrder(b: Bot, first: string, rest: string, rolls: nat -> nat, i: nat)
    requires '\n' !in first
    ensures HandleLines(b, SplitOn(first + "\n" + rest, '\n'), rolls, i)
      == AndThen(HandleLine(b, first, rolls(i)), HandleLines(b, SplitOn(rest, '\n'), rolls, i + 1))
  {
    var s := first + "\n" + rest;
    assert s[|first|] == '\n';
    assert s[..|first|] == first;
    assert FindChar(s, '\n') == Some(|first|);
    assert s[|first| + 1..] == rest;
    assert SplitOn(s, '\n') == [first] + SplitOn(rest, '\n');
  }
}

=== FILE: channel.dfy ===
/** A channel's member set and the recipient computation of its
    `broadcast` (server/Channel.cpp). The server keeps channels in a map
    from name to member set, so a channel here is just that set. */
module Channel {
  import opened Base

  /** Stands for the `Client*` pointer that identifies a connection. */
  type ClientId = nat

  type Members = set<ClientId>

  /** One call of `Client::sendMessage` made to every client in `to`; an
      empty `to` stands for no call at all. */
  datatype Send = Send(to: set<ClientId>, text: string)

  /** `addClient`: `std::set::insert`. */
  function AddClient(members: Members, c: ClientId): (r: Members)
    ensures c in r
    ensures forall x :: x != c ==> (x in r <==> x in members)
    ensures c in members ==> r == members
  {
    members + {c}
  }

  /** `removeClient`: `std::set::erase`, a no-op for a non-member. */
  function RemoveClient(members: Members, c: ClientId): (r: Members)
    ensures c !in r
    ensures forall x :: x != c ==> (x in r <==> x in members)
    ensures c !in members ==> r == members
  {
    members - {c}
  }

  /** Who `broadcast(message, sender)` writes to: every member except the
      sender, each once; the default null sender excludes nobody. */
  function Recipients(members: Members, sender: Option<ClientId>): (r: set<ClientId>)
    ensures forall x :: x in r <==> x in members && sender != Some(x)
    ensures sender.None? ==> r == members
  {
    if sender.Some? then members - {sender.value} else members
  }

  /** `broadcast(message, sender)` as one delivery; the member set is only
      read, never changed. */
  function Broadcast(members: Members, text: string, sender: Option<ClientId>): (r: Send)
    ensures r.text == text
    ensures r.to <= members
    ensures forall x :: x in members && sender != Some(x) ==> x in r.to
    ensures sender.Some? ==> sender.value !in r.to
    ensures r.to == Recipients(members, sender)
  {
    Send(Recipients(members, sender), text)
  }

  /** Removing a member that was just added restores the set. */
  lemma RemoveUndoesAdd(members: Members, c: ClientId)
    requires c !in members
    ensures RemoveClient(AddClient(members, c), c) == members
  {
  }

  /** Adding is idempotent. */
  lemma AddIdempotent(members: Members, c: ClientId)
    ensures AddClient(AddClient(members, c), c) == AddClient(members, c)
  {
  }
}

=== FILE: irc_parse.dfy ===
/** Tokenising one server-side protocol line into a command and its
    parameters (server/IRCServer.cpp `parseCommand`). This is the subset
    of the message grammar of section 2.3.1 of RFC 1459 that the server
    understands: an optional `:prefix` that is parsed and dropped, a
    command word, space-separated middle parameters and a final trailing
    parameter introduced by `:`. */
module IrcParse {
  import opened Base
  import opened Text

  /** What the parser hands to the dispatcher; the prefix is not kept. */
  datatype Command = Command(name: string, params: seq<string>)

  /** The number of spaces at the start of `s`. */
  function LeadingSpaces(s: string): (n: nat)
    ensures n <= |s|
    ensures forall i :: 0 <= i < n ==> s[i] == ' '
    ensures n < |s| ==> s[n] != ' '
  {
    if |s| > 0 && s[0] == ' ' then 1 + LeadingSpaces(s[1..]) else 0
  }

  /** `s` with its leading spaces removed, as done by
      `s.erase(0, s.find_first_not_of(" "))` (an all-space string becomes
      empty). Only the space character counts, not tabs. */
  function TrimSpaces(s: string): (r: string)
    ensures |r| > 0 ==> r[0] != ' '
  {
    s[LeadingSpaces(s)..]
  }

  /** A parameter as the loop at lines 311-330 produces it before the
      trailing one: non-empty, without spaces, not starting with `:`. */
  predicate IsMiddle(p: string)
  {
    |p| > 0 && ' ' !in p && p[0] != ':'
  }

  /** The parameter loop: skip spaces, a `:` starts the trailing parameter
      that takes the rest of the text verbatim, otherwise cut at the next
      space. */
  function ParseParams(s: string): (ps: seq<string>)
    ensures forall i :: 0 <= i < |ps| - 1 ==> IsMiddle(ps[i])
    ensures |ps| <= |s|
    decreases |s|
  {
    var t := TrimSpaces(s);
    if |t| == 0 then []
    else if t[0] == ':' then [t[1..]]
    else match FindChar(t, ' ')
      case Some(p) =>
        assert IsMiddle(t[..p]);
        [t[..p]] + ParseParams(t[p + 1..])
      case None => [t]
  }

  /** Command extraction after the prefix (if any) has been removed. */
  function ParseAfterPrefix(s: string): (c: Command)
    ensures ' ' !in c.name
    ensures forall i :: 0 <= i < |c.params| - 1 ==> IsMiddle(c.params[i])
  {
    var t := TrimSpaces(s);
    match FindChar(t, ' ')
    case None => Command(t, [])
    case Some(p) => Command(t[..p], ParseParams(t[p + 1..]))
  }

  /** `parseCommand`: the whole line. A leading `:` word is the prefix and
      is dropped; a prefix with nothing after it yields the empty command. */
  function ParseCommand(line: string): (c: Command)
    ensures ' ' !in c.name
    ensures forall i :: 0 <= i < |c.params| - 1 ==> IsMiddle(c.params[i])
  {
    var s := TrimSpaces(line);
    if |s| > 0 && s[0] == ':' then
      match FindChar(s, ' ')
      case None => Command("", [])
      case Some(p) => ParseAfterPrefix(s[p + 1..])
    else ParseAfterPrefix(s)
  }

  // ---------------------------------------------------------------------
  // Properties of the tokeniser

  /** Leading spaces in front of `s` are exactly what trimming removes. */
  lemma {:induction false} TrimAfterSpaces(sp: string, s: string)
    requires forall i :: 0 <= i < |sp| ==> sp[i] == ' '
    ensures TrimSpaces(sp + s) == TrimSpaces(s)
    decreases |sp|
  {
    if |sp| > 0 {
      var t := sp[1..] + s;
      assert (sp + s)[1..] == t;
      TrimAfterSpaces(sp[1..], s);
      var n := LeadingSpaces(t);
      assert LeadingSpaces(sp + s) == 1 + n;
      assert (sp + s)[1 + n..] == t[n..];
    } else {
      assert sp + s == s;
    }
  }

  /** Spaces before a parameter are skipped, however many there are. */
  lemma LeadingSpacesSkipped(sp: string, s: string)
    requires forall i :: 0 <= i < |sp| ==> sp[i] == ' '
    ensures ParseParams(sp + s) == ParseParams(s)
  {
    TrimAfterSpaces(sp, s);
  }

  /** A token starting with `:` is the last parameter: the colon is
      stripped and everything after it, spaces included, is kept verbatim
      and not parsed further. */
  lemma {:induction false} TrailingVerbatim(sp: string, rest: string)
    requires forall i :: 0 <= i < |sp| ==> sp[i] == ' '
    ensures ParseParams(sp + ":" + rest) == [rest]
  {
    assert sp + ":" + rest == sp + (":" + rest);
    LeadingSpacesSkipped(sp, ":" + rest);
    assert LeadingSpaces(":" + rest) == 0;
    assert TrimSpaces(":" + rest) == ":" + rest;
    assert (":" + rest)[1..] == rest;
  }

  /** A line whose first word is a prefix with no space after it carries no
      command and no parameters. */
  lemma PrefixOnlyLine(line: string)
    requires var s := TrimSpaces(line); |s| > 0 && s[0] == ':' && ' ' !in s
    ensures ParseCommand(line) == Command("", [])
  {
  }

  /** A command word with no space after it has zero parameters. */
  lemma CommandWithoutSpace(line: string)
    requires var s := TrimSpaces(line); (|s| == 0 || s[0] != ':') && ' ' !in s
    ensures ParseCommand(line) == Command(TrimSpaces(line), [])
  {
  }

  // ---------------------------------------------------------------------
  // Round trip against a formatter

  /** Render middle parameters and an optional trailing parameter the way a
      well-behaved client writes them, separated by single spaces. */
  function FormatParams(mids: seq<string>, trailing: Option<string>): string
  {
    if |mids| == 0 then
      (if trailing.Some? then ":" + trailing.value else "")
    else if |mids| == 1 && trailing.None? then mids[0]
    else mids[0] + " " + FormatParams(mids[1..], trailing)
  }

  /** A whole line: command word, then the parameters after one space. */
  function FormatLine(name: string, mids: seq<string>, trailing: Option<string>): string
  {
    if |mids| == 0 && trailing.None? then name
    else name + " " + FormatParams(mids, trailing)
  }

  function Params(mids: seq<string>, trailing: Option<string>): seq<string>
  {
    if trailing.Some? then mids + [trailing.value] else mids
  }

  /** A middle token followed by a space is cut exactly at that space. */
  lemma CutAtSpace(m: string, rest: string)
    requires ' ' !in m
    ensures FindChar(m + " " + rest, ' ') == Some(|m|)
    ensures (m + " " + rest)[..|m|] == m
    ensures (m + " " + rest)[|m| + 1..] == rest
  {
    var t := m + " " + rest;
    assert t[..|m|] == m;
    assert t[|m|] == ' ';
  }

  lemma {:induction false} ParamsRoundTrip(mids: seq<string>, trailing: Option<string>)
    requires forall i :: 0 <= i < |mids| ==> IsMiddle(mids[i])
    ensures ParseParams(FormatParams(mids, trailing)) == Params(mids, trailing)
    decreases |mids|
  {
    if |mids| == 0 {
      TrailingOnly(trailing);
    } else if |mids| == 1 && trailing.None? {
      assert IsMiddle(mids[0]);
      LastMiddle(mids[0]);
    } else {
      var m, tail := mids[0], mids[1..];
      assert IsMiddle(m);
      assert forall i :: 0 <= i < |tail| ==> IsMiddle(tail[i]) by {
        forall i | 0 <= i < |tail| ensures IsMiddle(tail[i]) {
          assert tail[i] == mids[i + 1];
        }
      }
      var rest := FormatParams(tail, trailing);
      FormatCons(mids, trailing);
      MiddleThenRest(m, rest);
      ParamsRoundTrip(tail, trailing);
    }
  }

  /** Beyond the last middle parameter, formatting writes the first one, a
      space and the others; the parameter list is the first one and the
      others. */
  lemma FormatCons(mids: seq<string>, trailing: Option<string>)
    requires |mids| > 0 && !(|mids| == 1 && trailing.None?)
    ensures FormatParams(mids, trailing) == mids[0] + " " + FormatParams(mids[1..], trailing)
    ensures Params(mids, trailing) == [mids[0]] + Params(mids[1..], trailing)
  {
    if trailing.Some? {
      assert mids + [trailing.value] == [mids[0]] + (mids[1..] + [trailing.value]);
    } else {
      assert mids == [mids[0]] + mids[1..];
    }
  }

  /** With no middle parameters only the trailing one (if any) is written. */
  lemma TrailingOnly(trailing: Option<string>)
    ensures ParseParams(FormatParams([], trailing)) == Params([], trailing)
  {
    if trailing.Some? {
      TrailingVerbatim("", trailing.value);
      assert "" + ":" + trailing.value == ":" + trailing.value;
    }
  }

  /** A lone middle parameter is read back as it is. */
  lemma LastMiddle(m: string)
    requires IsMiddle(m)
    ensures ParseParams(m) == [m]
  {
    assert LeadingSpaces(m) == 0;
    assert FindChar(m, ' ') == None;
  }

  /** A middle parameter and a space in front of more text parse as that
      parameter followed by whatever the text parses to. */
  lemma MiddleThenRest(m: string, rest: string)
    requires IsMiddle(m)
    ensures ParseParams(m + " " + rest) == [m] + ParseParams(rest)
  {
    var t := m + " " + rest;
    CutAtSpace(m, rest);
    assert LeadingSpaces(t) == 0;
    assert TrimSpaces(t) == t;
  }

  /** Parsing a formatted line gives back its command and parameters. */
  lemma LineRoundTrip(name: string, mids: seq<string>, trailing: Option<string>)
    requires IsMiddle(name)
    requires forall i :: 0 <= i < |mids| ==> IsMiddle(mids[i])
    ensures ParseCommand(FormatLine(name, mids, trailing)) == Command(name, Params(mids, trailing))
  {
    if |mids| == 0 && trailing.None? {
      assert LeadingSpaces(name) == 0;
      assert FindChar(name, ' ') == None;
    } else {
      var rest := FormatParams(mids, trailing);
      CommandThenRest(name, rest);
      ParamsRoundTrip(mids, trailing);
    }
  }

  /** A command word and a space in front of more text: the word is the
      command and the text holds its parameters. */
  lemma CommandThenRest(name: string, rest: string)
    requires IsMiddle(name)
    ensures ParseCommand(name + " " + rest) == Command(name, ParseParams(rest))
  {
    var t := name + " " + rest;
    CutAtSpace(name, rest);
    assert LeadingSpaces(t) == 0;
    assert TrimSpaces(t) == t;
    assert ParseAfterPrefix(t) == Command(name, ParseParams(rest));
  }

  /** A prefix (without spaces) in front of a formatted line is dropped. */
  lemma PrefixedLineRoundTrip(prefix: string, name: string, mids: seq<string>, trailing: Option<string>)
    requires ' ' !in prefix
    requires IsMiddle(name)
    requires forall i :: 0 <= i < |mids| ==> IsMiddle(mids[i])
    ensures ParseCommand(":" + prefix + " " + FormatLine(name, mids, trailing))
         == Command(name, Params(mids, trailing))
  {
    var body := FormatLine(name, mids, trailing);
    var line := ":" + prefix + " " + body;
    assert ' ' !in ":" + prefix;
    CutAtSpace(":" + prefix, body);
    assert line == (":" + prefix) + " " + body;
    assert TrimSpaces(line) == line;
    LineRoundTrip(name, mids, trailing);
    assert TrimSpaces(body) == body;
  }
}

=== FILE: irc_server.dfy ===
/** The mini IRC server's command engine (server/IRCServer.cpp): the
    client roster, the channel map, and one pure transition per command
    handler. Sockets are gone: a handler takes the server state and the
    index of the client whose line is being processed, and returns the new
    state together with the messages it would have written, in order. */
module IrcServer {
  import opened Base
  import opened Text
  import opened IrcParse
  import opened Channel

  /** The fields of `class Client` (server/Client.h) other than the socket. */
  datatype Client = Client(
    id: ClientId,
    nickname: string,
    username: string,
    realname: string,
    hostname: string,
    registered: bool,
    disconnecting: bool)

  /** `clients` in connection order and `channels` by name. */
  datatype Server = Server(clients: seq<Client>, channels: map<string, Members>)

  /** A handler's effect: the next state and the sends it made, in order. */
  datatype Step = Step(server: Server, out: seq<Send>)

  const Empty := Server([], map[])

  // ---------------------------------------------------------------------
  // Reply texts

  /** A numeric reply from the server, `:miniircd <code> <rest>` plus CRLF. */
  function Numeric(code: string, rest: string): string
  {
    ":miniircd " + code + " " + rest + "\r\n"
  }

  /** A message relayed on behalf of a client, `:<nick> <rest>` plus CRLF. */
  function FromUser(nick: string, rest: string): string
  {
    ":" + nick + " " + rest + "\r\n"
  }

  function ToClient(id: ClientId, text: string): Send
  {
    Send({id}, text)
  }

  const WelcomeNotice := ":miniircd NOTICE AUTH :Welcome to miniircd!\r\n"

  function Welcome(nick: string): string
  {
    Numeric("001", nick + " :Welcome to the mini IRC server")
  }

  /** The message of the day, which the source sends as one write. */
  function Motd(nick: string): string
  {
    Numeric("375", nick + " :- miniircd Message of the day - ")
      + Numeric("372", nick + " :- Welcome to the mini IRC server!")
      + Numeric("376", nick + " :End of /MOTD command.")
  }

  // ---------------------------------------------------------------------
  // Roster helpers

  /** Replace the client at index `k`. */
  function SetClient(st: Server, k: nat, c: Client): (r: Server)
    requires k < |st.clients|
    ensures |r.clients| == |st.clients| && r.clients[k] == c
    ensures forall i :: 0 <= i < |st.clients| && i != k ==> r.clients[i] == st.clients[i]
    ensures r.channels == st.channels
  {
    st.(clients := st.clients[k := c])
  }

  /** Recipients of `broadcastToAll(message, client)`: every other client
      in the roster. */
  function Others(cs: seq<Client>, k: nat): (r: set<ClientId>)
    ensures forall i :: 0 <= i < |cs| && i != k ==> cs[i].id in r
    ensures forall x :: x in r ==> exists i :: 0 <= i < |cs| && i != k && cs[i].id == x
  {
    set i | 0 <= i < |cs| && i != k :: cs[i].id
  }

  /** `getClientByNickname`: the first client whose nickname is `nick`. */
  function FindByNick(cs: seq<Client>, nick: string): (r: Option<nat>)
    ensures r.Some? ==> r.value < |cs| && cs[r.value].nickname == nick
    ensures r.Some? ==> forall j :: 0 <= j < r.value ==> cs[j].nickname != nick
    ensures r.None? ==> forall j :: 0 <= j < |cs| ==> cs[j].nickname != nick
  {
    if |cs| == 0 then None
    else if cs[0].nickname == nick then Some(0)
    else match FindByNick(cs[1..], nick)
      case None => None
      case Some(j) => Some(j + 1)
  }

  /** The loop at lines 350-356: some other client already has `nick`. */
  predicate NickTakenByOther(cs: seq<Client>, k: nat, nick: string)
  {
    exists j :: 0 <= j < |cs| && j != k && cs[j].nickname == nick
  }

  /** `channel_name[0] == '#'`; on an empty name C++ reads the terminating
      NUL, which is not `#`. */
  predicate IsChannelName(name: string)
  {
    |name| > 0 && name[0] == '#'
  }

  /** Nicknames of the members, each followed by a space, for reply 353. */
  function NamesList(cs: seq<Client>, members: Members): string
  {
    if |cs| == 0 then ""
    else (if cs[0].id in members then cs[0].nickname + " " else "") + NamesList(cs[1..], members)
  }

  // ---------------------------------------------------------------------
  // Nickname syntax

  predicate IsLetter(c: char)
  {
    'a' <= c <= 'z' || 'A' <= c <= 'Z'
  }

  predicate IsDigit(c: char)
  {
    '0' <= c <= '9'
  }

  predicate IsNickChar(c: char)
  {
    IsLetter(c) || IsDigit(c) || c == '-' || c == '_'
  }

  /** The character loop of `isValidNickname`. */
  function AllNickChars(s: string): (b: bool)
    ensures b <==> forall i :: 0 <= i < |s| ==> IsNickChar(s[i])
  {
    if |s| == 0 then true
    else IsNickChar(s[0]) && AllNickChars(s[1..])
  }

  /** `isValidNickname`: 1 to 9 characters, a letter first, then letters,
      digits, `-` and `_` (ASCII, the "C" locale). */
  function IsValidNickname(nick: string): (b: bool)
    ensures b <==> 1 <= |nick| <= 9 && IsLetter(nick[0])
                   && forall i :: 0 <= i < |nick| ==> IsNickChar(nick[i])
  {
    if |nick| == 0 || |nick| > 9 then false
    else if !IsLetter(nick[0]) then false
    else AllNickChars(nick)
  }

  // ---------------------------------------------------------------------
  // Handlers

  /** `checkRegistration`: the first time both nickname and username are
      set, mark the client registered and send 001 and the MOTD. */
  function CheckRegistration(st: Server, k: nat): (r: Step)
    requires k < |st.clients|
    ensures |r.server.clients| == |st.clients|
    ensures forall i :: 0 <= i < |st.clients| && i != k ==> r.server.clients[i] == st.clients[i]
    ensures r.server.channels == st.channels
    ensures var c := st.clients[k]; var c' := r.server.clients[k];
      && c' == c.(registered := c.registered || (c.nickname != "" && c.username != ""))
      && (r.out != [] <==> !c.registered && c'.registered)
      && (r.out != [] ==> r.out == [ToClient(c.id, Welcome(c.nickname)), ToClient(c.id, Motd(c.nickname))])
  {
    var c := st.clients[k];
    if c.registered then Step(st, [])
    else if c.nickname != "" && c.username != "" then
      Step(SetClient(st, k, c.(registered := true)),
           [ToClient(c.id, Welcome(c.nickname)), ToClient(c.id, Motd(c.nickname))])
    else Step(st, [])
  }

  /** `handleNICK`. */
  function HandleNick(st: Server, k: nat, params: seq<string>): (r: Step)
    requires k < |st.clients|
    ensures |r.server.clients| == |st.clients|
    ensures forall i :: 0 <= i < |st.clients| && i != k ==> r.server.clients[i] == st.clients[i]
    ensures r.server.channels == st.channels
    ensures st.clients[k].registered ==> r.server.clients[k].registered
  {
    var c := st.clients[k];
    if |params| == 0 then
      Step(st, [ToClient(c.id, Numeric("431", "* :No nickname given"))])
    else
      var nick := params[0];
      if !IsValidNickname(nick) then
        Step(st, [ToClient(c.id, Numeric("432", "* " + nick + " :Erroneous nickname"))])
      else if NickTakenByOther(st.clients, k, nick) then
        Step(st, [ToClient(c.id, Numeric("433", "* " + nick + " :Nickname is already in use"))])
      else
        var notice :=
          if c.nickname != "" && c.registered
          then [Send(Others(st.clients, k), FromUser(c.nickname, "NICK :" + nick))]
          else [];
        var reg := CheckRegistration(SetClient(st, k, c.(nickname := nick)), k);
        Step(reg.server, notice + reg.out)
  }

  /** `handleUSER`. The hostname field is overwritten with the second
      parameter, as the source does. */
  function HandleUser(st: Server, k: nat, params: seq<string>): (r: Step)
    requires k < |st.clients|
    ensures |r.server.clients| == |st.clients|
    ensures forall i :: 0 <= i < |st.clients| && i != k ==> r.server.clients[i] == st.clients[i]
    ensures r.server.channels == st.channels
    ensures st.clients[k].registered ==> r.server.clients[k].registered
  {
    var c := st.clients[k];
    if |params| < 4 then
      Step(st, [ToClient(c.id, Numeric("461", "* USER :Not enough parameters"))])
    else if c.registered then
      Step(st, [ToClient(c.id, Numeric("462", "* :You may not reregister"))])
    else
      var c' := c.(username := params[0], hostname := params[1], realname := params[3]);
      CheckRegistration(SetClient(st, k, c'), k)
  }

  /** `handlePING`. */
  function HandlePing(st: Server, k: nat, params: seq<string>): (r: Step)
    requires k < |st.clients|
    ensures r.server == st
    ensures |r.out| == 1 && r.out[0].to == {st.clients[k].id}
  {
    var c := st.clients[k];
    if |params| == 0 then
      Step(st, [ToClient(c.id, Numeric("409", c.nickname + " :No origin specified"))])
    else
      Step(st, [ToClient(c.id, FromUser(c.nickname, "PONG miniircd :" + params[0]))])
  }

  /** `handleJOIN`: creates the channel on first use; joining a channel one
      is already on does nothing. */
  function HandleJoin(st: Server, k: nat, params: seq<string>): (r: Step)
    requires k < |st.clients|
    ensures r.server.clients == st.clients
  {
    var c := st.clients[k];
    if |params| == 0 then
      Step(st, [ToClient(c.id, Numeric("461", c.nickname + " JOIN :Not enough parameters"))])
    else
      var name := params[0];
      if !IsChannelName(name) then
        Step(st, [ToClient(c.id, Numeric("476", c.nickname + " " + name + " :Invalid channel name"))])
      else
        var members := if name in st.channels then st.channels[name] else {};
        if c.id in members then Step(st, [])
        else
          var members' := AddClient(members, c.id);
          Step(st.(channels := st.channels[name := members']),
               [ Broadcast(members', FromUser(c.nickname, "JOIN :" + name), None),
                 ToClient(c.id, Numeric("332", c.nickname + " " + name + " :No topic is set")),
                 ToClient(c.id, Numeric("353", c.nickname + " = " + name + " :" + NamesList(st.clients, members'))),
                 ToClient(c.id, Numeric("366", c.nickname + " " + name + " :End of /NAMES list.")) ])
  }

  /** `handlePART`: the PART notice goes to the members left after the
      removal, so the leaving client does not get it; an emptied channel
      is deleted. */
  function HandlePart(st: Server, k: nat, params: seq<string>): (r: Step)
    requires k < |st.clients|
    ensures r.server.clients == st.clients
  {
    var c := st.clients[k];
    if |params| == 0 then
      Step(st, [ToClient(c.id, Numeric("461", c.nickname + " PART :Not enough parameters"))])
    else
      var name := params[0];
      if name !in st.channels then
        Step(st, [ToClient(c.id, Numeric("403", c.nickname + " " + name + " :No such channel"))])
      else if c.id !in st.channels[name] then
        Step(st, [ToClient(c.id, Numeric("442", c.nickname + " " + name + " :You're not on that channel"))])
      else
        var members' := RemoveClient(st.channels[name], c.id);
        var channels' := if members' == {} then st.channels - {name} else st.channels[name := members'];
        Step(st.(channels := channels'),
             [Broadcast(members', FromUser(c.nickname, "PART " + name), None)])
  }

  /** The checks shared by PRIVMSG and NOTICE, in the order the source makes
      them. `Deliver` carries the single send of a successful message. */
  datatype Routing = Deliver(send: Send) | TooFewParams | NoText | NoSuchTarget | NotOnChannel

  /** Where a PRIVMSG or NOTICE with these parameters goes; `verb` is the
      command word repeated in the relayed text. */
  function RouteMessage(st: Server, k: nat, verb: string, params: seq<string>): (r: Routing)
    requires k < |st.clients|
  {
    var c := st.clients[k];
    if |params| < 2 then TooFewParams
    else
      var target := params[0];
      var message := params[1];
      var text := FromUser(c.nickname, verb + " " + target + " :" + message);
      if message == "" then NoText
      else if IsChannelName(target) then
        if target !in st.channels then NoSuchTarget
        else if c.id !in st.channels[target] then NotOnChannel
        else Deliver(Broadcast(st.channels[target], text, Some(c.id)))
      else match FindByNick(st.clients, target)
        case None => NoSuchTarget
        case Some(j) => Deliver(ToClient(st.clients[j].id, text))
  }

  /** `handlePRIVMSG`: each failed check is answered with its numeric. */
  function HandlePrivmsg(st: Server, k: nat, params: seq<string>): (r: Step)
    requires k < |st.clients|
    ensures r.server == st
    ensures |r.out| == 1
  {
    var c := st.clients[k];
    var target := if |params| > 0 then params[0] else "";
    match RouteMessage(st, k, "PRIVMSG", params)
    case Deliver(s) => Step(st, [s])
    case TooFewParams => Step(st, [ToClient(c.id, Numeric("461", c.nickname + " PRIVMSG :Not enough parameters"))])
    case NoText => Step(st, [ToClient(c.id, Numeric("412", c.nickname + " :No text to send"))])
    case NoSuchTarget => Step(st, [ToClient(c.id, Numeric("401", c.nickname + " " + target + " :No such nick/channel"))])
    case NotOnChannel => Step(st, [ToClient(c.id, Numeric("442", c.nickname + " " + target + " :You're not on that channel"))])
  }

  /** `handleNOTICE`: the same checks as PRIVMSG, failing silently. */
  function HandleNotice(st: Server, k: nat, params: seq<string>): (r: Step)
    requires k < |st.clients|
    ensures r.server == st
    ensures |r.out| <= 1
  {
    match RouteMessage(st, k, "NOTICE", params)
    case Deliver(s) => Step(st, [s])
    case _ => Step(st, [])
  }

  /** `handleQUIT`: tell every other client and mark this one for removal. */
  function HandleQuit(st: Server, k: nat, params: seq<string>): (r: Step)
    requires k < |st.clients|
    ensures |r.server.clients| == |st.clients|
    ensures forall i :: 0 <= i < |st.clients| && i != k ==> r.server.clients[i] == st.clients[i]
    ensures r.server.clients[k] == st.clients[k].(disconnecting := true)
    ensures r.server.channels == st.channels
    ensures |r.out| == 1 && r.out[0].to == Others(st.clients, k)
  {
    var c := st.clients[k];
    var reason := if |params| > 0 then " :" + params[0] else "";
    Step(SetClient(st, k, c.(disconnecting := true)),
         [Send(Others(st.clients, k), FromUser(c.nickname, "QUIT :Quit" + reason))])
  }

  /** The dispatch of `processCommand`: the command word selects a handler
      by exact, case-sensitive comparison, anything else is 421. */
  function Dispatch(st: Server, k: nat, cmd: Command): (r: Step)
    requires k < |st.clients|
    ensures |r.server.clients| == |st.clients|
    ensures forall i :: 0 <= i < |st.clients| && i != k ==> r.server.clients[i] == st.clients[i]
    ensures r.server.clients[k].id == st.clients[k].id
    ensures st.clients[k].registered ==> r.server.clients[k].registered
  {
    var params := cmd.params;
    if cmd.name == "NICK" then HandleNick(st, k, params)
    else if cmd.name == "USER" then HandleUser(st, k, params)
    else if cmd.name == "PING" then HandlePing(st, k, params)
    else if cmd.name == "JOIN" then HandleJoin(st, k, params)
    else if cmd.name == "PRIVMSG" then HandlePrivmsg(st, k, params)
    else if cmd.name == "PART" then HandlePart(st, k, params)
    else if cmd.name == "QUIT" then HandleQuit(st, k, params)
    else if cmd.name == "NOTICE" then HandleNotice(st, k, params)
    else
      var c := st.clients[k];
      Step(st, [ToClient(c.id, Numeric("421", c.nickname + " " + cmd.name + " :Unknown command"))])
  }

  /** `processCommand`: empty lines are ignored, anything else is parsed
      and dispatched. */
  function ProcessCommand(st: Server, k: nat, line: string): (r: Step)
    requires k < |st.clients|
    ensures |r.server.clients| == |st.clients|
    ensures forall i :: 0 <= i < |st.clients| && i != k ==> r.server.clients[i] == st.clients[i]
    ensures r.server.clients[k].id == st.clients[k].id
    ensures st.clients[k].registered ==> r.server.clients[k].registered
  {
    if line == "" then Step(st, [])
    else Dispatch(st, k, ParseCommand(line))
  }

  /** `handleNewConnections` after a successful `accept`: a fresh,
      unregistered client is appended and greeted. */
  function Accept(st: Server, id: ClientId, hostname: string): (r: Step)
    ensures |r.server.clients| == |st.clients| + 1
    ensures r.server.clients[..|st.clients|] == st.clients
    ensures var c := r.server.clients[|st.clients|];
      c.id == id && c.hostname == hostname && c.nickname == "" && c.username == ""
      && !c.registered && !c.disconnecting
    ensures r.server.channels == st.channels
    ensures r.out == [ToClient(id, WelcomeNotice)]
  {
    var c := Client(id, "", "", "", hostname, false, false);
    Step(st.(clients := st.clients + [c]), [ToClient(id, WelcomeNotice)])
  }
}

=== FILE: py_text.dfy ===
/** The Python string operations the bots rely on: `str.split()` with no
    argument, `str.split(sep)` and `str.split(' ', 1)` for one-character
    separators, `sep.join`, and `random.choice`, whose randomness becomes
    an index supplied by the caller. */
module PyText {
  import opened Base
  import opened Text

  /** `str.isspace` for one character: the characters `str.split()` with no
      argument treats as separators. */
  predicate IsSpace(c: char)
  {
    || c == ' '
    || '\t' <= c <= '\r'
    || '\U{1C}' <= c <= '\U{1F}'
    || c == '\U{85}' || c == '\U{A0}' || c == '\U{1680}'
    || '\U{2000}' <= c <= '\U{200A}'
    || c == '\U{2028}' || c == '\U{2029}' || c == '\U{202F}' || c == '\U{205F}' || c == '\U{3000}'
  }

  /** What `str.split()` returns an element of: a non-empty run of
      non-whitespace. */
  predicate IsWord(w: string)
  {
    |w| > 0 && forall i :: 0 <= i < |w| ==> !IsSpace(w[i])
  }

  /** Length of the run of non-whitespace that starts `s`. */
  function WordLength(s: string): (n: nat)
    ensures n <= |s|
    ensures forall i :: 0 <= i < n ==> !IsSpace(s[i])
    ensures n < |s| ==> IsSpace(s[n])
  {
    if |s| == 0 || IsSpace(s[0]) then 0 else 1 + WordLength(s[1..])
  }

  /** `s.split()`: the maximal runs of non-whitespace, in order. */
  function Words(s: string): (ws: seq<string>)
    ensures forall i :: 0 <= i < |ws| ==> IsWord(ws[i])
    decreases |s|
  {
    if |s| == 0 then []
    else if IsSpace(s[0]) then Words(s[1..])
    else
      var n := WordLength(s);
      [s[..n]] + Words(s[n..])
  }

  /** A word followed by whitespace (or nothing) is read as one token. */
  lemma {:induction false} WordLengthOfWord(w: string, t: string)
    requires IsWord(w)
    requires |t| == 0 || IsSpace(t[0])
    ensures WordLength(w + t) == |w|
    decreases |w|
  {
    if |w| > 1 {
      assert (w + t)[1..] == w[1..] + t;
      WordLengthOfWord(w[1..], t);
    } else {
      assert (w + t)[1..] == t;
    }
  }

  /** A word, a space and the rest split into that word and the words of
      the rest. */
  lemma WordsOfCons(w: string, t: string)
    requires IsWord(w)
    ensures Words(w + " " + t) == [w] + Words(t)
  {
    var s := w + " " + t;
    WordLengthOfWord(w, " " + t);
    assert s[..|w|] == w;
    assert s[|w|..] == " " + t;
    assert (" " + t)[1..] == t;
  }

  lemma WordsOfWord(w: string)
    requires IsWord(w)
    ensures Words(w) == [w]
  {
    WordLengthOfWord(w, "");
    assert w + "" == w;
    assert w[..|w|] == w;
  }

  /** Splitting words joined by single spaces gives the words back. */
  lemma {:induction false} WordsOfJoin(ws: seq<string>)
    requires forall i :: 0 <= i < |ws| ==> IsWord(ws[i])
    ensures Words(Join(" ", ws)) == ws
    decreases |ws|
  {
    if |ws| == 1 {
      WordsOfWord(ws[0]);
    } else if |ws| > 1 {
      WordsOfJoin(ws[1..]);
      WordsOfCons(ws[0], Join(" ", ws[1..]));
      assert Join(" ", ws) == ws[0] + " " + Join(" ", ws[1..]);
      assert ws == [ws[0]] + ws[1..];
    }
  }

  /** Whitespace at the end adds no word: the `\r` left on a line cut at
      `\n` disappears. */
  lemma {:induction false} WordsIgnoreTrailingSpace(s: string, t: string)
    requires forall i :: 0 <= i < |t| ==> IsSpace(t[i])
    ensures Words(s + t) == Words(s)
    decreases |s| + |t|
  {
    if |s| == 0 {
      assert s + t == t;
      if |t| > 0 {
        WordsIgnoreTrailingSpace(s, t[1..]);
        assert t[1..] == s + t[1..];
      }
    } else if IsSpace(s[0]) {
      assert (s + t)[1..] == s[1..] + t;
      WordsIgnoreTrailingSpace(s[1..], t);
    } else {
      var n := WordLength(s);
      WordLengthOfWord(s[..n], s[n..] + t);
      assert s + t == s[..n] + (s[n..] + t);
      assert (s + t)[..n] == s[..n];
      assert (s + t)[n..] == s[n..] + t;
      WordsIgnoreTrailingSpace(s[n..], t);
    }
  }

  /** `s.split(c)` for a one-character separator: the pieces between the
      occurrences of `c`, empty pieces included. */
  function SplitOn(s: string, c: char): (ps: seq<string>)
    ensures |ps| >= 1
    ensures |ps| == 1 <==> c !in s
    ensures forall i :: 0 <= i < |ps| ==> c !in ps[i]
    decreases |s|
  {
    match FindChar(s, c)
    case None => [s]
    case Some(i) => [s[..i]] + SplitOn(s[i + 1..], c)
  }

  /** Joining the pieces with the separator restores the string. */
  lemma {:induction false} JoinSplitOn(s: string, c: char)
    ensures Join([c], SplitOn(s, c)) == s
    decreases |s|
  {
    match FindChar(s, c)
    case None =>
    case Some(i) =>
      var rest := SplitOn(s[i + 1..], c);
      calc {
        Join([c], SplitOn(s, c));
        Join([c], [s[..i]] + rest);
        { JoinCons([c], s[..i], rest); }
        s[..i] + [c] + Join([c], rest);
        { JoinSplitOn(s[i + 1..], c); }
        s[..i] + [c] + s[i + 1..];
        { AroundIndex(s, i); }
        s;
      }
  }

  /** A string is its part before `i`, its `i`-th character and the rest. */
  lemma AroundIndex(s: string, i: nat)
    requires i < |s|
    ensures s == s[..i] + [s[i]] + s[i + 1..]
  {
  }

  /** Joining a first piece and at least one more. */
  lemma JoinCons(sep: string, x: string, rest: seq<string>)
    requires |rest| >= 1
    ensures Join(sep, [x] + rest) == x + sep + Join(sep, rest)
  {
    assert ([x] + rest)[1..] == rest;
  }

  /** Splitting pieces joined by the separator gives the pieces back. */
  lemma {:induction false} SplitOnJoin(ps: seq<string>, c: char)
    requires |ps| >= 1
    requires forall i :: 0 <= i < |ps| ==> c !in ps[i]
    ensures SplitOn(Join([c], ps), c) == ps
    decreases |ps|
  {
    if |ps| > 1 {
      var s := Join([c], ps);
      var rest := Join([c], ps[1..]);
      assert s == ps[0] + [c] + rest;
      SplitAtFirst(ps[0], rest, c);
      SplitOnJoin(ps[1..], c);
      assert ps == [ps[0]] + ps[1..];
    } else {
      assert Join([c], ps) == ps[0];
    }
  }

  /** Text without `c`, then `c`: the first piece is that text. */
  lemma SplitAtFirst(a: string, b: string, c: char)
    requires c !in a
    ensures SplitOn(a + [c] + b, c) == [a] + SplitOn(b, c)
  {
    var s := a + [c] + b;
    assert s[|a|] == c;
    assert s[..|a|] == a;
    FindCharAt(s, c, |a|);
    assert s[|a| + 1..] == b;
  }

  /** The first `c` is found. */
  lemma FindCharAt(s: string, c: char, i: nat)
    requires i < |s| && s[i] == c && c !in s[..i]
    ensures FindChar(s, c) == Some(i)
  {
    var r := FindChar(s, c);
    assert c in s[..i + 1] by {
      assert s[..i + 1][i] == c;
    }
    assert r.Some?;
    forall j | 0 <= j < r.value
      ensures s[j] != c
    {
      assert s[..r.value][j] == s[j];
    }
    forall j | 0 <= j < i
      ensures s[j] != c
    {
      assert s[..i][j] == s[j];
    }
  }

  /** `s.split(c)[0]`: everything before the first `c`, or all of `s`. */
  function UpTo(s: string, c: char): (r: string)
    ensures c !in r
    ensures |r| <= |s| && s[..|r|] == r
    ensures |r| < |s| ==> s[|r|] == c
  {
    match FindChar(s, c)
    case None => assert SplitOn(s, c) == [s]; SplitOn(s, c)[0]
    case Some(i) => assert SplitOn(s, c)[0] == s[..i]; SplitOn(s, c)[0]
  }

  /** Text without `c` is kept whole. */
  lemma UpToWithout(s: string, c: char)
    requires c !in s
    ensures UpTo(s, c) == s
  {
    assert FindChar(s, c).None?;
    assert SplitOn(s, c) == [s];
  }

  /** `s.split(' ', 1)`: one piece when there is no space, otherwise the
      text before the first space and everything after it. */
  function SplitOnce(s: string): (ps: seq<string>)
    ensures 1 <= |ps| <= 2
    ensures ' ' !in ps[0]
    ensures |ps| == 1 <==> ' ' !in s
    ensures Join(" ", ps) == s
  {
    match FindChar(s, ' ')
    case None => [s]
    case Some(i) =>
      assert s == s[..i] + " " + s[i + 1..];
      [s[..i], s[i + 1..]]
  }

  /** `random.choice(xs)` given the index the generator would draw. */
  function Choose<T>(xs: seq<T>, roll: nat): (r: T)
    requires |xs| > 0
    ensures r in xs
    ensures roll < |xs| ==> r == xs[roll]
  {
    xs[roll % |xs|]
  }

  /** Every element can be chosen. */
  lemma ChooseReaches<T>(xs: seq<T>, x: T)
    requires x in xs
    ensures exists roll: nat :: Choose(xs, roll) == x
  {
    var i :| 0 <= i < |xs| && xs[i] == x;
    assert Choose(xs, i) == x;
  }

  /** `[x for x in xs if x != a and x != b]`. */
  function Without(xs: seq<string>, a: string, b: string): (r: seq<string>)
    ensures forall i :: 0 <= i < |r| ==> r[i] in xs && r[i] != a && r[i] != b
    ensures forall x :: x in xs && x != a && x != b ==> x in r
  {
    if |xs| == 0 then []
    else if xs[0] != a && xs[0] != b then [xs[0]] + Without(xs[1..], a, b)
    else Without(xs[1..], a, b)
  }

  // ---------------------------------------------------------------------
  // int(s) and str(n) for base 10

  predicate IsAsciiDigit(c: char)
  {
    '0' <= c <= '9'
  }

  function DigitChar(d: nat): (c: char)
    requires d < 10
    ensures IsAsciiDigit(c)
  {
    ('0' as int + d) as char
  }

  /** `s.lstrip()`. */
  function StripStart(s: string): (r: string)
    ensures |r| <= |s| && r == s[|s| - |r|..]
    ensures |r| > 0 ==> !IsSpace(r[0])
  {
    if |s| > 0 && IsSpace(s[0]) then StripStart(s[1..]) else s
  }

  /** `s.rstrip()`. */
  function StripEnd(s: string): (r: string)
    ensures |r| <= |s| && r == s[..|r|]
    ensures |r| > 0 ==> !IsSpace(r[|r| - 1])
  {
    if |s| > 0 && IsSpace(s[|s| - 1]) then StripEnd(s[..|s| - 1]) else s
  }

  /** The digits of a base-10 literal: ASCII digits, with single
      underscores allowed between two digits. */
  predicate IsDigitString(s: string)
  {
    && |s| > 0
    && IsAsciiDigit(s[0]) && IsAsciiDigit(s[|s| - 1])
    && (forall i :: 0 <= i < |s| ==> IsAsciiDigit(s[i]) || s[i] == '_')
    && (forall i :: 0 <= i < |s| - 1 ==> s[i] == '_' ==> s[i + 1] != '_')
  }

  /** The number the digits spell, underscores skipped. */
  function DigitsValue(s: string): nat
    requires forall i :: 0 <= i < |s| ==> IsAsciiDigit(s[i]) || s[i] == '_'
    decreases |s|
  {
    if |s| == 0 then 0
    else
      var init := DigitsValue(s[..|s| - 1]);
      var last := s[|s| - 1];
      assert IsAsciiDigit(last) || last == '_';
      if last == '_' then init else init * 10 + (last as int - '0' as int)
  }

  /** `int(s)`, or `None` where Python raises `ValueError`: surrounding
      whitespace is ignored, one sign is allowed. */
  function PyInt(s: string): (r: Option<int>)
  {
    var t := StripEnd(StripStart(s));
    if |t| > 0 && (t[0] == '+' || t[0] == '-') then
      if IsDigitString(t[1..]) then
        var v: int := DigitsValue(t[1..]);
        Some(if t[0] == '-' then -v else v)
      else None
    else if IsDigitString(t) then Some(DigitsValue(t))
    else None
  }

  /** `str(n)` for a natural number. */
  function NatString(n: nat): (s: string)
    ensures |s| > 0
    ensures forall i :: 0 <= i < |s| ==> IsAsciiDigit(s[i])
    decreases n
  {
    if n < 10 then [DigitChar(n)] else NatString(n / 10) + [DigitChar(n % 10)]
  }

  /** `str(n)`. */
  function IntString(n: int): string
  {
    if n < 0 then "-" + NatString(-n) else NatString(n)
  }

  lemma {:induction false} NatStringValue(n: nat)
    ensures DigitsValue(NatString(n)) == n
    decreases n
  {
    var s := NatString(n);
    if n >= 10 {
      NatStringValue(n / 10);
      assert s[..|s| - 1] == NatString(n / 10);
    }
  }

  /** Text with no whitespace at either end is left alone by `strip`. */
  lemma NothingToStrip(s: string)
    requires |s| > 0 && !IsSpace(s[0]) && !IsSpace(s[|s| - 1])
    ensures StripEnd(StripStart(s)) == s
  {
    assert StripStart(s) == s;
  }

  lemma DigitsAreLiteral(s: string)
    requires |s| > 0 && forall i :: 0 <= i < |s| ==> IsAsciiDigit(s[i])
    ensures IsDigitString(s)
  {
  }

  lemma NatStringIsLiteral(n: nat)
    ensures IsDigitString(NatString(n)) && DigitsValue(NatString(n)) == n
    ensures StripEnd(StripStart(NatString(n))) == NatString(n)
  {
    var s := NatString(n);
    NatStringValue(n);
    DigitsAreLiteral(s);
    NothingToStrip(s);
  }

  lemma PyIntOfDigits(d: string)
    requires IsDigitString(d)
    ensures PyInt(d) == Some(DigitsValue(d))
  {
    NothingToStrip(d);
    assert !(d[0] == '+' || d[0] == '-');
  }

  /** `int` of a minus sign and digits is the negated value of the digits. */
  lemma PyIntOfNegative(d: string)
    requires IsDigitString(d)
    ensures PyInt("-" + d).Some? && PyInt("-" + d).value == -(DigitsValue(d) as int)
  {
    SignedNothingToStrip(d);
    AfterSign(d);
    PyIntOfSigned("-" + d);
  }

  /** A minus sign and digits have no whitespace to strip. */
  lemma SignedNothingToStrip(d: string)
    requires IsDigitString(d)
    ensures StripEnd(StripStart("-" + d)) == "-" + d
  {
    var s := "-" + d;
    assert s[|s| - 1] == d[|d| - 1];
    NothingToStrip(s);
  }

  /** What follows the sign is the digits themselves. */
  lemma AfterSign(d: string)
    requires IsDigitString(d)
    ensures IsDigitString(("-" + d)[1..])
    ensures DigitsValue(("-" + d)[1..]) == DigitsValue(d)
  {
    assert ("-" + d)[1..] == d;
  }

  /** A stripped minus sign followed by digits is their negation. */
  lemma PyIntOfSigned(s: string)
    requires |s| > 0 && s[0] == '-' && IsDigitString(s[1..])
    requires StripEnd(StripStart(s)) == s
    ensures PyInt(s).Some? && PyInt(s).value == -(DigitsValue(s[1..]) as int)
  {
  }

  /** `int(str(n)) == n`. */
  lemma IntOfString(n: int)
    ensures PyInt(IntString(n)) == Some(n)
  {
    var m: nat := if n < 0 then -n else n;
    NatStringIsLiteral(m);
    if n < 0 {
      PyIntOfNegative(NatString(m));
    } else {
      PyIntOfDigits(NatString(m));
    }
  }

  /** What one received piece of data led to: the lines sent, in order,
      and whether an uncaught exception ended the script. */
  datatype Outcome = Outcome(sent: seq<string>, crashed: bool)

  /** Run `b` after `a` unless `a` ended the script. */
  function AndThen(a: Outcome, b: Outcome): (r: Outcome)
    ensures a.crashed ==> r == a
    ensures !a.crashed ==> r.sent == a.sent + b.sent && r.crashed == b.crashed
  {
    if a.crashed then a else Outcome(a.sent + b.sent, b.crashed)
  }
}

=== FILE: server_invariants.dfy ===
/** The invariants the server's handlers keep (server/IRCServer.cpp):
    distinct clients, distinct nicknames, registration exactly when both
    nickname and username are known and never undone, and no empty or
    dangling channels. */
module ServerInvariants {
  import opened Base
  import opened Text
  import opened IrcParse
  import opened Channel
  import opened IrcServer
  import opened ServerReceive

  predicate IsClientId(cs: seq<Client>, x: ClientId)
  {
    exists i :: 0 <= i < |cs| && cs[i].id == x
  }

  /** Each connection has its own identity. */
  ghost predicate UniqueIds(cs: seq<Client>)
  {
    forall i, j :: 0 <= i < |cs| && 0 <= j < |cs| && i != j ==> cs[i].id != cs[j].id
  }

  /** No two clients share a non-empty nickname. */
  ghost predicate UniqueNicks(cs: seq<Client>)
  {
    forall i, j :: 0 <= i < |cs| && 0 <= j < |cs| && i != j && cs[i].nickname != "" ==>
      cs[i].nickname != cs[j].nickname
  }

  /** A nickname is either not chosen yet or passed `isValidNickname`. */
  ghost predicate NickShapes(cs: seq<Client>)
  {
    forall i :: 0 <= i < |cs| ==> cs[i].nickname == "" || IsValidNickname(cs[i].nickname)
  }

  /** Registered exactly when both nickname and username are set. */
  ghost predicate RegisteredExactly(cs: seq<Client>)
  {
    forall i :: 0 <= i < |cs| ==>
      (cs[i].registered <==> cs[i].nickname != "" && cs[i].username != "")
  }

  /** Every channel is named with `#`, has a member, and only current
      clients are members. */
  ghost predicate ChannelsWellFormed(st: Server)
  {
    && (forall n :: n in st.channels ==> IsChannelName(n) && st.channels[n] != {})
    && (forall n, x :: n in st.channels && x in st.channels[n] ==> IsClientId(st.clients, x))
  }

  ghost predicate Valid(st: Server)
  {
    && UniqueIds(st.clients)
    && UniqueNicks(st.clients)
    && NickShapes(st.clients)
    && RegisteredExactly(st.clients)
    && ChannelsWellFormed(st)
  }

  /** Between passes of the receive loop no client is left half-removed. */
  ghost predicate Settled(st: Server)
  {
    forall i :: 0 <= i < |st.clients| ==> !st.clients[i].disconnecting
  }

  lemma EmptyIsValid()
    ensures Valid(Empty) && Settled(Empty)
  {
  }

  // ---------------------------------------------------------------------
  // Editing one client

  /** Replacing one client by one with the same identity keeps the
      invariant when its own fields are consistent. */
  lemma EditKeepsValid(st: Server, k: nat, c: Client)
    requires Valid(st)
    requires k < |st.clients|
    requires c.id == st.clients[k].id
    requires c.nickname == "" || IsValidNickname(c.nickname)
    requires c.nickname != "" ==> !NickTakenByOther(st.clients, k, c.nickname)
    requires c.registered <==> c.nickname != "" && c.username != ""
    ensures Valid(SetClient(st, k, c))
  {
    var st' := SetClient(st, k, c);
    forall n, x | n in st'.channels && x in st'.channels[n]
      ensures IsClientId(st'.clients, x)
    {
      assert IsClientId(st.clients, x);
      var i :| 0 <= i < |st.clients| && st.clients[i].id == x;
      assert st'.clients[i].id == x;
    }
    forall i, j | 0 <= i < |st'.clients| && 0 <= j < |st'.clients| && i != j && st'.clients[i].nickname != ""
      ensures st'.clients[i].nickname != st'.clients[j].nickname
    {
      if i == k {
        assert !(j != k && st.clients[j].nickname == c.nickname);
      } else if j == k && c.nickname != "" {
        assert !(i != k && st.clients[i].nickname == c.nickname);
      }
    }
  }

  lemma NickKeepsValid(st: Server, k: nat, params: seq<string>)
    requires Valid(st) && k < |st.clients|
    ensures Valid(HandleNick(st, k, params).server)
  {
    if |params| > 0 && IsValidNickname(params[0]) && !NickTakenByOther(st.clients, k, params[0]) {
      var c := st.clients[k];
      var c' := c.(nickname := params[0], registered := c.username != "");
      assert HandleNick(st, k, params).server == SetClient(st, k, c');
      EditKeepsValid(st, k, c');
    }
  }

  lemma UserKeepsValid(st: Server, k: nat, params: seq<string>)
    requires Valid(st) && k < |st.clients|
    ensures Valid(HandleUser(st, k, params).server)
  {
    var c := st.clients[k];
    if |params| >= 4 && !c.registered {
      var c' := c.(username := params[0], hostname := params[1], realname := params[3],
                   registered := c.nickname != "" && params[0] != "");
      assert HandleUser(st, k, params).server == SetClient(st, k, c');
      if c.nickname != "" {
        assert !NickTakenByOther(st.clients, k, c.nickname);
      }
      EditKeepsValid(st, k, c');
    }
  }

  lemma JoinKeepsValid(st: Server, k: nat, params: seq<string>)
    requires Valid(st) && k < |st.clients|
    ensures Valid(HandleJoin(st, k, params).server)
  {
    var r := HandleJoin(st, k, params);
    forall n, x | n in r.server.channels && x in r.server.channels[n]
      ensures IsClientId(r.server.clients, x)
    {
      if x == st.clients[k].id {
        assert r.server.clients[k].id == x;
      }
    }
  }

  lemma PartKeepsValid(st: Server, k: nat, params: seq<string>)
    requires Valid(st) && k < |st.clients|
    ensures Valid(HandlePart(st, k, params).server)
  {
  }

  lemma QuitKeepsValid(st: Server, k: nat, params: seq<string>)
    requires Valid(st) && k < |st.clients|
    ensures Valid(HandleQuit(st, k, params).server)
  {
    var c := st.clients[k];
    if c.nickname != "" {
      assert !NickTakenByOther(st.clients, k, c.nickname);
    }
    EditKeepsValid(st, k, c.(disconnecting := true));
  }

  /** `processCommand` keeps the invariant whatever the line. */
  lemma ProcessCommandKeepsValid(st: Server, k: nat, line: string)
    requires Valid(st) && k < |st.clients|
    ensures Valid(ProcessCommand(st, k, line).server)
  {
    if line != "" {
      var cmd := ParseCommand(line);
      if cmd.name == "NICK" { NickKeepsValid(st, k, cmd.params); }
      else if cmd.name == "USER" { UserKeepsValid(st, k, cmd.params); }
      else if cmd.name == "JOIN" { JoinKeepsValid(st, k, cmd.params); }
      else if cmd.name == "PART" { PartKeepsValid(st, k, cmd.params); }
      else if cmd.name == "QUIT" { QuitKeepsValid(st, k, cmd.params); }
    }
  }

  lemma {:induction false} RunLinesKeepsValid(st: Server, k: nat, lines: seq<string>)
    requires Valid(st) && k < |st.clients|
    ensures Valid(RunLines(LineStep(k), Ended(k), st, lines).server)
    decreases |lines|
  {
    if |lines| > 0 {
      var first := ProcessCommand(st, k, lines[0]);
      assert LineStep(k)(st, lines[0]) == first;
      ProcessCommandKeepsValid(st, k, lines[0]);
      if !Ended(k)(first.server) {
        RunLinesKeepsValid(first.server, k, lines[1..]);
      }
    }
  }

  /** A whole chunk keeps the invariant. */
  lemma ReceiveChunkKeepsValid(st: Server, k: nat, data: string)
    requires Valid(st) && k < |st.clients|
    ensures Valid(ReceiveChunk(st, k, data).server)
  {
    RunLinesKeepsValid(st, k, SplitCrlf(data).lines);
  }

  /** The clients left after removing index `k` are the others, in order. */
  lemma RemoveAtIndex(cs: seq<Client>, k: nat, i: nat)
    requires k < |cs| && i < |cs| - 1
    ensures RemoveAt(cs, k)[i] == cs[if i < k then i else i + 1]
  {
  }

  lemma CleanupKeepsRoster(st: Server, k: nat)
    requires Valid(st) && k < |st.clients|
    ensures var cs := RemoveAt(st.clients, k);
      UniqueIds(cs) && UniqueNicks(cs) && NickShapes(cs) && RegisteredExactly(cs)
  {
    var cs := RemoveAt(st.clients, k);
    forall i, j | 0 <= i < |cs| && 0 <= j < |cs| && i != j
      ensures cs[i].id != cs[j].id
      ensures cs[i].nickname != "" ==> cs[i].nickname != cs[j].nickname
    {
      RemoveAtIndex(st.clients, k, i);
      RemoveAtIndex(st.clients, k, j);
    }
    forall i | 0 <= i < |cs|
      ensures cs[i].nickname == "" || IsValidNickname(cs[i].nickname)
      ensures cs[i].registered <==> cs[i].nickname != "" && cs[i].username != ""
    {
      RemoveAtIndex(st.clients, k, i);
    }
  }

  lemma CleanupKeepsChannels(st: Server, k: nat)
    requires Valid(st) && k < |st.clients|
    ensures ChannelsWellFormed(Cleanup(st, k).server)
  {
    var r := Cleanup(st, k).server;
    forall n, x | n in r.channels && x in r.channels[n]
      ensures IsClientId(r.clients, x)
    {
      assert x in st.channels[n] && x != st.clients[k].id;
      assert IsClientId(st.clients, x);
      var i :| 0 <= i < |st.clients| && st.clients[i].id == x;
      var i' := if i < k then i else i - 1;
      RemoveAtIndex(st.clients, k, i');
      assert r.clients[i'].id == x;
    }
  }

  /** Removing a client from the roster and from every channel keeps the
      invariant: in particular no channel is left empty. */
  lemma CleanupKeepsValid(st: Server, k: nat)
    requires Valid(st) && k < |st.clients|
    ensures Valid(Cleanup(st, k).server)
  {
    CleanupKeepsRoster(st, k);
    CleanupKeepsChannels(st, k);
  }

  /** Serving one client keeps the invariant, and a client that quit or
      hung up is gone afterwards. */
  lemma ServeClientKeepsValid(st: Server, k: nat, chunk: Option<string>)
    requires Valid(st) && Settled(st) && k < |st.clients|
    ensures Valid(ServeClient(st, k, chunk).server)
    ensures Settled(ServeClient(st, k, chunk).server)
  {
    var read :=
      match chunk
      case None => Step(SetClient(st, k, st.clients[k].(disconnecting := true)), [])
      case Some(bytes) => ReceiveChunk(st, k, CString(bytes));
    match chunk {
      case None =>
        var c := st.clients[k];
        if c.nickname != "" {
          assert !NickTakenByOther(st.clients, k, c.nickname);
        }
        EditKeepsValid(st, k, c.(disconnecting := true));
      case Some(bytes) =>
        ReceiveChunkKeepsValid(st, k, CString(bytes));
    }
    if read.server.clients[k].disconnecting {
      CleanupKeepsValid(read.server, k);
      var r := Cleanup(read.server, k).server;
      forall i | 0 <= i < |r.clients|
        ensures !r.clients[i].disconnecting
      {
        if i < k {
          assert r.clients[i] == read.server.clients[i];
        } else {
          assert r.clients[i] == read.server.clients[i + 1];
        }
      }
    }
  }

  /** A new connection keeps the invariant when its identity is fresh. */
  lemma AcceptKeepsValid(st: Server, id: ClientId, hostname: string)
    requires Valid(st) && Settled(st)
    requires !IsClientId(st.clients, id)
    ensures Valid(Accept(st, id, hostname).server)
    ensures Settled(Accept(st, id, hostname).server)
  {
    var r := Accept(st, id, hostname).server;
    forall n, x | n in r.channels && x in r.channels[n]
      ensures IsClientId(r.clients, x)
    {
      assert IsClientId(st.clients, x);
      var i :| 0 <= i < |st.clients| && st.clients[i].id == x;
      assert r.clients[i].id == x;
    }
  }

  /** A whole pass over the clients keeps the invariant and leaves no
      client half-removed. */
  lemma {:induction false} ServePassKeepsValid(st: Server, k: nat, input: ClientId -> Input)
    requires Valid(st) && Settled(st) && k <= |st.clients|
    ensures Valid(ServePass(st, k, input).server)
    ensures Settled(ServePass(st, k, input).server)
    decreases |st.clients| - k
  {
    if k < |st.clients| {
      var served := ServeOne(st, k, input(st.clients[k].id));
      ServeOneKeepsValid(st, k, input(st.clients[k].id));
      var next := if |served.server.clients| < |st.clients| then k else k + 1;
      assert ServePass(st, k, input).server == ServePass(served.server, next, input).server;
      ServePassKeepsValid(served.server, next, input);
    }
  }

  lemma ServeOneKeepsValid(st: Server, k: nat, event: Input)
    requires Valid(st) && Settled(st) && k < |st.clients|
    ensures Valid(ServeOne(st, k, event).server)
    ensures Settled(ServeOne(st, k, event).server)
  {
    match event {
      case Readable(chunk) => ServeClientKeepsValid(st, k, chunk);
      case Quiet => assert !st.clients[k].disconnecting;
    }
  }

  /** A turn of the main loop keeps the invariant when the new connection,
      if any, has an identity no current client has. */
  lemma RoundKeepsValid(st: Server, incoming: Option<(ClientId, string)>, input: ClientId -> Input)
    requires Valid(st) && Settled(st)
    requires incoming.Some? ==> !IsClientId(st.clients, incoming.value.0)
    ensures Valid(Round(st, incoming, input).server)
    ensures Settled(Round(st, incoming, input).server)
  {
    var accepted := if incoming.Some? then Accept(st, incoming.value.0, incoming.value.1) else Step(st, []);
    if incoming.Some? {
      AcceptKeepsValid(st, incoming.value.0, incoming.value.1);
    }
    ServePassKeepsValid(accepted.server, 0, input);
  }
}

=== FILE: server_properties.dfy ===
/** What each command handler of server/IRCServer.cpp promises: which
    numeric answers which error, that errors change nothing, who receives
    a relayed message, and when registration happens. */
module ServerProperties {
  import opened Base
  import opened Text
  import opened IrcParse
  import opened Channel
  import opened IrcServer
  import opened ServerInvariants

  /** The single reply a failed command sends back: one write, to the
      acting client only, carrying numeric `code`. */
  predicate IsErrorReply(out: seq<Send>, id: ClientId, code: string)
  {
    |out| == 1 && out[0].to == {id} && StartsWith(out[0].text, ":miniircd " + code + " ")
  }

  /** A numeric written to the acting client alone is an error reply. */
  lemma ErrorReplyOf(id: ClientId, code: string, rest: string)
    ensures IsErrorReply([ToClient(id, Numeric(code, rest))], id, code)
  {
    assert Numeric(code, rest) == (":miniircd " + code + " ") + (rest + "\r\n");
    PrefixStarts(":miniircd " + code + " ", rest + "\r\n");
  }

  // ---------------------------------------------------------------------
  // NICK

  /** The three NICK errors, checked in this order, leave the state as it
      was and answer 431, 432 or 433. */
  lemma NickErrors(st: Server, k: nat, params: seq<string>)
    requires k < |st.clients|
    ensures var r := HandleNick(st, k, params); var id := st.clients[k].id;
      && (|params| == 0 ==> r.server == st && IsErrorReply(r.out, id, "431"))
      && (|params| > 0 && !IsValidNickname(params[0]) ==> r.server == st && IsErrorReply(r.out, id, "432"))
      && (|params| > 0 && IsValidNickname(params[0]) && NickTakenByOther(st.clients, k, params[0]) ==>
            r.server == st && IsErrorReply(r.out, id, "433"))
  {
    var id := st.clients[k].id;
    if |params| > 0 {
      var nick := params[0];
      ErrorReplyOf(st.clients[k].id, "432", "* " + nick + " :Erroneous nickname");
      ErrorReplyOf(st.clients[k].id, "433", "* " + nick + " :Nickname is already in use");
    } else {
      ErrorReplyOf(st.clients[k].id, "431", "* :No nickname given");
    }
  }

  /** A successful NICK sets the nickname, keeps it unique, and announces
      the change to everybody else only for a registered client. */
  lemma NickSuccess(st: Server, k: nat, nick: string, more: seq<string>)
    requires Valid(st) && k < |st.clients|
    requires IsValidNickname(nick) && !NickTakenByOther(st.clients, k, nick)
    ensures var r := HandleNick(st, k, [nick] + more); var c := st.clients[k];
      && r.server.clients[k].nickname == nick
      && UniqueNicks(r.server.clients)
      && (c.registered <==> |r.out| > 0 && r.out[0] == Send(Others(st.clients, k), FromUser(c.nickname, "NICK :" + nick)))
  {
    NickKeepsValid(st, k, [nick] + more);
    var c := st.clients[k];
    if !c.registered {
      var r := HandleNick(st, k, [nick] + more);
      if |r.out| > 0 {
        assert r.out[0].text == Welcome(nick);
        WelcomeStartsWithPrefix(nick);
        NickHasNoSpace(st, k);
        FromUserNotWelcome(c.nickname, "NICK :" + nick);
      }
    }
  }

  // ---------------------------------------------------------------------
  // USER and registration

  /** USER with fewer than four parameters answers 461, USER after
      registration answers 462; both leave the state unchanged. */
  lemma UserErrors(st: Server, k: nat, params: seq<string>)
    requires k < |st.clients|
    ensures var r := HandleUser(st, k, params); var id := st.clients[k].id;
      && (|params| < 4 ==> r.server == st && IsErrorReply(r.out, id, "461"))
      && (|params| >= 4 && st.clients[k].registered ==> r.server == st && IsErrorReply(r.out, id, "462"))
  {
    ErrorReplyOf(st.clients[k].id, "461", "* USER :Not enough parameters");
    ErrorReplyOf(st.clients[k].id, "462", "* :You may not reregister");
  }

  /** A USER accepted before registration records the user, host and real
      names from parameters 0, 1 and 3. */
  lemma UserRecordsFields(st: Server, k: nat, params: seq<string>)
    requires k < |st.clients|
    requires |params| >= 4 && !st.clients[k].registered
    ensures var c := HandleUser(st, k, params).server.clients[k];
      c.username == params[0] && c.hostname == params[1] && c.realname == params[3]
      && c.nickname == st.clients[k].nickname
  {
  }

  /** The prefix of reply 001. */
  const WelcomePrefix := ":miniircd 001 "

  /** Some write in `out` is the 001 welcome. */
  predicate SendsWelcome(out: seq<Send>)
  {
    exists i :: 0 <= i < |out| && StartsWith(out[i].text, WelcomePrefix)
  }

  lemma WelcomeStartsWithPrefix(nick: string)
    ensures StartsWith(Welcome(nick), WelcomePrefix)
  {
    assert Welcome(nick)[..|WelcomePrefix|] == WelcomePrefix;
  }

  /** Every numeric other than 001 is distinguishable from it. */
  lemma NumericNotWelcome(code: string, rest: string)
    requires |code| == 3 && code != "001"
    ensures !StartsWith(Numeric(code, rest), WelcomePrefix)
  {
    var t := Numeric(code, rest);
    assert t[10..13] == code;
    var j :| 10 <= j < 13 && t[j] != WelcomePrefix[j];
    DiffersAt(t, WelcomePrefix, j);
  }

  /** A relayed message starts with the sender's nickname, which has no
      space, followed by a command word; it can never look like 001. */
  lemma FromUserNotWelcome(nick: string, rest: string)
    requires ' ' !in nick
    requires |rest| > 0 && rest[0] != '0'
    ensures !StartsWith(FromUser(nick, rest), WelcomePrefix)
  {
    var t := FromUser(nick, rest);
    if |nick| < 8 {
      assert t[1 + |nick|] == ' ';
      DiffersAt(t, WelcomePrefix, 1 + |nick|);
    } else if |nick| == 8 {
      assert t[10] == rest[0];
      DiffersAt(t, WelcomePrefix, 10);
    } else {
      assert t[9] == nick[8];
      DiffersAt(t, WelcomePrefix, 9);
    }
  }

  lemma MotdNotWelcome(nick: string)
    ensures !StartsWith(Motd(nick), WelcomePrefix)
  {
    var t := Motd(nick);
    assert t[10..13] == "375";
    DiffersAt(t, WelcomePrefix, 10);
  }

  lemma SendsWelcomeAppend(a: seq<Send>, b: seq<Send>)
    ensures SendsWelcome(a + b) <==> SendsWelcome(a) || SendsWelcome(b)
  {
    if SendsWelcome(a + b) {
      var i :| 0 <= i < |a + b| && StartsWith((a + b)[i].text, WelcomePrefix);
      if i >= |a| {
        assert b[i - |a|] == (a + b)[i];
      }
    }
    if SendsWelcome(a) {
      var i :| 0 <= i < |a| && StartsWith(a[i].text, WelcomePrefix);
      assert (a + b)[i] == a[i];
    }
    if SendsWelcome(b) {
      var i :| 0 <= i < |b| && StartsWith(b[i].text, WelcomePrefix);
      assert (a + b)[|a| + i] == b[i];
      assert StartsWith((a + b)[|a| + i].text, WelcomePrefix);
    }
  }

  /** `checkRegistration` sends 001 exactly on the false-to-true
      transition of `registered`. */
  lemma CheckRegistrationWelcome(st: Server, k: nat)
    requires k < |st.clients|
    ensures var r := CheckRegistration(st, k);
      SendsWelcome(r.out) <==> !st.clients[k].registered && r.server.clients[k].registered
  {
    var r := CheckRegistration(st, k);
    if r.out != [] {
      assert StartsWith(r.out[0].text, WelcomePrefix);
    }
  }

  /** Nicknames never contain a space: they are empty or pass the check. */
  lemma NickHasNoSpace(st: Server, k: nat)
    requires Valid(st) && k < |st.clients|
    ensures ' ' !in st.clients[k].nickname
  {
    var n := st.clients[k].nickname;
    forall i | 0 <= i < |n|
      ensures n[i] != ' '
    {
      assert IsNickChar(n[i]);
    }
  }

  /** The client at `k` turned registered in this step. */
  predicate BecameRegistered(before: Server, after: Server, k: nat)
    requires k < |before.clients| && k < |after.clients|
  {
    !before.clients[k].registered && after.clients[k].registered
  }

  lemma NickWelcome(st: Server, k: nat, params: seq<string>)
    requires Valid(st) && k < |st.clients|
    ensures var r := HandleNick(st, k, params);
      SendsWelcome(r.out) <==> BecameRegistered(st, r.server, k)
  {
    var c := st.clients[k];
    if |params| == 0 {
      NumericNotWelcome("431", "* :No nickname given");
    } else {
      var nick := params[0];
      if !IsValidNickname(nick) {
        NumericNotWelcome("432", "* " + nick + " :Erroneous nickname");
      } else if NickTakenByOther(st.clients, k, nick) {
        NumericNotWelcome("433", "* " + nick + " :Nickname is already in use");
      } else {
        var notice :=
          if c.nickname != "" && c.registered
          then [Send(Others(st.clients, k), FromUser(c.nickname, "NICK :" + nick))]
          else [];
        var mid := SetClient(st, k, c.(nickname := nick));
        var reg := CheckRegistration(mid, k);
        CheckRegistrationWelcome(mid, k);
        SendsWelcomeAppend(notice, reg.out);
        NickHasNoSpace(st, k);
        FromUserNotWelcome(c.nickname, "NICK :" + nick);
        assert !SendsWelcome(notice);
      }
    }
  }

  lemma UserWelcome(st: Server, k: nat, params: seq<string>)
    requires k < |st.clients|
    ensures var r := HandleUser(st, k, params);
      SendsWelcome(r.out) <==> BecameRegistered(st, r.server, k)
  {
    var c := st.clients[k];
    if |params| < 4 {
      NumericNotWelcome("461", "* USER :Not enough parameters");
    } else if c.registered {
      NumericNotWelcome("462", "* :You may not reregister");
    } else {
      var c' := c.(username := params[0], hostname := params[1], realname := params[3]);
      CheckRegistrationWelcome(SetClient(st, k, c'), k);
    }
  }

  lemma PingNoWelcome(st: Server, k: nat, params: seq<string>)
    requires Valid(st) && k < |st.clients|
    ensures !SendsWelcome(HandlePing(st, k, params).out)
  {
    var c := st.clients[k];
    if |params| == 0 {
      NumericNotWelcome("409", c.nickname + " :No origin specified");
    } else {
      NickHasNoSpace(st, k);
      FromUserNotWelcome(c.nickname, "PONG miniircd :" + params[0]);
    }
  }

  lemma JoinNoWelcome(st: Server, k: nat, params: seq<string>)
    requires Valid(st) && k < |st.clients|
    ensures !SendsWelcome(HandleJoin(st, k, params).out)
  {
    var c := st.clients[k];
    if |params| == 0 {
      NumericNotWelcome("461", c.nickname + " JOIN :Not enough parameters");
    } else {
      var name := params[0];
      if !IsChannelName(name) {
        NumericNotWelcome("476", c.nickname + " " + name + " :Invalid channel name");
      } else {
        var members := if name in st.channels then st.channels[name] else {};
        var members' := AddClient(members, c.id);
        NickHasNoSpace(st, k);
        FromUserNotWelcome(c.nickname, "JOIN :" + name);
        NumericNotWelcome("332", c.nickname + " " + name + " :No topic is set");
        NumericNotWelcome("353", c.nickname + " = " + name + " :" + NamesList(st.clients, members'));
        NumericNotWelcome("366", c.nickname + " " + name + " :End of /NAMES list.");
      }
    }
  }

  lemma PartNoWelcome(st: Server, k: nat, params: seq<string>)
    requires Valid(st) && k < |st.clients|
    ensures !SendsWelcome(HandlePart(st, k, params).out)
  {
    var c := st.clients[k];
    if |params| == 0 {
      NumericNotWelcome("461", c.nickname + " PART :Not enough parameters");
    } else {
      var name := params[0];
      NumericNotWelcome("403", c.nickname + " " + name + " :No such channel");
      NumericNotWelcome("442", c.nickname + " " + name + " :You're not on that channel");
      NickHasNoSpace(st, k);
      FromUserNotWelcome(c.nickname, "PART " + name);
    }
  }

  /** A relayed PRIVMSG or NOTICE is not a 001. */
  lemma RouteNoWelcome(st: Server, k: nat, verb: string, params: seq<string>)
    requires Valid(st) && k < |st.clients|
    requires |verb| > 0 && verb[0] != '0'
    ensures var r := RouteMessage(st, k, verb, params);
      r.Deliver? ==> !StartsWith(r.send.text, WelcomePrefix)
  {
    DeliveredText(st, k, verb, params);
    if |params| >= 2 {
      NickHasNoSpace(st, k);
      FromUserNotWelcome(st.clients[k].nickname, verb + " " + params[0] + " :" + params[1]);
    }
  }

  lemma PrivmsgNoWelcome(st: Server, k: nat, params: seq<string>)
    requires Valid(st) && k < |st.clients|
    ensures !SendsWelcome(HandlePrivmsg(st, k, params).out)
  {
    var c := st.clients[k];
    var target := if |params| > 0 then params[0] else "";
    match RouteMessage(st, k, "PRIVMSG", params)
    case Deliver(_) => RouteNoWelcome(st, k, "PRIVMSG", params);
    case TooFewParams => NumericNotWelcome("461", c.nickname + " PRIVMSG :Not enough parameters");
    case NoText => NumericNotWelcome("412", c.nickname + " :No text to send");
    case NoSuchTarget => NumericNotWelcome("401", c.nickname + " " + target + " :No such nick/channel");
    case NotOnChannel => NumericNotWelcome("442", c.nickname + " " + target + " :You're not on that channel");
  }

  lemma NoticeNoWelcome(st: Server, k: nat, params: seq<string>)
    requires Valid(st) && k < |st.clients|
    ensures !SendsWelcome(HandleNotice(st, k, params).out)
  {
    RouteNoWelcome(st, k, "NOTICE", params);
  }

  lemma QuitNoWelcome(st: Server, k: nat, params: seq<string>)
    requires Valid(st) && k < |st.clients|
    ensures !SendsWelcome(HandleQuit(st, k, params).out)
  {
    var c := st.clients[k];
    var reason := if |params| > 0 then " :" + params[0] else "";
    NickHasNoSpace(st, k);
    FromUserNotWelcome(c.nickname, "QUIT :Quit" + reason);
  }

  /** QUIT sends one notice, carrying the optional reason, to every other
      client on the roster, whether or not it shares a channel; under
      `Valid` the quitting client itself is not told. */
  lemma QuitNotifiesOthers(st: Server, k: nat, params: seq<string>)
    requires Valid(st) && k < |st.clients|
    ensures var c := st.clients[k]; var r := HandleQuit(st, k, params);
      && |r.out| == 1
      && r.out[0].text == FromUser(c.nickname, "QUIT :Quit" + (if |params| > 0 then " :" + params[0] else ""))
      && (forall i :: 0 <= i < |st.clients| && i != k ==> st.clients[i].id in r.out[0].to)
      && c.id !in r.out[0].to
      && r.out[0].to <= set i | 0 <= i < |st.clients| :: st.clients[i].id
  {
    var r := HandleQuit(st, k, params);
    forall x | x in r.out[0].to
      ensures x != st.clients[k].id
    {
      var i :| 0 <= i < |st.clients| && i != k && st.clients[i].id == x;
    }
  }

  /** Reply 001 goes out on exactly the line that registers the client,
      never again and never otherwise. */
  lemma ProcessCommandWelcome(st: Server, k: nat, line: string)
    requires Valid(st) && k < |st.clients|
    ensures var r := ProcessCommand(st, k, line);
      SendsWelcome(r.out) <==> BecameRegistered(st, r.server, k)
  {
    if line != "" {
      var cmd := ParseCommand(line);
      var c := st.clients[k];
      if cmd.name == "NICK" { NickWelcome(st, k, cmd.params); }
      else if cmd.name == "USER" { UserWelcome(st, k, cmd.params); }
      else if cmd.name == "PING" { PingNoWelcome(st, k, cmd.params); }
      else if cmd.name == "JOIN" { JoinNoWelcome(st, k, cmd.params); }
      else if cmd.name == "PRIVMSG" { PrivmsgNoWelcome(st, k, cmd.params); }
      else if cmd.name == "PART" { PartNoWelcome(st, k, cmd.params); }
      else if cmd.name == "QUIT" { QuitNoWelcome(st, k, cmd.params); }
      else if cmd.name == "NOTICE" { NoticeNoWelcome(st, k, cmd.params); }
      else { NumericNotWelcome("421", c.nickname + " " + cmd.name + " :Unknown command"); }
    }
  }

  // ---------------------------------------------------------------------
  // PRIVMSG and NOTICE

  /** When a message can be delivered, stated without the handler: enough
      parameters, non-empty text, and an existing target that, for a
      channel, the sender has joined. */
  predicate Deliverable(st: Server, k: nat, params: seq<string>)
    requires k < |st.clients|
  {
    && |params| >= 2
    && params[1] != ""
    && (if IsChannelName(params[0])
        then params[0] in st.channels && st.clients[k].id in st.channels[params[0]]
        else exists j :: 0 <= j < |st.clients| && st.clients[j].nickname == params[0])
  }

  /** The relayed text names the sender, the verb, the target and the
      message as the trailing parameter. */
  lemma DeliveredText(st: Server, k: nat, verb: string, params: seq<string>)
    requires k < |st.clients|
    ensures var r := RouteMessage(st, k, verb, params);
      r.Deliver? <==> Deliverable(st, k, params)
    ensures var r := RouteMessage(st, k, verb, params);
      r.Deliver? ==> r.send.text == FromUser(st.clients[k].nickname, verb + " " + params[0] + " :" + params[1])
  {
  }

  /** PRIVMSG checks in order: 461, 412, 401, 442. A failed check answers
      only the sender and delivers nothing; the state never changes. */
  lemma PrivmsgErrors(st: Server, k: nat, params: seq<string>)
    requires k < |st.clients|
    ensures var r := HandlePrivmsg(st, k, params); var id := st.clients[k].id;
      && r.server == st
      && (|params| < 2 ==> IsErrorReply(r.out, id, "461"))
      && (|params| >= 2 && params[1] == "" ==> IsErrorReply(r.out, id, "412"))
      && (|params| >= 2 && params[1] != "" && IsChannelName(params[0]) && params[0] !in st.channels ==>
            IsErrorReply(r.out, id, "401"))
      && (|params| >= 2 && params[1] != "" && !IsChannelName(params[0])
          && (forall j :: 0 <= j < |st.clients| ==> st.clients[j].nickname != params[0]) ==>
            IsErrorReply(r.out, id, "401"))
      && (|params| >= 2 && params[1] != "" && IsChannelName(params[0]) && params[0] in st.channels
          && id !in st.channels[params[0]]
          ==> IsErrorReply(r.out, id, "442"))
  {
    var c := st.clients[k];
    var target := if |params| > 0 then params[0] else "";
    RouteErrors(st, k, "PRIVMSG", params);
    match RouteMessage(st, k, "PRIVMSG", params)
    case Deliver(_) =>
    case TooFewParams => ErrorReplyOf(c.id, "461", c.nickname + " PRIVMSG :Not enough parameters");
    case NoText => ErrorReplyOf(c.id, "412", c.nickname + " :No text to send");
    case NoSuchTarget => ErrorReplyOf(c.id, "401", c.nickname + " " + target + " :No such nick/channel");
    case NotOnChannel => ErrorReplyOf(c.id, "442", c.nickname + " " + target + " :You're not on that channel");
  }

  /** Which check of PRIVMSG and NOTICE fails, in their order. */
  lemma RouteErrors(st: Server, k: nat, verb: string, params: seq<string>)
    requires k < |st.clients|
    ensures var r := RouteMessage(st, k, verb, params); var id := st.clients[k].id;
      && (|params| < 2 ==> r == TooFewParams)
      && (|params| >= 2 && params[1] == "" ==> r == NoText)
      && (|params| >= 2 && params[1] != "" && IsChannelName(params[0]) && params[0] !in st.channels ==>
            r == NoSuchTarget)
      && (|params| >= 2 && params[1] != "" && !IsChannelName(params[0])
          && (forall j :: 0 <= j < |st.clients| ==> st.clients[j].nickname != params[0]) ==>
            r == NoSuchTarget)
      && (|params| >= 2 && params[1] != "" && IsChannelName(params[0]) && params[0] in st.channels
          && id !in st.channels[params[0]]
          ==> r == NotOnChannel)
  {
  }

  /** A deliverable channel message reaches every member but the sender,
      and nobody else. */
  lemma ChannelMessageRecipients(st: Server, k: nat, params: seq<string>)
    requires k < |st.clients|
    requires Deliverable(st, k, params) && IsChannelName(params[0])
    ensures var c := st.clients[k];
      HandlePrivmsg(st, k, params).out
        == [Send(st.channels[params[0]] - {c.id}, FromUser(c.nickname, "PRIVMSG " + params[0] + " :" + params[1]))]
  {
    var c := st.clients[k];
    var text := FromUser(c.nickname, "PRIVMSG " + params[0] + " :" + params[1]);
    var members := st.channels[params[0]];
    assert Recipients(members, Some(c.id)) == members - {c.id};
    assert RouteMessage(st, k, "PRIVMSG", params) == Deliver(Broadcast(members, text, Some(c.id)));
  }

  /** A deliverable private message goes to the first client holding the
      target nickname, and only to it. */
  lemma PrivateMessageRecipient(st: Server, k: nat, params: seq<string>, j: nat)
    requires k < |st.clients| && j < |st.clients|
    requires Deliverable(st, k, params) && !IsChannelName(params[0])
    requires st.clients[j].nickname == params[0]
    requires forall i :: 0 <= i < j ==> st.clients[i].nickname != params[0]
    ensures var c := st.clients[k];
      HandlePrivmsg(st, k, params).out
        == [Send({st.clients[j].id}, FromUser(c.nickname, "PRIVMSG " + params[0] + " :" + params[1]))]
  {
    var f := FindByNick(st.clients, params[0]);
    assert f.Some?;
    assert f.value == j;
    var c := st.clients[k];
    var text := FromUser(c.nickname, "PRIVMSG " + params[0] + " :" + params[1]);
    assert RouteMessage(st, k, "PRIVMSG", params) == Deliver(ToClient(st.clients[j].id, text));
  }

  /** With unique nicknames the recipient is simply the holder of the
      nickname. */
  lemma PrivateMessageToHolder(st: Server, k: nat, params: seq<string>, j: nat)
    requires Valid(st) && k < |st.clients| && j < |st.clients|
    requires Deliverable(st, k, params) && !IsChannelName(params[0])
    requires params[0] != "" && st.clients[j].nickname == params[0]
    ensures HandlePrivmsg(st, k, params).out[0].to == {st.clients[j].id}
  {
    forall i | 0 <= i < j
      ensures st.clients[i].nickname != params[0]
    {
      assert st.clients[j].nickname != "";
    }
    PrivateMessageToHolder'(st, k, params, j);
  }

  lemma PrivateMessageToHolder'(st: Server, k: nat, params: seq<string>, j: nat)
    requires k < |st.clients| && j < |st.clients|
    requires Deliverable(st, k, params) && !IsChannelName(params[0])
    requires st.clients[j].nickname == params[0]
    requires forall i :: 0 <= i < j ==> st.clients[i].nickname != params[0]
    ensures HandlePrivmsg(st, k, params).out[0].to == {st.clients[j].id}
  {
    PrivateMessageRecipient(st, k, params, j);
  }

  /** NOTICE delivers under exactly the conditions of PRIVMSG, to the same
      recipients, and otherwise sends nothing at all. */
  lemma NoticeLikePrivmsg(st: Server, k: nat, params: seq<string>)
    requires k < |st.clients|
    ensures var n := HandleNotice(st, k, params);
      && n.server == st
      && (Deliverable(st, k, params) <==> |n.out| == 1)
      && (!Deliverable(st, k, params) ==> n.out == [])
      && (Deliverable(st, k, params) ==> n.out[0].to == HandlePrivmsg(st, k, params).out[0].to)
  {
    DeliveredText(st, k, "NOTICE", params);
    DeliveredText(st, k, "PRIVMSG", params);
  }

  // ---------------------------------------------------------------------
  // PING

  /** PING without an origin answers 409; otherwise the origin is echoed
      back to the sender alone in a PONG. The state never changes. */
  lemma PingReplies(st: Server, k: nat, params: seq<string>)
    requires k < |st.clients|
    ensures var r := HandlePing(st, k, params); var c := st.clients[k];
      && r.server == st
      && (|params| == 0 ==> IsErrorReply(r.out, c.id, "409"))
      && (|params| > 0 ==> r.out == [Send({c.id}, FromUser(c.nickname, "PONG miniircd :" + params[0]))])
  {
    var c := st.clients[k];
    ErrorReplyOf(c.id, "409", c.nickname + " :No origin specified");
  }

  // ---------------------------------------------------------------------
  // JOIN

  /** JOIN without a parameter answers 461, JOIN of a name not starting
      with `#` answers 476; neither changes the state. */
  lemma JoinErrors(st: Server, k: nat, params: seq<string>)
    requires k < |st.clients|
    ensures var r := HandleJoin(st, k, params); var id := st.clients[k].id;
      && (|params| == 0 ==> r.server == st && IsErrorReply(r.out, id, "461"))
      && (|params| > 0 && !IsChannelName(params[0]) ==> r.server == st && IsErrorReply(r.out, id, "476"))
  {
    var c := st.clients[k];
    if |params| == 0 {
      ErrorReplyOf(st.clients[k].id, "461", c.nickname + " JOIN :Not enough parameters");
    } else {
      ErrorReplyOf(st.clients[k].id, "476", c.nickname + " " + params[0] + " :Invalid channel name");
    }
  }

  /** Joining a channel one is already on does nothing and says nothing. */
  lemma JoinAgain(st: Server, k: nat, params: seq<string>)
    requires k < |st.clients|
    requires |params| > 0 && IsChannelName(params[0])
    requires params[0] in st.channels && st.clients[k].id in st.channels[params[0]]
    ensures HandleJoin(st, k, params) == Step(st, [])
  {
  }

  /** A successful JOIN adds the client to the channel (creating it if
      needed), leaves every other channel alone, and announces the join to
      all members, the joiner included. */
  lemma JoinSuccess(st: Server, k: nat, params: seq<string>)
    requires k < |st.clients|
    requires |params| > 0 && IsChannelName(params[0])
    requires !(params[0] in st.channels && st.clients[k].id in st.channels[params[0]])
    ensures var r := HandleJoin(st, k, params); var name := params[0]; var id := st.clients[k].id;
      && name in r.server.channels
      && r.server.channels[name] == (if name in st.channels then st.channels[name] else {}) + {id}
      && (forall n :: n != name ==> (n in r.server.channels <==> n in st.channels))
      && (forall n :: n != name && n in st.channels ==> r.server.channels[n] == st.channels[n])
      && |r.out| == 4
      && r.out[0] == Send(r.server.channels[name], FromUser(st.clients[k].nickname, "JOIN :" + name))
      && (forall i :: 1 <= i < 4 ==> r.out[i].to == {id})
    ensures var r := HandleJoin(st, k, params); var name := params[0]; var nick := st.clients[k].nickname;
      && r.out[1].text == Numeric("332", nick + " " + name + " :No topic is set")
      && r.out[2].text == Numeric("353", nick + " = " + name + " :" + NamesList(st.clients, r.server.channels[name]))
      && r.out[3].text == Numeric("366", nick + " " + name + " :End of /NAMES list.")
  {
  }

  /** The 353 reply of a successful JOIN names every roster client that is
      in the channel afterwards, the joiner included. */
  lemma JoinNamesEveryMember(st: Server, k: nat, params: seq<string>, i: nat)
    requires k < |st.clients|
    requires |params| > 0 && IsChannelName(params[0])
    requires !(params[0] in st.channels && st.clients[k].id in st.channels[params[0]])
    requires i < |st.clients|
    requires st.clients[i].id in (if params[0] in st.channels then st.channels[params[0]] else {}) + {st.clients[k].id}
    ensures Contains(HandleJoin(st, k, params).out[2].text, st.clients[i].nickname + " ")
  {
    var name := params[0];
    JoinSuccess(st, k, params);
    var members := HandleJoin(st, k, params).server.channels[name];
    var list := NamesList(st.clients, members);
    var head := ":miniircd 353 " + st.clients[k].nickname + " = " + name + " :";
    assert HandleJoin(st, k, params).out[2].text == head + list + "\r\n";
    NamesListed'(st.clients, members, i);
    OccursInside(head, list, "\r\n", st.clients[i].nickname + " ");
  }

  /** A text found in the middle part is found in the whole. */
  lemma OccursInside(head: string, mid: string, tail: string, w: string)
    requires Occurs(mid, w)
    ensures Contains(head + mid + tail, w)
  {
    var p: nat :| OccursAt(mid, w, p);
    assert (head + mid + tail)[|head| + p .. |head| + p + |w|] == mid[p .. p + |w|];
    assert OccursAt(head + mid + tail, w, |head| + p);
    ContainsIffOccurs(head + mid + tail, w);
  }

  /** The 353 reply lists the nickname of every member, the joiner
      included. */
  lemma NamesListed(cs: seq<Client>, members: Members, i: nat)
    requires i < |cs| && cs[i].id in members
    ensures Contains(NamesList(cs, members), cs[i].nickname + " ")
  {
    NamesListed'(cs, members, i);
    ContainsIffOccurs(NamesList(cs, members), cs[i].nickname + " ");
  }

  lemma {:induction false} NamesListed'(cs: seq<Client>, members: Members, i: nat)
    requires i < |cs| && cs[i].id in members
    ensures Occurs(NamesList(cs, members), cs[i].nickname + " ")
    decreases i
  {
    var w := cs[i].nickname + " ";
    var head := if cs[0].id in members then cs[0].nickname + " " else "";
    var tail := NamesList(cs[1..], members);
    assert NamesList(cs, members) == head + tail;
    if i == 0 {
      assert OccursAt(head + tail, w, 0);
    } else {
      NamesListed'(cs[1..], members, i - 1);
      var p: nat :| OccursAt(tail, w, p);
      assert (head + tail)[|head| + p .. |head| + p + |w|] == tail[p .. p + |w|];
      assert OccursAt(head + tail, w, |head| + p);
    }
  }

  // ---------------------------------------------------------------------
  // PART

  /** PART without a parameter answers 461, of an unknown channel 403, by
      a non-member 442; none changes the state. */
  lemma PartErrors(st: Server, k: nat, params: seq<string>)
    requires k < |st.clients|
    ensures var r := HandlePart(st, k, params); var id := st.clients[k].id;
      && (|params| == 0 ==> r.server == st && IsErrorReply(r.out, id, "461"))
      && (|params| > 0 && params[0] !in st.channels ==> r.server == st && IsErrorReply(r.out, id, "403"))
      && (|params| > 0 && params[0] in st.channels && id !in st.channels[params[0]] ==>
            r.server == st && IsErrorReply(r.out, id, "442"))
  {
    var c := st.clients[k];
    if |params| == 0 {
      ErrorReplyOf(st.clients[k].id, "461", c.nickname + " PART :Not enough parameters");
    } else {
      var name := params[0];
      ErrorReplyOf(st.clients[k].id, "403", c.nickname + " " + name + " :No such channel");
      ErrorReplyOf(st.clients[k].id, "442", c.nickname + " " + name + " :You're not on that channel");
    }
  }

  /** A member's PART removes it; the channel disappears exactly when it
      was the last member; the remaining members, and not the leaver, are
      told; other channels are untouched. */
  lemma PartSuccess(st: Server, k: nat, params: seq<string>)
    requires k < |st.clients|
    requires |params| > 0 && params[0] in st.channels && st.clients[k].id in st.channels[params[0]]
    ensures var r := HandlePart(st, k, params); var name := params[0]; var id := st.clients[k].id;
      && (name !in r.server.channels <==> st.channels[name] == {id})
      && (name in r.server.channels ==> r.server.channels[name] == st.channels[name] - {id})
      && (forall n :: n != name ==> (n in r.server.channels <==> n in st.channels))
      && (forall n :: n != name && n in st.channels ==> r.server.channels[n] == st.channels[n])
      && r.out == [Send(st.channels[name] - {id}, FromUser(st.clients[k].nickname, "PART " + name))]
      && id !in r.out[0].to
  {
    var name := params[0];
    var id := st.clients[k].id;
    if st.channels[name] - {id} == {} {
      assert st.channels[name] == {id};
    }
  }

  // ---------------------------------------------------------------------
  // Dispatch

  /** The command words `processCommand` knows. */
  const KnownCommands := {"NICK", "USER", "PING", "JOIN", "PRIVMSG", "PART", "QUIT", "NOTICE"}

  /** An unknown command word (case matters) answers 421 and changes
      nothing. */
  lemma UnknownCommand(st: Server, k: nat, cmd: Command)
    requires k < |st.clients|
    requires cmd.name !in KnownCommands
    ensures var r := Dispatch(st, k, cmd);
      r.server == st && IsErrorReply(r.out, st.clients[k].id, "421")
  {
    var c := st.clients[k];
    ErrorReplyOf(st.clients[k].id, "421", c.nickname + " " + cmd.name + " :Unknown command");
  }

  /** An empty line is ignored. */
  lemma EmptyLineIgnored(st: Server, k: nat)
    requires k < |st.clients|
    ensures ProcessCommand(st, k, "") == Step(st, [])
  {
  }
}

=== FILE: server_receive.dfy ===
/** The receive path of `handleClientMessages` (server/IRCServer.cpp
    lines 157-217) for one readable client: the chunk is cut on CRLF, each
    complete piece goes to `processCommand` until the client asks to
    quit, and a disconnecting client is removed from every channel and
    from the roster. */
module ServerReceive {
  import opened Base
  import opened Text
  import opened Channel
  import opened IrcServer

  const Crlf := "\r\n"

  /** `std::string data(buffer)`: the text stops at the first NUL byte. */
  function CString(chunk: string): (r: string)
    ensures '\0' !in r
    ensures StartsWith(chunk, r)
    ensures |r| < |chunk| ==> chunk[|r|] == '\0'
  {
    match FindChar(chunk, '\0')
    case None => chunk
    case Some(i) => chunk[..i]
  }

  /** Lines each followed by CRLF. */
  function JoinCrlf(lines: seq<string>): string
  {
    if |lines| == 0 then "" else lines[0] + Crlf + JoinCrlf(lines[1..])
  }

  /** A CRLF delimiter starts at index `i` of `s`. */
  predicate CrlfAt(s: string, i: nat)
  {
    i + 1 < |s| && s[i] == '\r' && s[i + 1] == '\n'
  }

  ghost predicate HasCrlf(s: string)
  {
    exists i: nat :: CrlfAt(s, i)
  }

  /** `data.find("\r\n")`, searching from index `from`. */
  function FindCrlf(s: string, from: nat): (r: Option<nat>)
    ensures r.Some? ==> from <= r.value && CrlfAt(s, r.value)
    ensures r.Some? ==> forall j: nat :: from <= j < r.value ==> !CrlfAt(s, j)
    ensures r.None? <==> forall j: nat :: from <= j ==> !CrlfAt(s, j)
    decreases |s| - from
  {
    if from + 1 >= |s| then
      assert forall j: nat :: from <= j ==> !CrlfAt(s, j);
      None
    else if s[from] == '\r' && s[from + 1] == '\n' then
      assert CrlfAt(s, from);
      Some(from)
    else FindCrlf(s, from + 1)
  }

  /** The outcome of cutting a chunk: complete pieces and the remainder. */
  datatype Pieces = Pieces(lines: seq<string>, tail: string)

  lemma Reassemble(data: string, p: nat, lines: seq<string>, tail: string)
    requires CrlfAt(data, p)
    requires data[p + 2..] == JoinCrlf(lines) + tail
    ensures data == JoinCrlf([data[..p]] + lines) + tail
  {
    var all := [data[..p]] + lines;
    assert all[1..] == lines;
    assert data == data[..p] + Crlf + data[p + 2..];
  }

  /** The `find`/`substr`/`erase` loop as a function: the pieces before
      each CRLF, in order and without the delimiter, and the text after the
      last CRLF. */
  function SplitCrlf(data: string): (r: Pieces)
    ensures data == JoinCrlf(r.lines) + r.tail
    ensures forall i :: 0 <= i < |r.lines| ==> !HasCrlf(r.lines[i])
    ensures !HasCrlf(r.tail)
    decreases |data|
  {
    match FindCrlf(data, 0)
    case None => Pieces([], data)
    case Some(p) =>
      var rest := SplitCrlf(data[p + 2..]);
      var line := data[..p];
      assert forall j: nat :: CrlfAt(line, j) ==> CrlfAt(data, j);
      Reassemble(data, p, rest.lines, rest.tail);
      Pieces([line] + rest.lines, rest.tail)
  }

  /** The first CRLF of `line + CRLF + rest` ends `line` when `line` has
      none of its own. */
  lemma FirstCrlfAfterLine(line: string, rest: string)
    requires !HasCrlf(line)
    ensures var t := line + Crlf + rest;
      && FindCrlf(t, 0) == Some(|line|)
      && t[..|line|] == line
      && t[|line| + 2..] == rest
  {
    var t := line + Crlf + rest;
    assert CrlfAt(t, |line|);
    forall j: nat | j < |line|
      ensures !CrlfAt(t, j)
    {
      if j + 1 < |line| {
        assert !CrlfAt(line, j);
      }
    }
    assert t[..|line|] == line;
    assert t[|line| + 2..] == rest;
  }

  /** Splitting undoes joining: the pieces and the unterminated tail come
      back exactly. */
  lemma {:induction false} SplitJoinRoundTrip(lines: seq<string>, tail: string)
    requires forall i :: 0 <= i < |lines| ==> !HasCrlf(lines[i])
    requires !HasCrlf(tail)
    ensures SplitCrlf(JoinCrlf(lines) + tail) == Pieces(lines, tail)
    decreases |lines|
  {
    if |lines| > 0 {
      var rest := JoinCrlf(lines[1..]) + tail;
      assert JoinCrlf(lines) + tail == lines[0] + Crlf + rest;
      var t := lines[0] + Crlf + rest;
      FirstCrlfAfterLine(lines[0], rest);
      SplitJoinRoundTrip(lines[1..], tail);
      assert SplitCrlf(t) == Pieces([t[..|lines[0]|]] + SplitCrlf(t[|lines[0]| + 2..]).lines, SplitCrlf(t[|lines[0]| + 2..]).tail);
      assert lines == [lines[0]] + lines[1..];
    } else {
      assert JoinCrlf(lines) + tail == tail;
    }
  }

  /** Run `b` after `a`: `b`'s state, both outputs in order. */
  function Then(a: Step, b: Step): Step
  {
    Step(b.server, a.out + b.out)
  }

  /** The per-piece step of the loop for the client at index `k`. */
  function LineStep(k: nat): (Server, string) -> Step
  {
    (s: Server, line: string) => if k < |s.clients| then ProcessCommand(s, k, line) else Step(s, [])
  }

  /** The loop's exit test after each piece: the client is disconnecting. */
  function Ended(k: nat): Server -> bool
  {
    (s: Server) => k < |s.clients| && s.clients[k].disconnecting
  }

  /** Apply `step` to each line in order, stopping right after the first
      line that leaves the state `ended`. */
  function RunLines(step: (Server, string) -> Step, ended: Server -> bool, st: Server, lines: seq<string>): Step
    decreases |lines|
  {
    if |lines| == 0 then Step(st, [])
    else
      var first := step(st, lines[0]);
      if ended(first.server) then first
      else Then(first, RunLines(step, ended, first.server, lines[1..]))
  }

  /** The roster shape is what the per-piece steps keep. */
  lemma {:induction false} RunLinesKeepsRoster(st: Server, k: nat, lines: seq<string>)
    requires k < |st.clients|
    ensures var r := RunLines(LineStep(k), Ended(k), st, lines);
      && |r.server.clients| == |st.clients|
      && r.server.clients[k].id == st.clients[k].id
      && forall i :: 0 <= i < |st.clients| && i != k ==> r.server.clients[i] == st.clients[i]
    decreases |lines|
  {
    if |lines| > 0 {
      var first := ProcessCommand(st, k, lines[0]);
      assert LineStep(k)(st, lines[0]) == first;
      if !Ended(k)(first.server) {
        RunLinesKeepsRoster(first.server, k, lines[1..]);
      }
    }
  }

  /** `processCommand` on each piece in order, stopping right after the
      piece that marks the client as disconnecting. */
  function ProcessLines(st: Server, k: nat, lines: seq<string>): (r: Step)
    requires k < |st.clients|
    ensures |r.server.clients| == |st.clients|
    ensures r.server.clients[k].id == st.clients[k].id
    ensures forall i :: 0 <= i < |st.clients| && i != k ==> r.server.clients[i] == st.clients[i]
  {
    RunLinesKeepsRoster(st, k, lines);
    RunLines(LineStep(k), Ended(k), st, lines)
  }

  /** The chunk handling of lines 172-187: the complete pieces are
      processed, the text after the last CRLF is dropped. */
  function ReceiveChunk(st: Server, k: nat, data: string): (r: Step)
    requires k < |st.clients|
    ensures |r.server.clients| == |st.clients|
    ensures r.server.clients[k].id == st.clients[k].id
    ensures forall i :: 0 <= i < |st.clients| && i != k ==> r.server.clients[i] == st.clients[i]
  {
    ProcessLines(st, k, SplitCrlf(data).lines)
  }

  /** One unfolding of `RunLines`, after output `acc` already produced. */
  lemma RunLinesCons(step: (Server, string) -> Step, ended: Server -> bool, acc: Step,
                     line: string, rest: seq<string>)
    ensures var first := step(acc.server, line);
      var acc' := Step(first.server, acc.out + first.out);
      Then(acc, RunLines(step, ended, acc.server, [line] + rest))
        == if ended(first.server) then acc'
           else Then(acc', RunLines(step, ended, first.server, rest))
  {
    var first := step(acc.server, line);
    assert ([line] + rest)[0] == line && ([line] + rest)[1..] == rest;
    var tail := RunLines(step, ended, first.server, rest);
    assert acc.out + (first.out + tail.out) == (acc.out + first.out) + tail.out;
  }

  /** No pieces: nothing more happens. */
  lemma RunLinesNil(step: (Server, string) -> Step, ended: Server -> bool, acc: Step)
    ensures Then(acc, RunLines(step, ended, acc.server, [])) == acc
  {
    assert acc.out + [] == acc.out;
  }

  /** The `while ((pos = data.find(delimiter)) != npos)` loop itself, which
      computes what `ReceiveChunk` describes. */
  method ReceiveLoop(st: Server, k: nat, data: string) returns (r: Step)
    requires k < |st.clients|
    ensures r == ReceiveChunk(st, k, data)
  {
    var step := LineStep(k);
    var ended := Ended(k);
    var rest := data;
    var acc := Step(st, []);
    while true
      invariant ReceiveChunk(st, k, data) == Then(acc, RunLines(step, ended, acc.server, SplitCrlf(rest).lines))
      decreases |rest|
    {
      var pos := FindCrlf(rest, 0);
      if pos.None? {
        RunLinesNil(step, ended, acc);
        break;
      }
      var line := rest[..pos.value];
      rest := rest[pos.value + 2..];
      RunLinesCons(step, ended, acc, line, SplitCrlf(rest).lines);
      var first := step(acc.server, line);
      acc := Step(first.server, acc.out + first.out);
      if ended(acc.server) {
        break;
      }
    }
    r := acc;
  }

  /** The PART notice of the cleanup loop for each of `names`. */
  function PartNotices(channels: map<string, Members>, names: seq<string>, id: ClientId, nick: string): (out: seq<Send>)
    requires forall i :: 0 <= i < |names| ==> names[i] in channels
    ensures |out| == |names|
    ensures forall i :: 0 <= i < |names| ==>
      out[i] == Send(channels[names[i]] - {id}, FromUser(nick, "PART " + names[i]))
  {
    if |names| == 0 then []
    else
      [Broadcast(RemoveClient(channels[names[0]], id), FromUser(nick, "PART " + names[0]), Some(id))]
        + PartNotices(channels, names[1..], id, nick)
  }

  /** The roster without the client at index `k`. */
  function RemoveAt(cs: seq<Client>, k: nat): (r: seq<Client>)
    requires k < |cs|
    ensures |r| == |cs| - 1
    ensures forall i :: 0 <= i < k ==> r[i] == cs[i]
    ensures forall i :: k <= i < |r| ==> r[i] == cs[i + 1]
  {
    cs[..k] + cs[k + 1..]
  }

  /** Lines 191-213: the client leaves every channel, in the map's key
      order. Every channel gets a PART notice, including channels the client
      never joined; channels left empty are deleted; then the client is
      dropped from the roster. */
  function Cleanup(st: Server, k: nat): (r: Step)
    requires k < |st.clients|
    ensures r.server.clients == RemoveAt(st.clients, k)
    ensures var id := st.clients[k].id;
      forall n :: n in r.server.channels <==> n in st.channels && st.channels[n] - {id} != {}
    ensures var id := st.clients[k].id;
      forall n :: n in r.server.channels ==> r.server.channels[n] == st.channels[n] - {id}
    ensures |r.out| == |st.channels|
    ensures forall i :: 0 <= i < |r.out| ==>
      r.out[i].text == FromUser(st.clients[k].nickname, "PART " + SortedKeys(st.channels)[i])
  {
    var c := st.clients[k];
    var names := SortedKeys(st.channels);
    Step(Server(RemoveAt(st.clients, k), LeaveAll(st.channels, c.id)),
         PartNotices(st.channels, names, c.id, c.nickname))
  }

  /** The channels after `id` left every one of them: those it would
      leave empty are gone. */
  function LeaveAll(channels: map<string, Members>, id: ClientId): (r: map<string, Members>)
    ensures forall n :: n in r <==> n in channels && channels[n] - {id} != {}
    ensures forall n :: n in r ==> r[n] == channels[n] - {id}
  {
    map n | n in channels && RemoveClient(channels[n], id) != {} :: RemoveClient(channels[n], id)
  }

  /** The quirk of lines 193-199: every channel, joined or not, gets a PART
      notice for the leaving client, addressed to its other members. */
  lemma CleanupPartsEveryChannel(st: Server, k: nat, name: string)
    requires k < |st.clients|
    requires name in st.channels
    ensures var c := st.clients[k];
      Send(st.channels[name] - {c.id}, FromUser(c.nickname, "PART " + name)) in Cleanup(st, k).out
  {
    var names := SortedKeys(st.channels);
    var i :| 0 <= i < |names| && names[i] == name;
    assert Cleanup(st, k).out[i] == Send(st.channels[name] - {st.clients[k].id}, FromUser(st.clients[k].nickname, "PART " + name));
  }

  /** One readable client in one pass of `handleClientMessages`: `chunk` is
      `None` when `recv` reported end of stream or an error. */
  function ServeClient(st: Server, k: nat, chunk: Option<string>): (r: Step)
    requires k < |st.clients|
    ensures |r.server.clients| == |st.clients| || |r.server.clients| == |st.clients| - 1
    ensures Served(st.clients, k, r.server.clients)
    ensures chunk.None? ==> r.server.clients == RemoveAt(st.clients, k)
  {
    var read :=
      match chunk
      case None => Step(SetClient(st, k, st.clients[k].(disconnecting := true)), [])
      case Some(bytes) => ReceiveChunk(st, k, CString(bytes));
    if read.server.clients[k].disconnecting then
      RemoveAtIgnoresRemoved(st.clients, read.server.clients, k);
      Then(read, Cleanup(read.server, k))
    else read
  }

  /** What serving the client at index `k` may do to the roster: erase
      exactly that client, or keep every client where it was, the one at
      `k` with its identity and no longer disconnecting. */
  predicate Served(before: seq<Client>, k: nat, after: seq<Client>)
    requires k < |before|
  {
    || after == RemoveAt(before, k)
    || (&& |after| == |before|
        && after[k].id == before[k].id
        && !after[k].disconnecting
        && forall i :: 0 <= i < |before| && i != k ==> after[i] == before[i])
  }

  /** Erasing index `k` does not look at the client stored there. */
  lemma RemoveAtIgnoresRemoved(a: seq<Client>, b: seq<Client>, k: nat)
    requires k < |a| == |b|
    requires forall i :: 0 <= i < |a| && i != k ==> a[i] == b[i]
    ensures RemoveAt(a, k) == RemoveAt(b, k)
  {
    var ra, rb := RemoveAt(a, k), RemoveAt(b, k);
    forall i | 0 <= i < |ra|
      ensures ra[i] == rb[i]
    {
      if i < k { assert ra[i] == a[i]; } else { assert ra[i] == a[i + 1]; }
    }
  }

  /** What `select` reported for one client in a pass. */
  datatype Input = Quiet | Readable(chunk: Option<string>)

  /** The iterator loop of `handleClientMessages` from index `k` on: a
      readable client is served, a quiet one is only removed if it is
      already disconnecting. Erasing a client leaves the iterator on the
      next one, which now has index `k`. */
  function ServePass(st: Server, k: nat, input: ClientId -> Input): (r: Step)
    requires k <= |st.clients|
    ensures k <= |r.server.clients| <= |st.clients|
    ensures r.server.clients[..k] == st.clients[..k]
    ensures forall i :: k <= i < |r.server.clients| ==> !r.server.clients[i].disconnecting
    decreases |st.clients| - k
  {
    if k == |st.clients| then Step(st, [])
    else
      var served := ServeOne(st, k, input(st.clients[k].id));
      if |served.server.clients| < |st.clients| then Then(served, ServePass(served.server, k, input))
      else Then(served, ServePass(served.server, k + 1, input))
  }

  /** The body of that loop for the client at index `k`. */
  function ServeOne(st: Server, k: nat, event: Input): (r: Step)
    requires k < |st.clients|
    ensures |r.server.clients| == |st.clients| || |r.server.clients| == |st.clients| - 1
    ensures Served(st.clients, k, r.server.clients)
  {
    match event
    case Readable(chunk) => ServeClient(st, k, chunk)
    case Quiet => if st.clients[k].disconnecting then Cleanup(st, k) else Step(st, [])
  }

  /** One turn of the `start` loop (lines 31-42): at most one new
      connection is accepted, then every client is served once. */
  function Round(st: Server, incoming: Option<(ClientId, string)>, input: ClientId -> Input): (r: Step)
    ensures |r.server.clients| <= |st.clients| + 1
    ensures forall i :: 0 <= i < |r.server.clients| ==> !r.server.clients[i].disconnecting
  {
    var accepted := if incoming.Some? then Accept(st, incoming.value.0, incoming.value.1) else Step(st, []);
    Then(accepted, ServePass(accepted.server, 0, input))
  }

  // ---------------------------------------------------------------------
  // Properties of the receive path

  /** Text after the last CRLF is neither processed nor kept. */
  lemma TailNeverProcessed(st: Server, k: nat, lines: seq<string>, tail: string)
    requires k < |st.clients|
    requires forall i :: 0 <= i < |lines| ==> !HasCrlf(lines[i])
    requires !HasCrlf(tail)
    ensures ReceiveChunk(st, k, JoinCrlf(lines) + tail) == ProcessLines(st, k, lines)
  {
    SplitJoinRoundTrip(lines, tail);
  }

  /** Once a piece has ended the session, later pieces change nothing. */
  lemma {:induction false} RunStopsWhenEnded(step: (Server, string) -> Step, ended: Server -> bool,
                                             st: Server, lines: seq<string>, more: seq<string>)
    requires !ended(st)
    requires ended(RunLines(step, ended, st, lines).server)
    ensures RunLines(step, ended, st, lines + more) == RunLines(step, ended, st, lines)
    decreases |lines|
  {
    assert |lines| > 0;
    assert (lines + more)[0] == lines[0];
    var first := step(st, lines[0]);
    if !ended(first.server) {
      assert (lines + more)[1..] == lines[1..] + more;
      RunStopsWhenEnded(step, ended, first.server, lines[1..], more);
    }
  }

  /** Running `a + b` is running `a`, then `b` from where `a` left off. */
  lemma {:induction false} RunInOrder(step: (Server, string) -> Step, ended: Server -> bool,
                                      st: Server, a: seq<string>, b: seq<string>)
    requires !ended(RunLines(step, ended, st, a).server)
    ensures var ra := RunLines(step, ended, st, a);
      RunLines(step, ended, st, a + b) == Then(ra, RunLines(step, ended, ra.server, b))
    decreases |a|
  {
    if |a| == 0 {
      assert a + b == b;
    } else {
      assert (a + b)[0] == a[0];
      assert (a + b)[1..] == a[1..] + b;
      var first := step(st, a[0]);
      RunInOrder(step, ended, first.server, a[1..], b);
      var rest := RunLines(step, ended, first.server, a[1..]);
      var rb := RunLines(step, ended, rest.server, b);
      assert first.out + (rest.out + rb.out) == (first.out + rest.out) + rb.out;
    }
  }

  /** Once a piece has set `disconnecting`, later pieces change nothing. */
  lemma StopsAfterDisconnect(st: Server, k: nat, lines: seq<string>, more: seq<string>)
    requires k < |st.clients|
    requires !st.clients[k].disconnecting
    requires ProcessLines(st, k, lines).server.clients[k].disconnecting
    ensures ProcessLines(st, k, lines + more) == ProcessLines(st, k, lines)
  {
    RunStopsWhenEnded(LineStep(k), Ended(k), st, lines, more);
  }

  /** A single piece is one call of `processCommand`. */
  lemma OneLine(st: Server, k: nat, line: string)
    requires k < |st.clients|
    ensures ProcessLines(st, k, [line]) == ProcessCommand(st, k, line)
  {
    var first := ProcessCommand(st, k, line);
    assert LineStep(k)(st, line) == first;
    assert [line][0] == line && [line][1..] == [];
    var r := RunLines(LineStep(k), Ended(k), st, [line]);
    if !Ended(k)(first.server) {
      assert RunLines(LineStep(k), Ended(k), first.server, []) == Step(first.server, []);
      assert r == Step(first.server, first.out + []);
      assert first.out + [] == first.out;
    }
  }

  /** Pieces are handled in order: processing `a + b` is processing `a`
      and then `b` from the resulting state, when `a` did not end the
      session. */
  lemma ProcessInOrder(st: Server, k: nat, a: seq<string>, b: seq<string>)
    requires k < |st.clients|
    requires !ProcessLines(st, k, a).server.clients[k].disconnecting
    ensures var ra := ProcessLines(st, k, a);
      ProcessLines(st, k, a + b) == Then(ra, ProcessLines(ra.server, k, b))
  {
    RunInOrder(LineStep(k), Ended(k), st, a, b);
  }
}

=== FILE: text.dfy ===
/** Text helpers shared by the server and the bots: substring search,
    joining with a separator and byte-wise lexicographic order. */
module Text {
  import opened Base

  /** `sub` occurs in `s` starting at index `i`. */
  predicate OccursAt(s: string, sub: string, i: nat)
  {
    i + |sub| <= |s| && s[i..i + |sub|] == sub
  }

  /** `sub` occurs somewhere in `s` (Python's `sub in s`). */
  ghost predicate Occurs(s: string, sub: string)
  {
    exists i: nat :: OccursAt(s, sub, i)
  }

  predicate StartsWith(s: string, p: string)
  {
    |p| <= |s| && s[..|p|] == p
  }

  /** The line ends with CR LF. */
  predicate EndsInCrlf(line: string)
  {
    |line| >= 2 && line[|line| - 2..] == "\r\n"
  }

  lemma PrefixStarts(p: string, x: string)
    ensures StartsWith(p + x, p)
  {
    assert (p + x)[..|p|] == p;
  }

  /** A text that differs from `p` at some index inside both does not
      start with `p`. */
  lemma DiffersAt(t: string, p: string, j: nat)
    requires j < |p| && j < |t| && t[j] != p[j]
    ensures !StartsWith(t, p)
  {
    if |p| <= |t| {
      assert t[..|p|][j] == t[j];
    }
  }

  /** First index `>= from` at which `sub` occurs (C++ `find`). */
  function FindFrom(s: string, sub: string, from: nat): (r: Option<nat>)
    ensures r.Some? ==> from <= r.value && OccursAt(s, sub, r.value)
    ensures r.Some? ==> forall j: nat :: from <= j < r.value ==> !OccursAt(s, sub, j)
    ensures r.None? ==> forall j: nat :: from <= j ==> !OccursAt(s, sub, j)
    decreases |s| - from
  {
    if from + |sub| > |s| then None
    else if s[from..from + |sub|] == sub then Some(from)
    else FindFrom(s, sub, from + 1)
  }

  /** First occurrence of `sub` in `s`, or `None` (C++ `std::string::find`
      returning `npos`). */
  function Find(s: string, sub: string): (r: Option<nat>)
    ensures r.Some? ==> OccursAt(s, sub, r.value)
    ensures r.Some? ==> forall j: nat :: j < r.value ==> !OccursAt(s, sub, j)
    ensures r.None? <==> !Occurs(s, sub)
  {
    FindFrom(s, sub, 0)
  }

  /** Python's `sub in s`. */
  predicate Contains(s: string, sub: string)
  {
    Find(s, sub).Some?
  }

  lemma ContainsIffOccurs(s: string, sub: string)
    ensures Contains(s, sub) <==> Occurs(s, sub)
  {
  }

  /** First index of the character `c` in `s`. */
  function FindChar(s: string, c: char): (r: Option<nat>)
    ensures r.Some? ==> r.value < |s| && s[r.value] == c && c !in s[..r.value]
    ensures r.None? <==> c !in s
  {
    if |s| == 0 then None
    else if s[0] == c then Some(0)
    else match FindChar(s[1..], c)
      case None => None
      case Some(i) => assert s[1..][..i] == s[1..i + 1]; Some(i + 1)
  }

  /** `sep.join(xs)` in Python. */
  function Join(sep: string, xs: seq<string>): (r: string)
  {
    if |xs| == 0 then ""
    else if |xs| == 1 then xs[0]
    else xs[0] + sep + Join(sep, xs[1..])
  }

  /** Strict lexicographic order over character codes, the order in which
      `std::map<std::string, ...>` visits its keys. */
  predicate LexLess(a: string, b: string)
    decreases |a|
  {
    if |a| == 0 then |b| > 0
    else if |b| == 0 then false
    else a[0] < b[0] || (a[0] == b[0] && LexLess(a[1..], b[1..]))
  }

  lemma {:induction false} LexLessIrreflexive(a: string)
    ensures !LexLess(a, a)
    decreases |a|
  {
    if |a| > 0 {
      LexLessIrreflexive(a[1..]);
    }
  }

  lemma {:induction false} LexLessTotal(a: string, b: string)
    ensures a == b || LexLess(a, b) || LexLess(b, a)
    decreases |a|
  {
    if |a| > 0 && |b| > 0 && a[0] == b[0] {
      LexLessTotal(a[1..], b[1..]);
      if a[1..] == b[1..] {
        assert a == [a[0]] + a[1..] && b == [b[0]] + b[1..];
      }
    }
  }

  lemma {:induction false} LexLessAsymmetric(a: string, b: string)
    ensures !(LexLess(a, b) && LexLess(b, a))
    decreases |a|
  {
    if |a| > 0 && |b| > 0 && a[0] == b[0] {
      LexLessAsymmetric(a[1..], b[1..]);
    }
  }

  lemma {:induction false} LexLessTransitive(a: string, b: string, c: string)
    requires LexLess(a, b) && LexLess(b, c)
    ensures LexLess(a, c)
    decreases |a|
  {
    if |a| > 0 && |b| > 0 && |c| > 0 && a[0] == b[0] && b[0] == c[0] {
      LexLessTransitive(a[1..], b[1..], c[1..]);
    }
  }

  /** Every finite non-empty set of strings has a least element. */
  lemma {:induction false} LeastExists(keys: set<string>)
    requires keys != {}
    ensures exists m :: m in keys && forall k :: k in keys && k != m ==> LexLess(m, k)
    decreases |keys|
  {
    var x :| x in keys;
    var rest := keys - {x};
    if rest == {} {
      assert keys == {x};
      assert forall k :: k in keys && k != x ==> LexLess(x, k);
    } else {
      LeastExists(rest);
      var m :| m in rest && forall k :: k in rest && k != m ==> LexLess(m, k);
      var l := LeastWithOneMore(x, rest, m);
      assert rest + {x} == keys;
    }
  }

  /** The least of a set with one more element is either the old least or
      the new element. */
  lemma LeastWithOneMore(x: string, rest: set<string>, m: string) returns (l: string)
    requires m in rest && forall k :: k in rest && k != m ==> LexLess(m, k)
    ensures l in rest + {x}
    ensures forall k :: k in rest + {x} && k != l ==> LexLess(l, k)
  {
    LexLessTotal(x, m);
    if x != m && LexLess(x, m) {
      l := x;
      forall k | k in rest + {x} && k != x
        ensures LexLess(x, k)
      {
        if k != m {
          LexLessTransitive(x, m, k);
        }
      }
    } else {
      l := m;
    }
  }

  /** The least string of a non-empty set. */
  function Least(keys: set<string>): (m: string)
    requires keys != {}
    ensures m in keys
    ensures forall k :: k in keys && k != m ==> LexLess(m, k)
  {
    LeastExists(keys);
    LexOrderFacts();
    var m :| m in keys && forall k :: k in keys && k != m ==> LexLess(m, k);
    m
  }

  /** The keys of a string-keyed map in ascending order. */
  function SortedKeys<V>(m: map<string, V>): (r: seq<string>)
    ensures forall k :: k in m <==> k in r
    ensures forall i :: 0 <= i < |r| ==> r[i] in m
    ensures |r| == |m|
    ensures forall i, j :: 0 <= i < j < |r| ==> LexLess(r[i], r[j])
    decreases |m|
  {
    if |m| == 0 then []
    else
      var least := Least(m.Keys);
      assert least in m;
      var rest := SortedKeys(m - {least});
      PrependLeast(m.Keys, least, rest);
      assert |(m - {least}).Keys| == |m.Keys| - 1;
      [least] + rest
  }

  /** The least key in front of the others in order is all keys in order. */
  lemma PrependLeast(keys: set<string>, least: string, rest: seq<string>)
    requires least in keys
    requires forall k :: k in keys && k != least ==> LexLess(least, k)
    requires forall k :: k in keys - {least} <==> k in rest
    requires forall i, j :: 0 <= i < j < |rest| ==> LexLess(rest[i], rest[j])
    ensures forall k :: k in keys <==> k in [least] + rest
    ensures forall i :: 0 <= i < |[least] + rest| ==> ([least] + rest)[i] in keys
    ensures forall i, j :: 0 <= i < j < |[least] + rest| ==> LexLess(([least] + rest)[i], ([least] + rest)[j])
  {
    var r := [least] + rest;
    forall i, j | 0 <= i < j < |r|
      ensures LexLess(r[i], r[j])
    {
      assert r[j] == rest[j - 1] && r[j] in rest;
      if i > 0 {
        assert r[i] == rest[i - 1];
      }
    }
    forall i | 0 <= i < |r|
      ensures r[i] in keys
    {
      if i > 0 {
        assert r[i] == rest[i - 1] && r[i] in rest;
      }
    }
  }

  /** The facts `SortedKeys` needs to pick its least key deterministically. */
  lemma LexOrderFacts()
    ensures forall a, b :: !(LexLess(a, b) && LexLess(b, a))
  {
    forall a, b
      ensures !(LexLess(a, b) && LexLess(b, a))
    {
      LexLessAsymmetric(a, b);
    }
  }
}

=== FILE: wire.dfy ===
/** How the bots and the server meet on the wire: the bots' registration
    lines are well-formed for the server's parser and register a fresh
    connection, and what the server relays reaches the bots in a form
    their routers do or do not react to. */
module Wire {
  import opened Base
  import opened Text
  import opened IrcParse
  import opened Channel
  import opened IrcServer
  import opened ServerReceive
  import opened ServerInvariants
  import opened PyText
  import Bot2
  import Bot

  /** Text without a carriage return holds no CRLF. */
  lemma NoCrNoCrlf(s: string)
    requires '\r' !in s
    ensures !HasCrlf(s)
  {
    forall j: nat
      ensures !CrlfAt(s, j)
    {
      if j < |s| {
        assert s[j] in s;
      }
    }
  }

  /** A valid nickname is a middle parameter and holds no control
      characters. */
  lemma NicknameIsMiddle(n: string)
    requires IsValidNickname(n)
    ensures IsMiddle(n) && '\r' !in n && '\n' !in n
  {
    forall i | 0 <= i < |n|
      ensures n[i] != ' ' && n[i] != '\r' && n[i] != '\n'
    {
      assert IsNickChar(n[i]);
    }
  }

  /** bot2's `NICK n` line is read as NICK with the single parameter `n`. */
  lemma NickLineParses(n: string)
    requires IsMiddle(n)
    ensures ParseCommand("NICK " + n) == Command("NICK", [n])
  {
    assert FormatLine("NICK", [n], None) == "NICK " + n;
    LineRoundTrip("NICK", [n], None);
  }

  /** bot2's `USER n 0 * :n` line gives USER its four parameters. */
  lemma Bot2UserLineParses(n: string)
    requires IsMiddle(n)
    ensures ParseCommand("USER " + n + " 0 * :" + n) == Command("USER", [n, "0", "*", n])
  {
    assert FormatParams(["*"], Some(n)) == "* :" + n;
    assert FormatParams(["0", "*"], Some(n)) == "0 * :" + n;
    assert FormatParams([n, "0", "*"], Some(n)) == n + " 0 * :" + n;
    assert FormatLine("USER", [n, "0", "*"], Some(n)) == "USER " + n + " 0 * :" + n;
    LineRoundTrip("USER", [n, "0", "*"], Some(n));
  }

  /** bot.py's `USER n n n :n` line gives USER its four parameters. */
  lemma BotUserLineParses(n: string)
    requires IsMiddle(n)
    ensures ParseCommand("USER " + n + " " + n + " " + n + " :" + n) == Command("USER", [n, n, n, n])
  {
    assert FormatParams([n], Some(n)) == n + " :" + n;
    assert FormatParams([n, n], Some(n)) == n + " " + n + " :" + n;
    assert FormatParams([n, n, n], Some(n)) == n + " " + n + " " + n + " :" + n;
    assert FormatLine("USER", [n, n, n], Some(n)) == "USER " + n + " " + n + " " + n + " :" + n;
    LineRoundTrip("USER", [n, n, n], Some(n));
  }

  lemma JoinLineParses(c: string)
    requires IsMiddle(c)
    ensures ParseCommand("JOIN " + c) == Command("JOIN", [c])
  {
    assert FormatLine("JOIN", [c], None) == "JOIN " + c;
    LineRoundTrip("JOIN", [c], None);
  }

  /** Two CRLF-terminated lines reach the server as those two pieces. */
  lemma TwoLines(l1: string, l2: string)
    requires '\r' !in l1 && '\r' !in l2
    ensures SplitCrlf(l1 + "\r\n" + l2 + "\r\n").lines == [l1, l2]
  {
    var ls := [l1, l2];
    NoCrNoCrlf(l1);
    NoCrNoCrlf(l2);
    NoCrNoCrlf("");
    assert forall i :: 0 <= i < |ls| ==> !HasCrlf(ls[i]) by {
      forall i | 0 <= i < |ls|
        ensures !HasCrlf(ls[i])
      {
        assert ls[i] == if i == 0 then l1 else l2;
      }
    }
    JoinTwo(l1, l2);
    SplitJoinRoundTrip(ls, "");
  }

  lemma JoinTwo(l1: string, l2: string)
    ensures JoinCrlf([l1, l2]) + "" == l1 + "\r\n" + l2 + "\r\n"
  {
    assert [l1, l2][1..] == [l2];
    assert [l2][1..] == [];
    assert JoinCrlf([l2]) == l2 + "\r\n";
  }

  lemma ThreeLines(l1: string, l2: string, l3: string)
    requires '\r' !in l1 && '\r' !in l2 && '\r' !in l3
    ensures SplitCrlf(l1 + "\r\n" + l2 + "\r\n" + l3 + "\r\n").lines == [l1, l2, l3]
  {
    var ls := [l1, l2, l3];
    NoCrNoCrlf(l1);
    NoCrNoCrlf(l2);
    NoCrNoCrlf(l3);
    NoCrNoCrlf("");
    assert forall i :: 0 <= i < |ls| ==> !HasCrlf(ls[i]) by {
      forall i | 0 <= i < |ls|
        ensures !HasCrlf(ls[i])
      {
        assert ls[i] == if i == 0 then l1 else if i == 1 then l2 else l3;
      }
    }
    assert [l1, l2, l3][1..] == [l2, l3];
    assert [l2, l3][1..] == [l3];
    assert JoinCrlf([l3]) == l3 + "\r\n";
    assert JoinCrlf([l2, l3]) == l2 + "\r\n" + l3 + "\r\n";
    assert JoinCrlf([l1, l2, l3]) == l1 + "\r\n" + (l2 + "\r\n" + l3 + "\r\n");
    assert JoinCrlf([l1, l2, l3]) + "" == l1 + "\r\n" + l2 + "\r\n" + l3 + "\r\n";
    SplitJoinRoundTrip(ls, "");
  }

  /** The loop over two pieces when neither ends the session. */
  lemma RunTwo(st: Server, k: nat, l1: string, l2: string)
    requires k < |st.clients|
    requires !ProcessCommand(st, k, l1).server.clients[k].disconnecting
    requires var s1 := ProcessCommand(st, k, l1).server;
      !ProcessCommand(s1, k, l2).server.clients[k].disconnecting
    ensures var s1 := ProcessCommand(st, k, l1);
      var s2 := ProcessCommand(s1.server, k, l2);
      ProcessLines(st, k, [l1, l2]) == Step(s2.server, s1.out + s2.out)
  {
    var s1 := ProcessCommand(st, k, l1);
    var s2 := ProcessCommand(s1.server, k, l2);
    assert LineStep(k)(st, l1) == s1;
    assert LineStep(k)(s1.server, l2) == s2;
    assert [l1, l2][1..] == [l2];
    assert RunLines(LineStep(k), Ended(k), s1.server, [l2]) == ServerReceive.Then(s2, Step(s2.server, []));
    assert s2.out + [] == s2.out;
  }

  /** A NICK line with a free valid nickname, from a client that is not
      yet registered: the nickname is taken and, once the username is
      also known, the client is registered and greeted. */
  lemma NickLineStep(st: Server, k: nat, line: string, n: string)
    requires k < |st.clients| && !st.clients[k].registered
    requires ParseCommand(line) == Command("NICK", [n])
    requires IsValidNickname(n) && !NickTakenByOther(st.clients, k, n)
    ensures var c := st.clients[k]; var r := ProcessCommand(st, k, line);
      && r.server.clients[k] == c.(nickname := n, registered := c.username != "")
      && r.server.channels == st.channels
      && r.out == (if c.username != "" then [ToClient(c.id, Welcome(n)), ToClient(c.id, Motd(n))] else [])
  {
    assert line != "";
    assert ProcessCommand(st, k, line) == HandleNick(st, k, [n]);
  }

  /** USER with four parameters from a client that is not yet
      registered: the fields are recorded and, once the nickname is also
      known, the client is registered and greeted. */
  lemma UserStep(st: Server, k: nat, ps: seq<string>)
    requires k < |st.clients| && !st.clients[k].registered
    requires |ps| == 4
    ensures var c := st.clients[k]; var r := HandleUser(st, k, ps);
      var reg := c.nickname != "" && ps[0] != "";
      && r.server.clients[k] == c.(username := ps[0], hostname := ps[1], realname := ps[3], registered := reg)
      && r.server.channels == st.channels
      && r.out == (if reg then [ToClient(c.id, Welcome(c.nickname)), ToClient(c.id, Motd(c.nickname))] else [])
  {
  }

  /** bot2's `connect` lines, sent by a connection that has not yet chosen
      a nickname, register it under a free valid nickname, and the server
      answers with 001 and the MOTD and nothing else. */
  lemma Bot2Registers(st: Server, k: nat, b: Bot2.Bot)
    requires Valid(st) && k < |st.clients|
    requires st.clients[k].nickname == "" && st.clients[k].username == ""
    requires !st.clients[k].disconnecting
    requires IsValidNickname(b.nickname) && !NickTakenByOther(st.clients, k, b.nickname)
    ensures var n := b.nickname; var c := st.clients[k];
      var r := ReceiveChunk(st, k, Bot2.ConnectLines(b)[0] + Bot2.ConnectLines(b)[1]);
      && r.server.clients[k].registered
      && r.server.clients[k].nickname == n
      && r.server.clients[k].username == n
      && r.out == [ToClient(c.id, Welcome(n)), ToClient(c.id, Motd(n))]
  {
    Bot2ChunkLines(b);
    Bot2LinesRegister(st, k, b.nickname);
  }

  /** The two pieces of bot2's `connect`, one after the other. */
  lemma Bot2LinesRegister(st: Server, k: nat, n: string)
    requires Valid(st) && k < |st.clients|
    requires st.clients[k].nickname == "" && st.clients[k].username == ""
    requires !st.clients[k].disconnecting
    requires IsValidNickname(n) && !NickTakenByOther(st.clients, k, n)
    ensures var c := st.clients[k];
      var r := ProcessLines(st, k, ["NICK " + n, "USER " + n + " 0 * :" + n]);
      && r.server.clients[k].registered
      && r.server.clients[k].nickname == n
      && r.server.clients[k].username == n
      && r.out == [ToClient(c.id, Welcome(n)), ToClient(c.id, Motd(n))]
  {
    var c := st.clients[k];
    var l1 := "NICK " + n;
    var l2 := "USER " + n + " 0 * :" + n;
    NicknameIsMiddle(n);
    NickLineParses(n);
    Bot2UserLineParses(n);
    assert !c.registered;
    NickLineStep(st, k, l1, n);
    var s1 := ProcessCommand(st, k, l1);
    assert s1.out == [];
    assert s1.server.clients[k] == c.(nickname := n, registered := false);
    assert l2 != "";
    assert ProcessCommand(s1.server, k, l2) == HandleUser(s1.server, k, [n, "0", "*", n]);
    UserStep(s1.server, k, [n, "0", "*", n]);
    var s2 := ProcessCommand(s1.server, k, l2);
    assert s2.out == [ToClient(c.id, Welcome(n)), ToClient(c.id, Motd(n))];
    RunTwo(st, k, l1, l2);
    assert s1.out + s2.out == s2.out;
  }

  /** The chunk of bot2's two `connect` lines reaches the server as those
      two pieces. */
  lemma Bot2ChunkLines(b: Bot2.Bot)
    requires IsValidNickname(b.nickname)
    ensures var n := b.nickname;
      SplitCrlf(Bot2.ConnectLines(b)[0] + Bot2.ConnectLines(b)[1]).lines
        == ["NICK " + n, "USER " + n + " 0 * :" + n]
  {
    var n := b.nickname;
    var l1 := "NICK " + n;
    var l2 := "USER " + n + " 0 * :" + n;
    NicknameIsMiddle(n);
    assert '\r' !in l1 && '\r' !in l2;
    assert Bot2.ConnectLines(b)[0] + Bot2.ConnectLines(b)[1] == l1 + "\r\n" + l2 + "\r\n";
    TwoLines(l1, l2);
  }

  /** bot.py's USER then NICK register the connection; nothing sent so
      far ends the session. */
  lemma BotUserThenNick(st: Server, k: nat, n: string)
    requires Valid(st) && k < |st.clients|
    requires st.clients[k].nickname == "" && st.clients[k].username == ""
    requires !st.clients[k].disconnecting
    requires IsValidNickname(n) && !NickTakenByOther(st.clients, k, n)
    ensures var r := ProcessLines(st, k, ["USER " + n + " " + n + " " + n + " :" + n, "NICK " + n]);
      && r.server.clients[k].registered
      && r.server.clients[k].nickname == n
      && !r.server.clients[k].disconnecting
      && r.server.channels == st.channels
      && r.out == [ToClient(st.clients[k].id, Welcome(n)), ToClient(st.clients[k].id, Motd(n))]
  {
    var l1 := "USER " + n + " " + n + " " + n + " :" + n;
    var l2 := "NICK " + n;
    NicknameIsMiddle(n);
    BotUserLineParses(n);
    NickLineParses(n);
    assert !st.clients[k].registered;
    assert l1 != "";
    assert ProcessCommand(st, k, l1) == HandleUser(st, k, [n, n, n, n]);
    UserStep(st, k, [n, n, n, n]);
    var s1 := ProcessCommand(st, k, l1);
    assert !NickTakenByOther(s1.server.clients, k, n) by {
      assert forall i :: 0 <= i < |st.clients| && i != k ==> s1.server.clients[i] == st.clients[i];
    }
    assert s1.out == [];
    NickLineStep(s1.server, k, l2, n);
    var s2 := ProcessCommand(s1.server, k, l2);
    assert s1.out + s2.out == s2.out;
    RunTwo(st, k, l1, l2);
  }

  /** bot2's `join_channel` line reaches the server as the one piece
      `JOIN <channel>`, which parses as JOIN with that channel. */
  lemma Bot2JoinLineArrives(b: Bot2.Bot)
    requires IsMiddle(b.channel) && '\r' !in b.channel
    ensures SplitCrlf(Bot2.JoinLine(b)).lines == ["JOIN " + b.channel]
    ensures ParseCommand(SplitCrlf(Bot2.JoinLine(b)).lines[0]) == Command("JOIN", [b.channel])
  {
    var l := "JOIN " + b.channel;
    assert '\r' !in l;
    NoCrNoCrlf(l);
    NoCrNoCrlf("");
    assert Bot2.JoinLine(b) == JoinCrlf([l]) + "";
    SplitJoinRoundTrip([l], "");
    JoinLineParses(b.channel);
  }

  /** The chunk of bot.py's three registration lines reaches the server
      as those three pieces. */
  lemma BotChunkLines(n: string, channel: string)
    requires IsValidNickname(n) && '\r' !in channel
    ensures var ls := Bot.RegistrationLines(n, channel);
      SplitCrlf(ls[0] + ls[1] + ls[2]).lines
        == ["USER " + n + " " + n + " " + n + " :" + n, "NICK " + n, "JOIN " + channel]
  {
    var ls := Bot.RegistrationLines(n, channel);
    var l1 := "USER " + n + " " + n + " " + n + " :" + n;
    var l2 := "NICK " + n;
    var l3 := "JOIN " + channel;
    NicknameIsMiddle(n);
    assert '\r' !in l1 && '\r' !in l2 && '\r' !in l3;
    assert ls[0] + ls[1] + ls[2] == l1 + "\r\n" + l2 + "\r\n" + l3 + "\r\n";
    ThreeLines(l1, l2, l3);
  }

  /** bot.py's registration lines (USER, then NICK, then JOIN) register a
      fresh connection under a free valid nickname and put it in the
      channel. */
  lemma BotRegistersAndJoins(st: Server, k: nat, n: string, channel: string)
    requires Valid(st) && k < |st.clients|
    requires st.clients[k].nickname == "" && st.clients[k].username == ""
    requires !st.clients[k].disconnecting
    requires IsValidNickname(n) && !NickTakenByOther(st.clients, k, n)
    requires IsChannelName(channel) && IsMiddle(channel) && '\r' !in channel
    ensures var ls := Bot.RegistrationLines(n, channel);
      var r := ReceiveChunk(st, k, ls[0] + ls[1] + ls[2]);
      && r.server.clients[k].registered
      && r.server.clients[k].nickname == n
      && channel in r.server.channels
      && st.clients[k].id in r.server.channels[channel]
  {
    var l1 := "USER " + n + " " + n + " " + n + " :" + n;
    var l2 := "NICK " + n;
    var l3 := "JOIN " + channel;
    BotChunkLines(n, channel);
    BotUserThenNick(st, k, n);
    var ra := ProcessLines(st, k, [l1, l2]);
    assert [l1, l2] + [l3] == [l1, l2, l3];
    ProcessInOrder(st, k, [l1, l2], [l3]);
    JoinLineStep(ra.server, k, channel);
    var rb := ProcessLines(ra.server, k, [l3]);
    assert ProcessLines(st, k, [l1, l2, l3]).server == rb.server;
  }

  /** A JOIN piece on its own: the client ends up in the channel. */
  lemma JoinLineStep(st: Server, k: nat, channel: string)
    requires k < |st.clients|
    requires IsChannelName(channel) && IsMiddle(channel)
    ensures var r := ProcessLines(st, k, ["JOIN " + channel]);
      && r.server.clients == st.clients
      && channel in r.server.channels && st.clients[k].id in r.server.channels[channel]
  {
    JoinLineParses(channel);
    OneLine(st, k, "JOIN " + channel);
    assert ProcessCommand(st, k, "JOIN " + channel) == HandleJoin(st, k, [channel]);
  }

  // ---------------------------------------------------------------------
  // What the bots make of the server's messages

  /** A word that starts with `:` is neither `PING` nor `PRIVMSG`. */
  lemma PrefixedLineIgnored(b: Bot2.Bot, line: string, roll: nat)
    requires |line| > 0 && line[0] == ':'
    ensures Bot2.HandleLine(b, line, roll) == Outcome([], false)
  {
    var n := WordLength(line);
    assert Words(line)[0] == line[..n];
    assert Words(line)[0][0] == ':';
  }

  /** Everything the server sends starts with `:` (a numeric or a relayed
      message), and it never sends PING; so bot2's `handle_data` answers
      none of it as long as the text holds no LF of its own. */
  lemma Bot2IgnoresServer(b: Bot2.Bot, text: string, rolls: nat -> nat)
    requires |text| > 0 && text[0] == ':' && '\n' !in text
    ensures Bot2.HandleData(b, text + "\r\n", rolls) == Outcome([], false)
  {
    var line := text + "\r";
    assert '\n' !in line by {
      assert forall i :: 0 <= i < |text| ==> text[i] != '\n';
    }
    assert text + "\r\n" == Join(['\n'], [line, ""]);
    SplitOnJoin([line, ""], '\n');
    PrefixedLineIgnored(b, line, rolls(0));
    assert [line, ""][1..] == [""];
    assert Bot2.HandleLines(b, [""], rolls, 1) == Outcome([], false);
    assert Bot2.HandleLines(b, [line, ""], rolls, 0)
      == PyText.AndThen(Bot2.HandleLine(b, line, rolls(0)), Bot2.HandleLines(b, [""], rolls, 1));
  }

  /** Server relays and numerics have the shape the lemma above needs. */
  lemma ServerTextsArePrefixed(nick: string, rest: string, code: string)
    ensures var t := FromUser(nick, rest); t[0] == ':' && t[|t| - 2..] == "\r\n"
    ensures var t := Numeric(code, rest); t[0] == ':' && t[|t| - 2..] == "\r\n"
  {
  }

  /** The relayed channel message contains `:!hello`. */
  lemma RelayHasGreeting(sender: string, channel: string, message: string)
    requires StartsWith(message, "!hello")
    ensures Contains(FromUser(sender, "PRIVMSG " + channel + " :" + message), ":!hello")
  {
    var data := FromUser(sender, "PRIVMSG " + channel + " :" + message);
    var head := ":" + sender + " PRIVMSG " + channel + " ";
    var tail := ":" + message + "\r\n";
    assert data == head + tail;
    assert data[|head|..|head| + 7] == tail[..7];
    assert tail[..7] == ":" + message[..6];
    assert OccursAt(data, ":!hello", |head|);
    ContainsIffOccurs(data, ":!hello");
  }

  /** The relayed message splits into the sender, `PRIVMSG`, the target
      and then the words of the text. */
  lemma RelayWords(sender: string, channel: string, message: string)
    requires IsWord(sender) && IsWord(channel)
    ensures var w := Words(FromUser(sender, "PRIVMSG " + channel + " :" + message));
      |w| >= 3 && w[0] == ":" + sender && w[1] == "PRIVMSG" && w[2] == channel
  {
    var data := FromUser(sender, "PRIVMSG " + channel + " :" + message);
    var tail := ":" + message + "\r\n";
    assert IsWord(":" + sender) by {
      assert forall i :: 1 <= i < |":" + sender| ==> (":" + sender)[i] == sender[i - 1];
    }
    assert IsWord("PRIVMSG");
    assert data == (":" + sender) + " " + ("PRIVMSG" + " " + (channel + " " + tail));
    WordsOfCons(":" + sender, "PRIVMSG" + " " + (channel + " " + tail));
    WordsOfCons("PRIVMSG", channel + " " + tail);
    WordsOfCons(channel, tail);
  }

  /** A channel message starting with `!hello`, as the server relays it to
      bot.py, is answered with the greeting in that same channel. */
  lemma BotGreetsInChannel(nickname: string, sender: string, channel: string, message: string, r1: nat, r2: nat)
    requires IsWord(sender) && IsWord(channel)
    requires StartsWith(message, "!hello")
    ensures Bot.Listen(nickname, FromUser(sender, "PRIVMSG " + channel + " :" + message), r1, r2)
      == Outcome([Bot.Say(channel, "Hello there!")], false)
  {
    var data := FromUser(sender, "PRIVMSG " + channel + " :" + message);
    RelayHasGreeting(sender, channel, message);
    RelayWords(sender, channel, message);
    assert data[0] == ':';
    assert !StartsWith(data, "PRIVMSG");
  }

  /** The server cuts lines only at CRLF, so a client's message may hold a
      bare LF, and the relay carries it on. bot2 cuts at LF, so a `PING x`
      after that LF is answered as if the server had sent it. */
  lemma Bot2AnswersRelayedPing(b: Bot2.Bot, sender: string, target: string, message: string,
                               x: string, rolls: nat -> nat)
    requires '\n' !in sender && '\n' !in target && '\n' !in message
    requires IsWord(x)
    ensures Bot2.HandleData(b, FromUser(sender, "PRIVMSG " + target + " :" + message + "\nPING " + x), rolls)
      == Outcome(["PONG " + x + "\r\n"], false)
  {
    var head := ":" + sender + " PRIVMSG " + target + " :" + message;
    var ping := "PING " + x + "\r\n";
    assert FromUser(sender, "PRIVMSG " + target + " :" + message + "\nPING " + x) == head + "\n" + ping;
    assert '\n' !in head;
    Bot2.DataInOrder(b, head, ping, rolls, 0);
    PrefixedLineIgnored(b, head, rolls(0));
    Bot2.PingDataLines(x);
    Bot2.PingLineWords(x);
    var lines := ["PING " + x + "\r", ""];
    assert lines[1..] == [""];
    assert Bot2.HandleLines(b, [""], rolls, 2) == Outcome([], false);
    assert Bot2.HandleLines(b, lines, rolls, 1) == Outcome(["PONG " + x + "\r\n"], false);
  }

  /** A relayed message ending in a bare LF reaches bot2 as the relay, then
      a lone `\r`, on which bot2 raises `IndexError`. */
  lemma Bot2CrashesOnBareLf(b: Bot2.Bot, text: string, rolls: nat -> nat)
    requires |text| > 0 && text[0] == ':' && '\n' !in text
    ensures Bot2.HandleData(b, text + "\n" + "\r\n", rolls) == Outcome([], true)
  {
    Bot2.DataInOrder(b, text, "\r\n", rolls, 0);
    PrefixedLineIgnored(b, text, rolls(0));
    assert "\r\n" == "\r" + "\n" + "";
    Bot2.DataInOrder(b, "\r", "", rolls, 1);
    Bot2.BlankLineCrashes(b, "\r", rolls(1));
  }
}
